=== FILE: README.md ===
# emu21 in Dafny

emu21 emulates a small Z80 home computer with a tile-based video controller. The
emulator exists in three variants:

- the first browser script (`old/emu21.js`);
- a native build for Emscripten and SDL (`emu21.c`), with a render-only WebAssembly
  experiment (`wasm/emu21.c`) that shares its pixel code;
- the current browser script (`emu21.js`).

All three variants expose the same kinds of state to the emulated CPU:

- a 64 KiB memory bus, with 32 KiB of ROM below 0x8000 and 32 KiB of RAM above it;
- an I/O port map at 0xB0-0xBF. It holds two scroll registers, a control byte (scroll
  high bits, zoom flags, text mode) and a VRAM address latch. It gives access to four
  8 KiB video memories (tile names, tile colours, patterns, palette), directly at the
  latch or with auto-increment;
- a scan-out pipeline that turns the registers and video memories into a 640x480 RGBA
  frame.

Only the first script and `emu21.c` go further, each with a different serial port.
The first script receives on 0xC0 (data) and 0xC1 (status). `emu21.c` transmits on
0xC2 (`putchar`) and 0xC3 (status), and reads 0 on 0xC0 and 0xC1. Both redraw only
when a dirty flag is set. The current script's
`io_read` answers 0 on every port, and it redraws on every animation frame. The
WebAssembly experiment has no CPU and no ports, only the pixel loop behind the same
dirty flag as `emu21.c`.

The first script also has two features of its own. A keyboard handler turns browser key
events into PS/2 scan code set 2 sequences and queues them for the serial port. An
Intel HEX loader reads a program into RAM.

The model is a set of pure functions over immutable machine states, one module per
concern:

| module | file | what it is |
|---|---|---|
| `Bytes` | bytes.dfy | bytes, 16-bit words, `Option`, and typed-array loads and stores (out-of-range load is `undefined`, out-of-range store is dropped) |
| `Arith` | arith.dfy | small division and modulo facts used by the bit-field proofs |
| `Bus` | bus.dfy | the two memory decodings (scripts: compare with the ROM length; native build: test bit 15) |
| `Video` | video.dfy | registers, the control byte, the latch and its masking in each variant, the port map, the video memories |
| `Scanout` | scanout.dfy | the shared pixel pipeline, the colour decoder and its inverse, the frame layout, the dirty-gated redraw |
| `ScriptScanout` | script_scanout.dfy | the current script's pixel function, with its three departures from the shared one |
| `Keyboard` | keyboard.dfy | the PS/2 table, the keydown/keyup handlers, the serial queue |
| `IntelHex` | intelhex.dfy | `load_ram`: line splitting, `substr`, `parseInt(…, 16)`, `/.{2}/g`, record types 00 and 01 |
| `OldScript` | old_script.dfy | the machine of `old/emu21.js` |
| `Native` | native.dfy | the machine of `emu21.c` |
| `Script` | script.dfy | the machine of `emu21.js` |

Bit operations are written as division and modulo by powers of two. Where the code ORs
two values, their bits never overlap, so OR is written as addition. JavaScript numbers
become unbounded integers. Each masking step (`& 0x1fff`, `& 0xFFFF`, `& 0x3ff`, the
`Uint8Array` conversion) is written out where the code applies it.

Facts of the code that the model keeps, variant by variant:

- Only the native build masks the latch to 13 bits (`& 0x1fff` on ports 0xB3 and
  0xB4). In both scripts the latch ports (`& 0xff00`, `value << 8`) can set any 16-bit
  value. A bank write with the latch past 0x1FFF is dropped in both scripts, and in the
  first script a bank read there yields `undefined`.
- Writing 0x34 to port 0xB3 and then 0x12 to port 0xB4 leaves the latch at 0x1234 in
  every variant. The native mask leaves it unchanged, since 0x1234 is below 0x2000
  (`Video.LatchExample`).
- The first script raises the dirty flag when the byte read back at the latch differs
  from the written one. Past the bank that read is `undefined`, which differs from
  every byte, so a dropped write still raises the flag. The native build raises the
  flag on every bank write. The current script has no flag and redraws on every
  animation frame.
- The current script's `io_write` switches on the whole port number, not on its low
  byte.
- A palette byte is laid out RrGgBbIi. Its I and i bits are bits 2 and 0 of every
  channel's 4-bit value, and each channel byte repeats that value in both nibbles. So
  0xF0 decodes to red 0xAA, green 0xAA, blue 0 and alpha 255 (`Scanout.ColorExample`).
- In the control byte, bits 0-1 are scroll X bits 8-9, bit 2 zoom X, bits 4-5 scroll Y
  bits 8-9, bit 6 zoom Y and bit 7 text mode; bit 3 is ignored. So 0x85 selects text
  mode and zoom X, and leaves zoom Y off because its bit 6 is 0 (`Video.ControlExample`).

## Model

| member | source | states |
|---|---|---|
| Bus.ScriptRead | old/emu21.js:34-40 | addresses below 0x8000 read ROM, the others read RAM at `address - 0x8000` |
| Bus.ScriptWrite | old/emu21.js:42-48 | a RAM address takes the byte; every other RAM cell, and every ROM or out-of-range address, leaves RAM unchanged |
| Bus.NativeRead | emu21.c:55-61 | bit 15 selects RAM and the low 15 bits index it |
| Bus.NativeWrite | emu21.c:63-69 | only addresses with bit 15 set change RAM, and only the cell at the low 15 bits |
| Bus.DecodingsAgree | emu21.c:55-69 | the bit-15 decoding and the compare-with-ROM-length decoding give the same reads and the same RAM after writes, on every 16-bit address |
| Bus.ReadAfterWrite | old/emu21.js:34-48 | a RAM write is read back and a ROM write is invisible; every other address reads as before |
| Bus.WriteVisibleIffRam | emu21.js:24-38 | every byte written to an address is read back if and only if the address is in RAM |
| Bytes.Load | old/emu21.js:52-66 | a typed-array read yields the stored byte inside the array and `undefined` exactly past its end |
| Bytes.Store | old/emu21.js:175-178 | a typed-array store inside the array sets that cell and no other; past its end it changes nothing; the length never changes |
| Video.MergeLow | old/emu21.js:106-114 | ports 0xB0/0xB1 replace the scroll's low byte and keep bits 8-9 |
| Video.ControlRoundTrip | old/emu21.js:116-131 | decoding an encoded control byte gives back every field |
| Video.DecodeControl | emu21.c:30-45 | the two scroll-high fields read from a control byte are below 4 |
| Video.EncodeControl | emu21.c:30-45 | packing the fields back into a byte leaves bit 3 clear |
| Video.ControlLosesOnlyBit3 | emu21.c:30-45 | decoding a control byte loses exactly bit 3: re-encoding gives the byte with bit 3 cleared |
| Video.ApplyControl | emu21.c:30-45 | port 0xB2 keeps both scroll low bytes, sets bits 8-9 from bits 0-1 and 4-5, and sets zoom X, zoom Y and text mode from bits 2, 6 and 7 |
| Video.ControlExample | emu21.js:54-67 | control byte 0x85 then scroll-X low 0xFF give text mode, zoom X only, scroll X 0x1FF |
| Video.ScriptLatchLow | old/emu21.js:133-135 | port 0xB3 in the scripts sets the low byte and keeps bits 8-15 |
| Video.ScriptLatchHigh | old/emu21.js:137-139 | port 0xB4 in the scripts sets bits 8-15 to the full byte, unmasked |
| Video.NativeLatchLow | emu21.c:149-151 | port 0xB3 in the native build sets the low byte and keeps bits 8-12; the latch stays below 0x2000 |
| Video.NativeLatchHigh | emu21.c:153-155 | port 0xB4 in the native build keeps only the value's low 5 bits; the latch stays below 0x2000 |
| Video.Increment13 | old/emu21.js:180-182 | the 13-bit increment adds one inside the bank and wraps 0x1FFF to 0 |
| Video.Increment16 | emu21.js:93-96 | the 16-bit increment adds one and wraps only at 0xFFFF |
| Video.LatchExample | emu21.c:149-155 | writing 0x34 then 0x12 gives 0x1234 in every variant; from 0x1FFF the 13-bit increment wraps and the 16-bit one reaches 0x2000 |
| Video.LatchProgramming | old/emu21.js:133-139 | the two latch ports, in either order, program the latch independently of its previous value (masked to 13 bits natively) |
| Video.DecodePort | old/emu21.js:104-172 | 0xB8-0xBB are the direct bank ports and 0xBC-0xBF the auto-increment ones, in both directions; the bank is the port's low two bits |
| Video.PortMapRoundTrip | emu21.c:132-194 | the port map is a bijection between the mapped port numbers and the roles; unmapped exactly below 0xB0, at 0xB5-0xB7 and above 0xC3 |
| Scanout.TileAddr | emu21.c:244-249 | the tile index's column is videoX bits 3-9; its row is videoY bits 4-8 plus, as low bit, bit 3 (graphics) or bit 9 (text mode) |
| Scanout.PatternAddr | emu21.c:251-253 | the name byte selects a 32-byte pattern; videoX bits 0-2 and videoY bits 1-2 select the byte inside it |
| Scanout.PatternNibble | emu21.c:254-259 | odd rows take the pattern byte's high nibble, even rows its low nibble |
| Scanout.PatternRowsShareByte | wasm/emu21.c:48-53 | the two rows sharing a pattern byte together read back the whole byte |
| Scanout.PaletteAddr | emu21.c:261-266 | the nibble and colour byte give palette bits 0-11; bit 12 is videoY bit 3 in text mode and bit 9 in graphics mode |
| Scanout.DecodeColorChannels | emu21.c:268-288 | each channel is 17 times its 4-bit value (C, I, c, i from high to low), and the colour is a palette colour |
| Scanout.DecodeColor | emu21.c:268-288 | the decoded colour is opaque |
| Scanout.ChannelBits | emu21.c:277-283 | a channel is its 4-bit value written into both nibbles, and its bits can be read back |
| Scanout.ColorRoundTrip | old/emu21.js:235-250 | the colour decoder is injective: encoding the decoded colour gives back the palette byte |
| Scanout.ColorRoundTripBack | wasm/emu21.c:62-77 | every palette colour is the decoding of its encoding, so the decoder's range is exactly the palette colours |
| Scanout.ColorExample | wasm/emu21.c:62-82 | palette byte 0xF0 decodes to (0xAA, 0xAA, 0, 255) |
| Scanout.WhiteExample | emu21.c:268-283 | palette byte 0xFF decodes to opaque white |
| Scanout.VideoPixel | old/emu21.js:211-235 | every pixel is an opaque palette colour, the decoding of some palette entry |
| Scanout.ZoomDoublesColumns | emu21.c:241 | with zoom X, columns 2k and 2k+1 show the same pixel |
| Scanout.ZoomDoublesRows | emu21.c:242 | with zoom Y, rows 2k and 2k+1 show the same pixel |
| Scanout.VideoX | emu21.c:241 | the horizontal video coordinate is below 1024; no more |
| Scanout.VideoY | emu21.c:242 | the vertical video coordinate is below 1024; no more |
| Scanout.Pixel | emu21.c:241-288 | every screen pixel is an opaque palette colour, the decoding of some palette entry |
| Scanout.Screen | emu21.c:239-240 | the loops visit 480 lines of 640 pixels |
| Scanout.Frame | emu21.c:239-289 | the frame is 1 228 800 bytes, four per pixel |
| Scanout.ScrollMovesPicture | wasm/emu21.c:35-36 | without zoom, one more unit of scroll X or Y moves the picture one column left or one row up |
| Scanout.LayoutByte | wasm/emu21.c:78-82 | byte k of pixel x of line y of a layout sits at `4 * (y * 640 + x) + k` |
| Scanout.FrameByte | old/emu21.js:206-257 | frame byte `4 * (y * 640 + x) + k` is channel k of pixel (x, y), and alpha is 255 |
| Scanout.Present | wasm/emu21.c:21-90 | the redraw clears the dirty flag and keeps the previous image when the flag was clear |
| Scanout.PresentIdempotent | emu21.c:233-295 | a second redraw without an intervening write changes nothing |
| ScriptScanout.VideoX | emu21.js:122 | the current script's horizontal coordinate ignores zoom and equals the shared one when zoom X is off |
| ScriptScanout.VideoY | emu21.js:123 | the current script's vertical coordinate ignores zoom and equals the shared one when zoom Y is off |
| ScriptScanout.Pixel | emu21.js:120-169 | every screen pixel is a palette colour; in graphics mode it is the decoding of an entry in the lower half of the palette |
| ScriptScanout.Screen | emu21.js:120-121 | the loops visit 480 lines of 640 pixels |
| ScriptScanout.Frame | emu21.js:120-171 | the frame is 1 228 800 bytes, four per pixel |
| ScriptScanout.TileAddr | emu21.js:125-130 | as written, the text-mode tile row's low bit is videoY bit 0 |
| ScriptScanout.PaletteAddr | emu21.js:142-147 | as written, palette bit 12 is videoY bit 3 in text mode and always 0 in graphics mode |
| ScriptScanout.VideoPixel | emu21.js:125-149 | every pixel is a palette colour; in graphics mode it always comes from the lower half of the palette |
| ScriptScanout.FrameByte | emu21.js:120-171 | the current script's frame byte `4 * (y * 640 + x) + k` is channel k of its pixel (x, y) |
| ScriptScanout.IgnoresZoom | emu21.js:122-123 | neither zoom flag changes any pixel |
| ScriptScanout.GraphicsRepeatsAfter512Rows | emu21.js:143-147 | in graphics mode, scrolling by 512 rows shows the same picture |
| ScriptScanout.GraphicsIgnoresBit9 | emu21.js:126-146 | in graphics mode, video rows 512 apart have the same pixels |
| ScriptScanout.AgreesWithScanout | emu21.js:120-169 | without zoom, the current script draws the shared pixel on graphics rows below 512 and on text rows whose bits 0 and 9 agree |
| ScriptScanout.AgreesOnPlane | emu21.js:125-149 | on the video plane the two pixel functions agree wherever the tile row and the palette page agree |
| ScriptScanout.TextRowSlipExample | emu21.js:128 | at video row 1 in text mode the script reads tile 128 where the shared pipeline reads tile 0 |
| ScriptScanout.LostPageExample | emu21.js:146 | at video row 512 in graphics mode the script reads palette entry 0 where the shared pipeline reads 4096 |
| Keyboard.Ps2Codes | old/emu21.js:278-383 | every table entry has a non-empty make sequence with complete 0xE0 prefixes; its break sequence is the set 2 break of the make sequence; only Pause has none |
| Keyboard.PauseEntry | old/emu21.js:294 | Pause has an eight-byte make sequence and no break sequence |
| Keyboard.SingleByteBreak | old/emu21.js:279-291 | a key whose make code is one byte m is released by 0xF0, m |
| Keyboard.ExtendedBreak | old/emu21.js:349-382 | a key whose make code is 0xE0, x is released by 0xE0, 0xF0, x |
| Keyboard.PrintScreenExample | old/emu21.js:292 | Print Screen queues E0 12 E0 7C on press and E0 F0 12 E0 F0 7C on release |
| Keyboard.BreakOf | old/emu21.js:279-382 | a set 2 break sequence is at least as long as the make sequence it releases |
| Keyboard.KeyOf | old/emu21.js:386 | a key found for a string has exactly that string as its identifier |
| Keyboard.KeyOfCode | old/emu21.js:278-383 | looking up a key's identifier finds that key |
| Keyboard.KeyOfCodes | old/emu21.js:278-383 | every key's identifier leads back to that key |
| Keyboard.CodesDistinct | old/emu21.js:278-383 | no two keys share an identifier |
| Keyboard.LookupExample | old/emu21.js:279 | `Escape` finds make 0x76 and break F0 76; `escape` and `Fn` find nothing, since identifiers are case-sensitive |
| Keyboard.ReleaseRule | old/emu21.js:393-396 | an entry found for a string lacks a break sequence exactly when the string is `Pause`; otherwise the break is the non-empty set 2 break of the make sequence |
| Keyboard.Lookup | old/emu21.js:386 | `ps2Codes[event.code]` finds an entry exactly when some key's identifier equals the string, and then it is that key's entry |
| Keyboard.KeyDown | old/emu21.js:385-390 | an identifier in the table appends its key's make sequence; any other string changes nothing |
| Keyboard.KeyUp | old/emu21.js:392-397 | an identifier in the table other than `Pause` appends the set 2 break of its key's make sequence; the queue is unchanged exactly for `Pause` and for strings outside the table |
| Keyboard.Shift | old/emu21.js:89-91 | a read yields the queue head and the rest, or `undefined` exactly when the queue is empty |
| Keyboard.Status | old/emu21.js:93-99 | the status is 1 exactly when a byte is waiting and 0 exactly when none is |
| Keyboard.DrainFifo | old/emu21.js:89-91 | the queue is first in, first out: the bytes queued first are read first, in order, and later bytes stay queued |
| Keyboard.DrainEmpty | old/emu21.js:90 | every read of an empty queue yields `undefined` and the queue stays empty |
| Keyboard.PressRelease | old/emu21.js:385-397 | pressing and releasing a key queues its make sequence and then its break sequence, and reading drains them in that order |
| IntelHex.Lines | old/emu21.js:403 | splitting gives at least one line and no line holds a newline |
| IntelHex.JoinLines | old/emu21.js:403 | joining the split lines with newlines gives back the text |
| IntelHex.LinesJoin | old/emu21.js:403 | splitting newline-free lines joined by newlines gives back those lines |
| IntelHex.Substr | old/emu21.js:405-411 | `substr` gives the requested slice when it fits, the rest of the line when the slice runs past its end, and the empty string when it starts past the end |
| IntelHex.ParseDigits | old/emu21.js:409-411 | `parseInt(field, 16)` of a field made only of hex digits is the field's value |
| IntelHex.ParseInt | old/emu21.js:409-411 | a field without any hex digit reads as `NaN` |
| IntelHex.ParseHex2 | old/emu21.js:409 | reading a byte written as two hex digits gives the byte |
| IntelHex.ParseHex4 | old/emu21.js:410 | reading an address written as four hex digits gives the address |
| IntelHex.Pairs | old/emu21.js:416-417 | every match of `/.{2}/g` is two characters, and there are at most half as many matches as characters |
| IntelHex.PairsOfHexBytes | old/emu21.js:416-417 | the matches of hex-written bytes, parsed, are those bytes |
| IntelHex.ToUint8 | old/emu21.js:420 | a `Uint8Array` store keeps the value modulo 256 and turns `NaN` into 0 |
| IntelHex.WriteDataCells | old/emu21.js:418-423 | the data loop puts data byte i at CPU address `address + i` when that is RAM and changes no other cell; a `NaN` address changes nothing |
| IntelHex.WriteData | old/emu21.js:418-423 | the data loop keeps RAM at 32 KiB |
| IntelHex.LoadLine | old/emu21.js:405-424 | an unmarked line changes nothing, a type-01 record stops the load, and a stop never changes RAM |
| IntelHex.Process | old/emu21.js:404-425 | the loop over no lines leaves RAM as it was; only the as-written loader can end in a `TypeError` |
| IntelHex.DataRecordFields | old/emu21.js:405-417 | a written data record reads back as its count, address and type 0, and its payload as its bytes |
| IntelHex.LoadDataRecord | old/emu21.js:409-423 | a data record stores its bytes from its address on and the load goes on with the next line |
| IntelHex.LoadEndRecord | old/emu21.js:411-414 | an end-of-file record ends the load at once, whatever follows |
| IntelHex.SkipUnmarked | old/emu21.js:405-408 | a line without the `:` marker is skipped |
| IntelHex.DataRecordInRam | old/emu21.js:418-423 | a data record in RAM puts byte i at RAM offset `address - 0x8000 + i` and leaves every other cell alone |
| IntelHex.LoadExample | old/emu21.js:399-429 | loading AB CD at 0x8000 followed by an end record fills the first two RAM cells and nothing else |
| IntelHex.Load | old/emu21.js:399-429 | `load_ram` keeps RAM at 32 KiB |
| IntelHex.LoadAbortsOnEmptyPayload | old/emu21.js:415-417 | as written, a record announcing one byte with no data throws, and a following data record is never loaded |
| IntelHex.TolerantLoadSkipsEmptyPayload | old/emu21.js:415-417 | the corrected loader skips such a record and goes on with the next line |
| IntelHex.TolerantLoad | old/emu21.js:399-429 | the corrected loader never throws: it ends at an end-of-file record or at the end of the text |
| OldScript.Boot | old/emu21.js:14-32 | the machine starts with the given ROM, RAM and banks, scroll 0, zoom and text mode off, latch 0, a pending redraw and an empty queue |
| OldScript.MemRead | old/emu21.js:34-40 | a CPU read below 0x8000 yields the ROM byte there; any other yields RAM at `address - 0x8000` |
| OldScript.MemWrite | old/emu21.js:42-48 | a CPU write changes only RAM, and only the addressed cell; a ROM write changes nothing |
| OldScript.VideoWrite | old/emu21.js:175-183 | the byte is stored at the latch; the bank changes exactly when the latch is inside it and the byte differs; the flag is raised exactly when the byte read back differs (`undefined` included); auto-increment wraps at 0x2000 |
| OldScript.IoRead | old/emu21.js:50-102 | by port low byte: bank reads at the latch (`undefined` exactly past the bank), increment on 0xBC-0xBF, the queue head on 0xC0 (`undefined` on an empty queue, which stays empty), the queue status on 0xC1, 0 elsewhere; nothing else changes |
| OldScript.IoWrite | old/emu21.js:104-173 | by port low byte: scroll and control writes raise the flag, the latch ports do not, bank ports go through `video_write`, other ports change nothing |
| OldScript.KeyDown | old/emu21.js:385-390 | the keydown handler changes only the queue |
| OldScript.KeyUp | old/emu21.js:392-397 | the keyup handler changes only the queue |
| OldScript.Render | old/emu21.js:200-262 | a dirty machine gets the full frame, a clean one keeps its image; the flag is clear afterwards |
| OldScript.BankReadAfterWrite | old/emu21.js:141-155 | a byte written through a direct bank port is read back there while the latch is inside the bank; past it, the write is lost but still dirties |
| OldScript.SameByteIsClean | old/emu21.js:175-179 | rewriting the byte already stored changes nothing, the dirty flag included |
| OldScript.DirectWriteIdempotent | old/emu21.js:175-183 | writing the same byte twice through a direct port is writing it once |
| OldScript.LatchProgramming | old/emu21.js:133-139 | the two latch ports in either order set the whole 16-bit latch |
| OldScript.AutoIncrementStaysInBank | old/emu21.js:69-87 | every auto-increment access leaves the latch inside the bank, wrapping 0x1FFF to 0 |
| OldScript.StatusMatchesData | old/emu21.js:89-99 | port 0xC1 reads 1 exactly when a read of 0xC0 would yield a byte |
| OldScript.TypedKeyIsRead | old/emu21.js:385-397 | a key pressed and released on an empty queue is read back from 0xC0 as make then break, leaving the machine as before |
| OldScript.ReadSerialDrains | old/emu21.js:89-91 | reading 0xC0 once per queued byte returns the bytes in order and empties the queue |
| OldScript.WriteBlockStores | old/emu21.js:157-171 | a block write through an auto-increment port changes only its bank, by one store per byte |
| OldScript.BlockLands | old/emu21.js:157-183 | byte j of a block of up to 8 KiB lands j cells after the latch, wrapping around the bank |
| OldScript.StoresMiss | old/emu21.js:180-182 | cells further ahead of the latch than the block length keep their contents |
| OldScript.BlockLatch | old/emu21.js:180-182 | after a block write the latch has moved on by the block length, around the bank |
| Native.MemRead | emu21.c:55-61 | a CPU read from 0x8000 up yields RAM at `address - 0x8000`; any lower one yields the ROM byte there |
| Native.Boot | emu21.c:303-309 | the machine starts with the ROM image followed by zeros, zeroed RAM, each video byte the matching `rand()` draw modulo 255 (never 0xFF), power-on registers, latch 0 and a pending redraw |
| Native.MemWrite | emu21.c:63-69 | a native CPU write changes only the addressed RAM cell; a ROM write changes nothing |
| Native.VideoWrite | emu21.c:47-53 | the byte is always stored at the latch and the flag always raised; auto-increment wraps at 0x2000 |
| Native.IoIn | emu21.c:71-130 | bank reads at the latch, increment on 0xBC-0xBF, transmitter ready (0x05) on 0xC3, 0 on every other port including 0xC0 and 0xC1 |
| Native.IoOut | emu21.c:132-194 | scroll and control writes raise the flag, the latch ports mask to 13 bits, bank ports go through `video_write`, 0xC2 outputs its byte and no other port does |
| Native.RenderFrame | emu21.c:229-296 | a dirty machine gets the full frame, a clean one keeps its pixels; the flag is clear afterwards |
| Native.BankReadAfterWrite | emu21.c:157-160 | a byte written through a bank port is read back through it |
| Native.SameByteStillDirty | emu21.c:47-53 | rewriting the byte already stored still raises the flag, though no bank changes |
| Native.LatchIsMaskedScriptLatch | emu21.c:149-155 | the native latch ports are the script ones reduced modulo 0x2000 |
| Native.AgreesWithOldScript | emu21.c:132-194 | the native build and the first script set the same registers, latch and banks on every port write, except a latch-high byte of 32 or more |
| Native.RenderOnce | emu21.c:233-295 | a second redraw without an intervening write changes nothing |
| Script.MemWrite | emu21.js:32-38 | a CPU write changes only the addressed RAM cell; a ROM write changes nothing |
| Script.Boot | emu21.js:10-22 | the machine starts with a zeroed ROM, the given RAM and video memories, power-on registers and latch 0 |
| Script.IoRead | emu21.js:40-42 | every port reads 0 |
| Script.BankWrite | emu21.js:77-111 | the byte is stored at the latch (dropped past the bank); auto-increment is 16-bit |
| Script.IoWrite | emu21.js:44-113 | by the whole port number: scroll, control and latch ports as in the first script, bank ports through a plain store, everything else ignored |
| Script.Render | emu21.js:115-176 | every animation frame draws the full 1 228 800-byte frame, whatever was written, with no dirty flag: byte `4 * (y * 640 + x) + k` is channel k of the script's pixel (x, y) |
| Script.LatchRunsOffBank | emu21.js:93-96 | from latch 0x1FFF an auto-increment write lands and moves the latch to 0x2000, where the next write is lost |
| Script.OutOfBankWriteDropped | emu21.js:77-91 | a bank write with the latch past the bank changes no video memory |
| Script.HighPortIgnored | emu21.js:45 | a port number above 0xFF changes nothing |
| Script.AgreesWithOldScript | emu21.js:44-113 | on ports below 0x100, while the latch is short of the bank's last cell, the current and first scripts set the same registers, latch and banks |

## Left out

- The Z80 CPU core and the cycle-budgeted driver (`run_cpu`, `z80_run`, the tick and stats timers) are not modelled. Their code is outside these files.
- The random number generators (`Math.random`, `rand()`) are not modelled. The scripts' initial RAM and video contents are parameters of `OldScript.Boot` and `Script.Boot`; `Native.Boot` takes the sequence of `rand()` draws and applies `% 255` to each.
- The RAM snapshot in `localStorage`, the ROM fetch (`load_rom`, `emscripten_async_wget_data`) and `FileReader` are not modelled. These are host I/O; the model works on their results.
- The canvas and SDL surface calls (`getImageData`, `putImageData`, locking, `SDL_Flip`) and the animation scheduling are not modelled. The frame is a byte sequence handed back to the caller.
- `putchar` on port 0xC2 is not modelled as I/O. The byte is returned as `Native.IoOut`'s output.
- `console.warn` and `printf` are not modelled. They are logging only.
- JavaScript strings are UTF-16 code units, while the model's strings are Unicode scalar values. The two agree on any text without surrogate pairs.
- The record checksum is not modelled. The loader never checks it.
- Record types other than 00 and 01 are only read, as in the loader.
- `sdl-ps2.h`, `AArch32.h` and `I16LP32.h` are not part of this model. They are a scan-code helper and CPU-library headers outside the core.
- Scanout.Present: states only the length of a fresh image. `OldScript.Render` and `Native.RenderFrame` state that it is the frame.
- Native.Boot: requires an image of at most 32 KiB. `memcpy(rom, rom_data, rom_data_size)` copies a larger `rom.bin` past the end of `rom`, which is undefined behaviour in C and is not modelled.
- Scanout.VideoX: states only the 10-bit range. `Scanout.ZoomDoublesColumns` and `Scanout.ScrollMovesPicture` state how zoom and scroll move it.
- Scanout.VideoY: states only the 10-bit range. `Scanout.ZoomDoublesRows` and `Scanout.ScrollMovesPicture` state how zoom and scroll move it.
- Scanout.DecodeColor: states only the alpha. `Scanout.DecodeColorChannels` states the channels.
- Scanout.Screen: states only the shape. `Scanout.FrameByte` states which pixel each byte holds.
- Scanout.Frame: states only the length. `Scanout.FrameByte` states the contents.
- ScriptScanout.Screen: states only the shape. `ScriptScanout.FrameByte` states which pixel each byte holds.
- ScriptScanout.Frame: states only the length. `ScriptScanout.FrameByte` states the contents.
- Video.DecodeControl: states only the field ranges. `Video.ApplyControl` and `Video.ControlLosesOnlyBit3` state which bits become which field.
- IntelHex.ParseInt: states only the `NaN` case. `IntelHex.ParseDigits` states the value of a hex field.
- IntelHex.WriteData: states only the RAM size. `IntelHex.WriteDataCells` states the contents.
- IntelHex.Load: states only the RAM size. `IntelHex.LoadLine`, `IntelHex.Process` and the record lemmas state the behaviour.
- Keyboard.BreakOf: states only the length. `Keyboard.SingleByteBreak` and `Keyboard.ExtendedBreak` state the bytes.
- IntelHex.Pairs: states only the match shape. The matches of well-formed data are stated by `IntelHex.PairsOfHexBytes`.

## Findings

| source | as written | input that shows it | evidently intended | confidence | as-written member | corrected member |
|---|---|---|---|---|---|---|
| emu21.js:128 | `videoY & 0x200 >>> 9` parses as `videoY & (0x200 >>> 9)`, so the text-mode tile row takes videoY bit 0 | text mode, video row 1: tile 128 is read instead of tile 0 | `(videoY & 0x200) >>> 9`, videoY bit 9, as in the other variants | high; not executed | ScriptScanout.TextRowSlipExample | Scanout.TileAddr |
| emu21.js:146 | the graphics-mode palette page bit is ORed into `pattern_addr`, which is no longer used, so it never reaches `palette_addr` | graphics mode, video row 512: palette entry 0 is read instead of entry 4096 | ORing the page bit into `palette_addr`, as the other variants do | high; not executed | ScriptScanout.LostPageExample | Scanout.PaletteAddr |
| old/emu21.js:415-417 | a marked record with a positive count and no two-character data match makes `match` return `null`, and `.map` throws; the remaining lines are never loaded | `:01000000` followed by a data record | skip the malformed record, as lines without the marker are skipped | medium; not executed | IntelHex.LoadAbortsOnEmptyPayload | IntelHex.TolerantLoad |

=== FILE: arith.dfy ===
/** Division facts the bit-field proofs lean on. Every bitwise operation of the
    emulator is written with `/` and `%` by powers of two; these lemmas let a proof
    read a quotient and remainder off an explicit decomposition. */
module Arith {

  lemma MulAtLeast(k: int, m: int)
    requires k >= 1 && m > 0
    ensures k * m >= m
  {
    assert k * m == (k - 1) * m + m;
    assert (k - 1) * m >= 0;
  }

  /** Division is unique: `x == q * m + r` with `0 <= r < m` fixes `x / m` and `x % m`. */
  lemma DivMod(x: int, m: int, q: int, r: int)
    requires m > 0 && 0 <= r < m && x == q * m + r
    ensures x / m == q && x % m == r
  {
    var q' := x / m;
    var r' := x % m;
    assert x == q' * m + r';
    assert (q - q') * m == r' - r;
    if q > q' {
      MulAtLeast(q - q', m);
    } else if q < q' {
      MulAtLeast(q' - q, m);
    }
  }

  /** Shifting right by a then by b is shifting right by a + b. */
  lemma DivDiv(x: nat, a: nat, b: nat)
    requires a > 0 && b > 0
    ensures x / a / b == x / (a * b)
  {
    var q := x / a / b;
    var r := x / a % b * a + x % a;
    assert x == x / a * a + x % a;
    assert x / a == q * b + x / a % b;
    assert x == q * (a * b) + r;
    assert r < a * b by {
      MulAtLeast(b - x / a % b, a);
    }
    DivMod(x, a * b, q, r);
  }

  /** Reducing one addend modulo m first does not change the sum modulo m. */
  lemma AddMod(a: nat, b: nat, m: nat)
    requires m > 0
    ensures (a + b % m) % m == (a + b) % m
  {
    var q := (a + b % m) / m;
    var r := (a + b % m) % m;
    assert b == b / m * m + b % m;
    assert a + b == (q + b / m) * m + r;
    DivMod(a + b, m, q + b / m, r);
  }
}

=== FILE: bus.dfy ===
/** The CPU-visible memory bus: a 64 KiB space whose lower half is ROM and whose
    upper half is RAM. Two decodings exist: the scripts compare the address with
    the ROM length, the native build tests address bit 15. */
module Bus {
  import opened Bytes

  const ROM_SIZE: nat := 0x8000
  const RAM_SIZE: nat := 0x8000

  predicate ValidMemory(rom: seq<byte>, ram: seq<byte>)
  {
    |rom| == ROM_SIZE && |ram| == RAM_SIZE
  }

  /** `mem_read` of the scripts: below the ROM length read ROM, otherwise RAM
      offset by the ROM length. */
  function ScriptRead(rom: seq<byte>, ram: seq<byte>, address: u16): (v: byte)
    requires ValidMemory(rom, ram)
    ensures address < ROM_SIZE ==> v == rom[address]
    ensures address >= ROM_SIZE ==> v == ram[address - ROM_SIZE]
  {
    if address < |rom| then rom[address] else ram[address - |rom|]
  }

  /** `mem_write` of the scripts, returning the new RAM. The address is a plain
      number because the program loader can hand over a negative record address
      and keeps counting past 0xFFFF; a negative address lies on the ROM side and
      a store beyond the end of the RAM array is dropped like any typed-array store. */
  function ScriptWrite(rom: seq<byte>, ram: seq<byte>, address: int, value: byte): (ram': seq<byte>)
    requires ValidMemory(rom, ram)
    ensures |ram'| == RAM_SIZE
    ensures ROM_SIZE <= address < ROM_SIZE + RAM_SIZE ==> ram'[address - ROM_SIZE] == value
    ensures forall j :: 0 <= j < RAM_SIZE && j + ROM_SIZE != address ==> ram'[j] == ram[j]
  {
    if address < |rom| then ram else Store(ram, address - |rom|, value)
  }

  /** `mem_read` of the native build: bit 15 selects RAM, the low 15 bits index it. */
  function NativeRead(rom: seq<byte>, ram: seq<byte>, address: u16): (v: byte)
    requires ValidMemory(rom, ram)
    ensures address / 0x8000 == 1 ==> v == ram[address % 0x8000]
    ensures address / 0x8000 == 0 ==> v == rom[address % 0x8000]
  {
    if address / 0x8000 % 2 == 1 then ram[address % 0x8000] else rom[address % 0x8000]
  }

  /** `mem_write` of the native build: only addresses with bit 15 set reach RAM. */
  function NativeWrite(rom: seq<byte>, ram: seq<byte>, address: u16, value: byte): (ram': seq<byte>)
    requires ValidMemory(rom, ram)
    ensures |ram'| == RAM_SIZE
    ensures address < 0x8000 ==> ram' == ram
    ensures address >= 0x8000 ==> ram'[address % 0x8000] == value
    ensures forall j :: 0 <= j < RAM_SIZE && j != address % 0x8000 ==> ram'[j] == ram[j]
  {
    if address / 0x8000 % 2 == 1 then ram[address % 0x8000 := value] else ram
  }

  /** The two decodings agree on every 16-bit address, for reads and for writes. */
  lemma DecodingsAgree(rom: seq<byte>, ram: seq<byte>, address: u16, value: byte)
    requires ValidMemory(rom, ram)
    ensures ScriptRead(rom, ram, address) == NativeRead(rom, ram, address)
    ensures ScriptWrite(rom, ram, address, value) == NativeWrite(rom, ram, address, value)
  {
  }

  /** A RAM write is read back unchanged; a ROM write is invisible to every later read;
      either way, every other address reads as before. */
  lemma ReadAfterWrite(rom: seq<byte>, ram: seq<byte>, address: u16, value: byte, other: u16)
    requires ValidMemory(rom, ram)
    ensures var ram' := ScriptWrite(rom, ram, address, value);
            ScriptRead(rom, ram', address) == if address >= ROM_SIZE then value else rom[address]
    ensures other != address ==>
              ScriptRead(rom, ScriptWrite(rom, ram, address, value), other) == ScriptRead(rom, ram, other)
  {
  }

  /** Writing through the bus reaches the cell read through the bus if and only if
      the address lies in RAM. */
  lemma WriteVisibleIffRam(rom: seq<byte>, ram: seq<byte>, address: u16)
    requires ValidMemory(rom, ram)
    ensures (forall v: byte {:trigger ScriptWrite(rom, ram, address, v)} ::
               ScriptRead(rom, ScriptWrite(rom, ram, address, v), address) == v)
            <==> address >= ROM_SIZE
  {
    if address < ROM_SIZE {
      var v: byte := (rom[address] as int + 1) % 256;
      assert ScriptRead(rom, ScriptWrite(rom, ram, address, v), address) != v;
    }
  }
}

=== FILE: bytes.dfy ===
/** Integer widths, an optional value, and the access rules of JavaScript typed arrays,
    shared by every variant of the emulator. */
module Bytes {

  /** An 8-bit unsigned value: a `Uint8Array` cell, a `Uint8` in C, an I/O port value. */
  type byte = x: int | 0 <= x < 0x100

  /** A 16-bit unsigned value: a CPU address or a CPU port number. */
  type u16 = x: int | 0 <= x < 0x1_0000

  /** A value that may be missing; `None` stands for JavaScript's `undefined`. */
  datatype Option<+T> = None | Some(value: T)

  /** Reading a typed array: an index past its end yields `undefined`. */
  function Load(a: seq<byte>, i: nat): (r: Option<byte>)
    ensures r.Some? <==> i < |a|
    ensures r.Some? ==> r.value == a[i]
  {
    if i < |a| then Some(a[i]) else None
  }

  /** Storing into a typed array: a store past its end is silently dropped,
      and no other cell is touched. */
  function Store(a: seq<byte>, i: nat, v: byte): (r: seq<byte>)
    ensures |r| == |a|
    ensures i < |a| ==> r[i] == v
    ensures i >= |a| ==> r == a
    ensures forall j :: 0 <= j < |a| && j != i ==> r[j] == a[j]
  {
    if i < |a| then a[i := v] else a
  }

  /** Each value of a sequence, as a value that is present: the results of reads
      that all succeed. */
  function Defined<T>(xs: seq<T>): (r: seq<Option<T>>)
    ensures |r| == |xs|
    ensures forall i :: 0 <= i < |xs| ==> r[i] == Some(xs[i])
  {
    if xs == [] then [] else [Some(xs[0])] + Defined(xs[1..])
  }
}

=== FILE: intelhex.dfy ===
/** The old script's program loader `load_ram`: the text of an Intel HEX file is split
    into lines, and each line's count, address, type and data fields are cut out by
    position and read with `parseInt(field, 16)`. A data record (type 00) stores its
    bytes at consecutive addresses through `mem_write`; an end-of-file record (type 01)
    stops the loop. Other record types are read but store nothing, and the checksum
    field is never looked at. */
module IntelHex {
  import opened Bytes
  import opened Bus

  // ---------------------------------------------------------------------------
  // `text.split('\n')`
  // ---------------------------------------------------------------------------

  /** The position of the first `c` in `s`, or `|s|` when there is none. */
  function IndexOf(s: string, c: char): (i: nat)
    ensures i <= |s|
    ensures i < |s| ==> s[i] == c
    ensures forall j :: 0 <= j < i ==> s[j] != c
  {
    if s == [] then 0 else if s[0] == c then 0 else 1 + IndexOf(s[1..], c)
  }

  /** `text.split('\n')`: the pieces between newlines, always at least one. */
  function Lines(text: string): (lines: seq<string>)
    ensures |lines| >= 1
    ensures forall i :: 0 <= i < |lines| ==> '\n' !in lines[i]
    decreases |text|
  {
    var i := IndexOf(text, '\n');
    if i == |text| then [text] else [text[..i]] + Lines(text[i + 1..])
  }

  /** `lines.join('\n')`, the inverse of `Lines`. */
  function Join(lines: seq<string>): (text: string)
    requires |lines| >= 1
  {
    if |lines| == 1 then lines[0] else lines[0] + "\n" + Join(lines[1..])
  }

  /** Splitting loses nothing: joining the lines gives the text back. */
  lemma {:induction false} JoinLines(text: string)
    ensures Join(Lines(text)) == text
    decreases |text|
  {
    var i := IndexOf(text, '\n');
    if i < |text| {
      var first, rest := text[..i], text[i + 1..];
      Rejoin(text, i);
      LinesStep(text, first, rest);
      JoinCons(first, Lines(rest));
      JoinLines(rest);
      assert Join(Lines(text)) == first + ("\n" + Join(Lines(rest)));
    }
  }

  /** A text is the part before a newline, the newline, and the part after it. */
  lemma Rejoin(text: string, i: nat)
    requires i < |text| && text[i] == '\n'
    ensures text == text[..i] + ("\n" + text[i + 1..])
  {
  }

  /** Joining a line in front of at least one more. */
  lemma JoinCons(first: string, rest: seq<string>)
    requires |rest| >= 1
    ensures Join([first] + rest) == first + ("\n" + Join(rest))
  {
    assert ([first] + rest)[1..] == rest;
    assert first + "\n" + Join(rest) == first + ("\n" + Join(rest));
  }

  /** Joining newline-free lines and splitting again gives the same lines. */
  lemma {:induction false} LinesJoin(lines: seq<string>)
    requires |lines| >= 1
    requires forall i :: 0 <= i < |lines| ==> '\n' !in lines[i]
    ensures Lines(Join(lines)) == lines
  {
    if |lines| == 1 {
      NoNewlineIndex(lines[0]);
    } else {
      var text := Join(lines);
      var rest := Join(lines[1..]);
      assert text == lines[0] + ("\n" + rest);
      IndexAfterPrefix(lines[0], "\n" + rest);
      LinesStep(text, lines[0], rest);
      LinesJoin(lines[1..]);
      assert lines == [lines[0]] + lines[1..];
    }
  }

  /** A text whose first newline ends `first` splits into `first` and the lines of the rest. */
  lemma LinesStep(text: string, first: string, rest: string)
    requires text == first + ("\n" + rest) && IndexOf(text, '\n') == |first|
    ensures Lines(text) == [first] + Lines(rest)
  {
    assert text[..|first|] == first;
    assert text[|first| + 1..] == rest;
  }

  lemma NoNewlineIndex(s: string)
    requires '\n' !in s
    ensures IndexOf(s, '\n') == |s|
  {
  }

  lemma {:induction false} IndexAfterPrefix(s: string, t: string)
    requires '\n' !in s && t != [] && t[0] == '\n'
    ensures IndexOf(s + t, '\n') == |s|
  {
    if s != [] {
      assert s[0] in s;
      assert (s + t)[1..] == s[1..] + t;
      IndexAfterPrefix(s[1..], t);
    } else {
      assert s + t == t;
    }
  }

  // ---------------------------------------------------------------------------
  // `line.substr(start, length)` and `parseInt(field, 16)`
  // ---------------------------------------------------------------------------

  /** `s.substr(start, length)` for non-negative arguments: clipped to the string. */
  function Substr(s: string, start: nat, length: nat): (r: string)
    ensures |r| <= length
    ensures start + length <= |s| ==> r == s[start..start + length]
    ensures start < |s| < start + length ==> r == s[start..]
    ensures start >= |s| ==> r == ""
  {
    var from := if start < |s| then start else |s|;
    var to := if start + length < |s| then start + length else |s|;
    s[from..to]
  }

  /** The characters JavaScript's `.` does not match. */
  predicate IsLineTerminator(c: char)
  {
    c == '\n' || c == '\r' || c == '\U{2028}' || c == '\U{2029}'
  }

  /** The characters `parseInt` skips before a number: JavaScript white space and line
      terminators. */
  predicate IsJsSpace(c: char)
  {
    || c == '\t' || c == '\U{0B}' || c == '\U{0C}' || c == ' ' || c == '\U{A0}' || c == '\U{FEFF}'
    || c == '\U{1680}' || ('\U{2000}' <= c <= '\U{200A}') || c == '\U{202F}' || c == '\U{205F}'
    || c == '\U{3000}' || IsLineTerminator(c)
  }

  /** The string with its leading white space removed. */
  function TrimStart(s: string): (t: string)
    ensures |t| <= |s|
    ensures t == [] || !IsJsSpace(t[0])
  {
    if s != [] && IsJsSpace(s[0]) then TrimStart(s[1..]) else s
  }

  predicate IsHexDigit(c: char)
  {
    ('0' <= c <= '9') || ('a' <= c <= 'f') || ('A' <= c <= 'F')
  }

  function DigitValue(c: char): (d: nat)
    requires IsHexDigit(c)
    ensures d < 16
  {
    if '0' <= c <= '9' then c as int - '0' as int
    else if 'a' <= c <= 'f' then c as int - 'a' as int + 10
    else c as int - 'A' as int + 10
  }

  predicate AllHexDigits(s: string)
  {
    forall i :: 0 <= i < |s| ==> IsHexDigit(s[i])
  }

  /** The value of a string of hex digits, most significant first. */
  function HexValue(s: string): (v: nat)
    requires AllHexDigits(s)
    ensures s == [] ==> v == 0
  {
    if s == [] then 0 else HexValue(s[..|s| - 1]) * 16 + DigitValue(s[|s| - 1])
  }

  /** The length of the longest run of hex digits at the start of `s`. */
  function HexRun(s: string): (n: nat)
    ensures n <= |s|
    ensures AllHexDigits(s[..n])
    ensures n < |s| ==> !IsHexDigit(s[n])
  {
    if s != [] && IsHexDigit(s[0]) then
      var n := 1 + HexRun(s[1..]);
      assert s[..n] == [s[0]] + s[1..][..n - 1];
      n
    else 0
  }

  /** The text after an optional sign. */
  function Unsigned(t: string): (u: string)
    ensures |u| <= |t|
  {
    if |t| > 0 && (t[0] == '-' || t[0] == '+') then t[1..] else t
  }

  /** The text after an optional `0x` or `0X` prefix. */
  function Unprefixed(u: string): (d: string)
    ensures |d| <= |u|
  {
    if |u| >= 2 && u[0] == '0' && (u[1] == 'x' || u[1] == 'X') then u[2..] else u
  }

  predicate NoHexDigit(s: string)
  {
    forall i :: 0 <= i < |s| ==> !IsHexDigit(s[i])
  }

  /** Removing leading white space cannot bring a hex digit in. */
  lemma {:induction false} TrimKeepsNoHexDigit(s: string)
    ensures NoHexDigit(s) ==> NoHexDigit(TrimStart(s))
  {
    if s != [] && IsJsSpace(s[0]) {
      TrimKeepsNoHexDigit(s[1..]);
      if NoHexDigit(s) {
        assert NoHexDigit(s[1..]) by {
          forall i | 0 <= i < |s[1..]| ensures !IsHexDigit(s[1..][i]) {
            assert s[1..][i] == s[i + 1];
          }
        }
      }
    }
  }

  /** `parseInt(s, 16)`: skip white space, take an optional sign, then an optional
      `0x`/`0X` prefix, then the longest run of hex digits; `NaN` (here `None`) when
      that run is empty. Whatever follows the run is ignored. A text without any
      hex digit is `NaN`. */
  function ParseInt(s: string): (r: Option<int>)
    ensures NoHexDigit(s) ==> r.None?
  {
    var t := TrimStart(s);
    TrimKeepsNoHexDigit(s);
    var digits := Unprefixed(Unsigned(t));
    var n := HexRun(digits);
    var magnitude: int := HexValue(digits[..n]);
    if n == 0 then None
    else if |t| > 0 && t[0] == '-' then Some(-magnitude)
    else Some(magnitude)
  }

  /** A field made only of hex digits reads as its value. The `0x` rule cannot fire
      because `x` and `X` are not hex digits. */
  lemma ParseDigits(s: string)
    requires |s| > 0 && AllHexDigits(s)
    ensures ParseInt(s) == Some(HexValue(s))
  {
    assert !IsJsSpace(s[0]);
    assert TrimStart(s) == s;
    assert Unsigned(s) == s;
    if |s| >= 2 {
      assert IsHexDigit(s[1]);
    }
    assert Unprefixed(s) == s;
    HexRunAll(s);
    assert s[..|s|] == s;
  }

  lemma {:induction false} HexRunAll(s: string)
    requires AllHexDigits(s)
    ensures HexRun(s) == |s|
  {
    if s != [] {
      HexRunAll(s[1..]);
    }
  }

  // ---------------------------------------------------------------------------
  // Writing hex, the partner of reading it
  // ---------------------------------------------------------------------------

  /** The upper-case digit for a value below 16. */
  function Digit(d: nat): (c: char)
    requires d < 16
    ensures IsHexDigit(c) && DigitValue(c) == d
  {
    if d < 10 then ('0' as int + d) as char else ('A' as int + d - 10) as char
  }

  /** A byte as two hex digits. */
  function Hex2(b: byte): (s: string)
    ensures |s| == 2 && AllHexDigits(s)
    ensures HexValue(s) == b
  {
    var s := [Digit(b / 16), Digit(b % 16)];
    assert HexValue(s[..1]) == DigitValue(s[0]) by {
      assert s[..1][..0] == [];
    }
    s
  }

  /** A 16-bit value as four hex digits. */
  function Hex4(a: u16): (s: string)
    ensures |s| == 4 && AllHexDigits(s)
    ensures HexValue(s) == a
  {
    var s := Hex2(a / 256) + Hex2(a % 256);
    HexValueAppend(Hex2(a / 256), Hex2(a % 256));
    s
  }

  /** Appending two digits multiplies the value so far by 256. */
  lemma HexValueAppend(hi: string, lo: string)
    requires AllHexDigits(hi) && |lo| == 2 && AllHexDigits(lo)
    ensures AllHexDigits(hi + lo)
    ensures HexValue(hi + lo) == HexValue(hi) * 256 + HexValue(lo)
  {
    var s := hi + lo;
    assert s[..|s| - 1] == hi + [lo[0]];
    assert (hi + [lo[0]])[..|hi|] == hi;
    assert lo[..1] == [lo[0]];
    assert lo[..1][..0] == [];
  }

  /** Reading back what `Hex2` writes gives the byte. */
  lemma ParseHex2(b: byte)
    ensures ParseInt(Hex2(b)) == Some(b)
  {
    ParseDigits(Hex2(b));
  }

  /** Reading back what `Hex4` writes gives the address. */
  lemma ParseHex4(a: u16)
    ensures ParseInt(Hex4(a)) == Some(a)
  {
    ParseDigits(Hex4(a));
  }

  // ---------------------------------------------------------------------------
  // `.match(/.{2}/g).map(x => parseInt(x, 16))`
  // ---------------------------------------------------------------------------

  /** The successive non-overlapping matches of `/.{2}/g`: two characters that are not
      line terminators; where no match starts, the search moves on by one character. */
  function Pairs(s: string): (ps: seq<string>)
    ensures forall i :: 0 <= i < |ps| ==> |ps[i]| == 2
    ensures |ps| * 2 <= |s|
  {
    if |s| < 2 then []
    else if !IsLineTerminator(s[0]) && !IsLineTerminator(s[1]) then [s[..2]] + Pairs(s[2..])
    else Pairs(s[1..])
  }

  /** `parseInt` applied to every match. */
  function ParseAll(ps: seq<string>): (vs: seq<Option<int>>)
    ensures |vs| == |ps|
    ensures forall i :: 0 <= i < |ps| ==> vs[i] == ParseInt(ps[i])
  {
    if ps == [] then [] else [ParseInt(ps[0])] + ParseAll(ps[1..])
  }

  /** Bytes written as hex, back to back. */
  function HexBytes(data: seq<byte>): (s: string)
    ensures |s| == 2 * |data|
  {
    if data == [] then "" else Hex2(data[0]) + HexBytes(data[1..])
  }

  /** The matches of a run of hex-written bytes are those bytes' digit pairs, and
      `parseInt` turns each back into its byte. */
  lemma {:induction false} PairsOfHexBytes(data: seq<byte>)
    ensures ParseAll(Pairs(HexBytes(data))) == Defined(data)
  {
    if data != [] {
      var s := HexBytes(data);
      var h := Hex2(data[0]);
      assert s == h + HexBytes(data[1..]);
      assert s[..2] == h;
      assert s[2..] == HexBytes(data[1..]);
      assert IsHexDigit(h[0]) && IsHexDigit(h[1]);
      var ps := Pairs(s);
      assert ps == [h] + Pairs(HexBytes(data[1..]));
      ParseAllCons(h, Pairs(HexBytes(data[1..])));
      PairsOfHexBytes(data[1..]);
      ParseHex2(data[0]);
    }
  }

  lemma ParseAllCons(p: string, ps: seq<string>)
    ensures ParseAll([p] + ps) == [ParseInt(p)] + ParseAll(ps)
  {
    assert ([p] + ps)[1..] == ps;
  }

  // ---------------------------------------------------------------------------
  // Storing the data
  // ---------------------------------------------------------------------------

  /** The conversion a `Uint8Array` store applies: `NaN` becomes 0, any other number
      is taken modulo 256. */
  function ToUint8(v: Option<int>): (b: byte)
    ensures v.None? ==> b == 0
    ensures v.Some? ==> (b - v.value) % 256 == 0
    ensures v.Some? && 0 <= v.value < 256 ==> b == v.value
  {
    if v.None? then 0 else v.value % 256
  }

  /** The `for (let byte of data)` loop: `mem_write(address, byte)` and then
      `address += 1`; a `NaN` address stays `NaN` and every store to it is dropped. */
  function WriteData(rom: seq<byte>, ram: seq<byte>, address: Option<int>, data: seq<Option<int>>): (ram': seq<byte>)
    requires ValidMemory(rom, ram)
    ensures |ram'| == RAM_SIZE
    decreases |data|
  {
    if data == [] then ram
    else
      var ram1 := if address.Some? then ScriptWrite(rom, ram, address.value, ToUint8(data[0])) else ram;
      WriteData(rom, ram1, if address.Some? then Some(address.value + 1) else None, data[1..])
  }

  /** What the loop leaves in each RAM cell: the i-th data byte lands at CPU address
      `address + i` when that address is RAM; every other cell keeps its value. */
  lemma {:induction false} WriteDataCells(rom: seq<byte>, ram: seq<byte>, address: Option<int>,
                                          data: seq<Option<int>>, j: nat)
    requires ValidMemory(rom, ram) && j < RAM_SIZE
    ensures address.None? ==> WriteData(rom, ram, address, data)[j] == ram[j]
    ensures address.Some? ==>
              WriteData(rom, ram, address, data)[j]
                == if address.value <= j + ROM_SIZE < address.value + |data|
                   then ToUint8(data[j + ROM_SIZE - address.value]) else ram[j]
    decreases |data|
  {
    if data != [] {
      var ram1 := if address.Some? then ScriptWrite(rom, ram, address.value, ToUint8(data[0])) else ram;
      var next := if address.Some? then Some(address.value + 1) else None;
      WriteDataCells(rom, ram1, next, data[1..], j);
      if address.Some? && address.value + 1 <= j + ROM_SIZE < address.value + |data| {
        assert data[1..][j + ROM_SIZE - (address.value + 1)] == data[j + ROM_SIZE - address.value];
      }
    }
  }

  // ---------------------------------------------------------------------------
  // The line loop
  // ---------------------------------------------------------------------------

  /** How a load ends: an end-of-file record, the end of the text, or the `TypeError`
      thrown by `null.map` when a record with a positive count has no data pair,
      which abandons the remaining lines. */
  datatype Ending = EndOfFile | EndOfText | TypeError

  /** The fields of one line that starts with ':', each read with `parseInt`. */
  datatype Fields = Fields(count: Option<int>, address: Option<int>, recordType: Option<int>)

  function FieldsOf(line: string): Fields
  {
    Fields(ParseInt(Substr(line, 1, 2)), ParseInt(Substr(line, 3, 4)), ParseInt(Substr(line, 7, 2)))
  }

  /** A line that `load_ram` skips with a warning. */
  predicate Unmarked(line: string)
  {
    Substr(line, 0, 1) != ":"
  }

  /** The data pairs of a marked line with a positive count. */
  function PayloadOf(line: string, count: nat): seq<string>
  {
    Pairs(Substr(line, 9, count * 2))
  }

  /** The outcome of one line: go on with this RAM, or stop with this RAM. */
  datatype Step = Next(ram: seq<byte>) | Stop(ram: seq<byte>, ending: Ending)

  /** The body of the `for (let line of lines)` loop. With `tolerant` set, a record
      whose payload has no data pair is skipped instead of ending the load; the
      script itself runs with `tolerant` clear. */
  function LoadLine(rom: seq<byte>, ram: seq<byte>, line: string, tolerant: bool): (s: Step)
    requires ValidMemory(rom, ram)
    ensures |s.ram| == RAM_SIZE
    ensures s.Stop? ==> s.ram == ram && s.ending != EndOfText
    ensures tolerant && s.Stop? ==> s.ending == EndOfFile
    ensures Unmarked(line) ==> s == Next(ram)
    ensures !Unmarked(line) && FieldsOf(line).recordType == Some(1) ==> s == Stop(ram, EndOfFile)
  {
    if Unmarked(line) then Next(ram)
    else
      var f := FieldsOf(line);
      if f.recordType == Some(1) then Stop(ram, EndOfFile)
      else if f.count.Some? && f.count.value > 0 then
        var pairs := PayloadOf(line, f.count.value);
        if pairs == [] then
          if tolerant then Next(ram) else Stop(ram, TypeError)
        else if f.recordType == Some(0) then Next(WriteData(rom, ram, f.address, ParseAll(pairs)))
        else Next(ram)
      else Next(ram)
  }

  /** The loop over all lines. Result: the RAM and how the load ended. */
  function Process(rom: seq<byte>, ram: seq<byte>, lines: seq<string>, tolerant: bool): (r: (seq<byte>, Ending))
    requires ValidMemory(rom, ram)
    ensures |r.0| == RAM_SIZE
    ensures !tolerant || r.1 != TypeError
    ensures lines == [] ==> r == (ram, EndOfText)
    decreases |lines|
  {
    if lines == [] then (ram, EndOfText)
    else
      match LoadLine(rom, ram, lines[0], tolerant)
      case Next(ram1) => Process(rom, ram1, lines[1..], tolerant)
      case Stop(ram1, ending) => (ram1, ending)
  }

  /** `load_ram` on the text of a file. */
  function Load(rom: seq<byte>, ram: seq<byte>, text: string): (r: (seq<byte>, Ending))
    requires ValidMemory(rom, ram)
    ensures |r.0| == RAM_SIZE
  {
    Process(rom, ram, Lines(text), false)
  }

  /** `load_ram` with a record that carries no data pair skipped instead of thrown on:
      the load then always runs to an end-of-file record or the end of the text. */
  function TolerantLoad(rom: seq<byte>, ram: seq<byte>, text: string): (r: (seq<byte>, Ending))
    requires ValidMemory(rom, ram)
    ensures |r.0| == RAM_SIZE
    ensures r.1 == EndOfFile || r.1 == EndOfText
  {
    Process(rom, ram, Lines(text), true)
  }

  // ---------------------------------------------------------------------------
  // Records, written out, and what loading them does
  // ---------------------------------------------------------------------------

  /** The two's-complement checksum byte of a record's fields. */
  function Checksum(count: nat, address: u16, recordType: byte, data: seq<byte>): byte
  {
    (0x1_0000 - (count + address / 256 + address % 256 + recordType + Sum(data)) % 256) % 256
  }

  function Sum(data: seq<byte>): nat
  {
    if data == [] then 0 else data[0] + Sum(data[1..])
  }

  /** A data record `:CCAAAA00DD...DDKK` for 1 to 255 bytes. */
  function DataRecord(address: u16, data: seq<byte>): (line: string)
    requires 0 < |data| < 256
    ensures |line| == 11 + 2 * |data|
  {
    ":" + Hex2(|data|) + Hex4(address) + Hex2(0) + HexBytes(data) + Hex2(Checksum(|data|, address, 0, data))
  }

  /** The end-of-file record `:00000001FF`. */
  function EndRecord(): (line: string)
    ensures |line| == 11
  {
    ":" + Hex2(0) + Hex4(0) + Hex2(1) + Hex2(Checksum(0, 0, 1, []))
  }

  /** The fields of a written data record read back as its count, address and type 0,
      and its payload matches are its bytes. */
  lemma DataRecordFields(address: u16, data: seq<byte>)
    requires 0 < |data| < 256
    ensures !Unmarked(DataRecord(address, data))
    ensures FieldsOf(DataRecord(address, data)) == Fields(Some(|data|), Some(address), Some(0))
    ensures ParseAll(PayloadOf(DataRecord(address, data), |data|)) == Defined(data)
  {
    RecordCuts(Hex2(|data|), Hex4(address), Hex2(0), HexBytes(data), Hex2(Checksum(|data|, address, 0, data)));
    ParsedFields(DataRecord(address, data), |data|, address, data);
  }

  /** Where the fields of a record line sit, whatever their contents. */
  lemma RecordCuts(c: string, a: string, t: string, d: string, k: string)
    ensures Substr(":" + c + a + t + d + k, 0, 1) == ":"
    ensures Substr(":" + c + a + t + d + k, 1, |c|) == c
    ensures Substr(":" + c + a + t + d + k, 1 + |c|, |a|) == a
    ensures Substr(":" + c + a + t + d + k, 1 + |c| + |a|, |t|) == t
    ensures Substr(":" + c + a + t + d + k, 1 + |c| + |a| + |t|, |d|) == d
  {
    var line := ":" + c + a + t + d + k;
    CutAfter("", ":", c + a + t + d + k, line);
    CutAfter(":", c, a + t + d + k, line);
    CutAfter(":" + c, a, t + d + k, line);
    CutAfter(":" + c + a, t, d + k, line);
    CutAfter(":" + c + a + t, d, k, line);
  }

  /** A field cut out of a line that is the field between what precedes and follows it. */
  lemma CutAfter(before: string, field: string, after: string, line: string)
    requires line == before + field + after
    ensures Substr(line, |before|, |field|) == field
  {
    assert line[|before|..|before| + |field|] == field;
  }

  /** Reading the cut-out fields of a record whose fields are the written ones. */
  lemma ParsedFields(line: string, count: nat, address: u16, data: seq<byte>)
    requires count == |data| < 256
    requires Substr(line, 0, 1) == ":" && Substr(line, 1, 2) == Hex2(count)
    requires Substr(line, 3, 4) == Hex4(address) && Substr(line, 7, 2) == Hex2(0)
    requires Substr(line, 9, count * 2) == HexBytes(data)
    ensures !Unmarked(line)
    ensures FieldsOf(line) == Fields(Some(count), Some(address), Some(0))
    ensures ParseAll(PayloadOf(line, count)) == Defined(data)
  {
    ParseHex2(count);
    ParseHex4(address);
    ParseHex2(0);
    PairsOfHexBytes(data);
  }

  /** Loading a data record stores its bytes from its address on and goes on with the
      next line. */
  lemma LoadDataRecord(rom: seq<byte>, ram: seq<byte>, address: u16, data: seq<byte>, rest: seq<string>)
    requires ValidMemory(rom, ram) && 0 < |data| < 256
    ensures Process(rom, ram, [DataRecord(address, data)] + rest, false)
            == Process(rom, WriteData(rom, ram, Some(address), Defined(data)), rest, false)
  {
    var line := DataRecord(address, data);
    DataRecordFields(address, data);
    var pairs := PayloadOf(line, |data|);
    assert |pairs| == |data|;
    assert LoadLine(rom, ram, line, false) == Next(WriteData(rom, ram, Some(address), Defined(data)));
    assert ([line] + rest)[0] == line;
    assert ([line] + rest)[1..] == rest;
  }

  /** An end-of-file record ends the load at once, whatever lines follow. */
  lemma LoadEndRecord(rom: seq<byte>, ram: seq<byte>, rest: seq<string>)
    requires ValidMemory(rom, ram)
    ensures Process(rom, ram, [EndRecord()] + rest, false) == (ram, EndOfFile)
  {
    var line := EndRecord();
    assert Substr(line, 0, 1) == ":";
    assert Substr(line, 7, 2) == Hex2(1);
    ParseHex2(1);
  }

  /** A line without the start marker changes nothing. */
  lemma SkipUnmarked(rom: seq<byte>, ram: seq<byte>, line: string, rest: seq<string>, tolerant: bool)
    requires ValidMemory(rom, ram) && Unmarked(line)
    ensures Process(rom, ram, [line] + rest, tolerant) == Process(rom, ram, rest, tolerant)
  {
    assert ([line] + rest)[1..] == rest;
  }

  /** The bytes of a data record that lies in RAM end up in RAM: the i-th at offset
      `address - 0x8000 + i`; no other cell changes. */
  lemma DataRecordInRam(rom: seq<byte>, ram: seq<byte>, address: u16, data: seq<byte>, j: nat)
    requires ValidMemory(rom, ram) && 0 < |data| < 256 && j < RAM_SIZE
    requires address >= ROM_SIZE
    ensures var ram' := WriteData(rom, ram, Some(address), Defined(data));
            ram'[j] == if address - ROM_SIZE <= j < address - ROM_SIZE + |data|
                       then data[j + ROM_SIZE - address] else ram[j]
  {
    WriteDataCells(rom, ram, Some(address), Defined(data), j);
  }

  /** Two bytes AB CD at 0x8000 become the first two RAM cells. */
  lemma LoadExample(rom: seq<byte>, ram: seq<byte>)
    requires ValidMemory(rom, ram)
    ensures var r := Process(rom, ram, [DataRecord(0x8000, [0xAB, 0xCD]), EndRecord()], false);
            && r.1 == EndOfFile && r.0[0] == 0xAB && r.0[1] == 0xCD
            && forall j :: 2 <= j < RAM_SIZE ==> r.0[j] == ram[j]
  {
    var data: seq<byte> := [0xAB, 0xCD];
    var ram' := WriteData(rom, ram, Some(0x8000), Defined(data));
    LoadDataRecord(rom, ram, 0x8000, data, [EndRecord()]);
    assert [DataRecord(0x8000, data), EndRecord()] == [DataRecord(0x8000, data)] + [EndRecord()];
    LoadEndRecord(rom, ram', []);
    assert [EndRecord()] + [] == [EndRecord()];
    DataRecordInRam(rom, ram, 0x8000, data, 0);
    DataRecordInRam(rom, ram, 0x8000, data, 1);
    forall j | 2 <= j < RAM_SIZE
      ensures ram'[j] == ram[j]
    {
      DataRecordInRam(rom, ram, 0x8000, data, j);
    }
  }

  // ---------------------------------------------------------------------------
  // A record without data pairs
  // ---------------------------------------------------------------------------

  /** A line that announces one byte and carries none: `:01000000`. */
  function EmptyPayloadLine(): (line: string)
    ensures |line| == 9
  {
    ":" + Hex2(1) + Hex4(0) + Hex2(0)
  }

  /** As written, that line throws and the data record after it is never loaded. */
  lemma LoadAbortsOnEmptyPayload(rom: seq<byte>, ram: seq<byte>, address: u16, data: seq<byte>)
    requires ValidMemory(rom, ram) && 0 < |data| < 256
    ensures Process(rom, ram, [EmptyPayloadLine(), DataRecord(address, data)], false) == (ram, TypeError)
  {
    var line := EmptyPayloadLine();
    assert line[0] == ':';
    assert Substr(line, 0, 1) == ":";
    assert Substr(line, 1, 2) == Hex2(1);
    assert Substr(line, 3, 4) == Hex4(0);
    assert Substr(line, 7, 2) == Hex2(0);
    ParseHex2(1);
    ParseHex4(0);
    ParseHex2(0);
    assert Substr(line, 9, 2) == "";
    assert PayloadOf(line, 1) == [];
    assert LoadLine(rom, ram, line, false) == Stop(ram, TypeError);
  }

  /** Read tolerantly, a line with a positive count and no data pair is skipped like a
      line without the marker, and the lines after it are still loaded. */
  lemma TolerantLoadSkipsEmptyPayload(rom: seq<byte>, ram: seq<byte>, line: string, rest: seq<string>)
    requires ValidMemory(rom, ram) && !Unmarked(line)
    requires FieldsOf(line).recordType != Some(1)
    requires FieldsOf(line).count.Some? && FieldsOf(line).count.value > 0
    requires PayloadOf(line, FieldsOf(line).count.value) == []
    ensures Process(rom, ram, [line] + rest, true) == Process(rom, ram, rest, true)
    ensures Process(rom, ram, [line] + rest, false) == (ram, TypeError)
  {
    assert ([line] + rest)[1..] == rest;
  }
}

=== FILE: keyboard.dfy ===
/** The serial input queue read through ports 0xC0 and 0xC1 of the old script, and
    the keyboard handlers that fill it from a table of PS/2 scan code set 2 sequences
    keyed by the browser's physical key identifier (`event.code`). */
module Keyboard {
  import opened Bytes

  /** A key's make sequence, sent on press, and its break sequence, sent on release;
      Pause has no break sequence. */
  datatype Ps2Entry = Ps2Entry(make: seq<byte>, release: Option<seq<byte>>)

  /* The 104 keys of the `ps2Codes` table, block by block, in the table's order. */

  /** The keys of the Escape, function-key and Print Screen/Scroll Lock/Pause row. */
  datatype FunctionRowKey = Escape | F1 | F2 | F3 | F4 | F5 | F6 | F7 | F8 | F9 | F10 | F11
    | F12 | PrintScreen | ScrollLock | Pause

  /** The keys of the digit row. */
  datatype DigitRowKey = Backquote | Digit1 | Digit2 | Digit3 | Digit4 | Digit5 | Digit6
    | Digit7 | Digit8 | Digit9 | Digit0 | Minus | Equal | Backspace

  /** The keys of the Q row. */
  datatype UpperRowKey = Tab | KeyQ | KeyW | KeyE | KeyR | KeyT | KeyY | KeyU | KeyI | KeyO
    | KeyP | BracketLeft | BracketRight | Backslash

  /** The keys of the A row. */
  datatype HomeRowKey = CapsLock | KeyA | KeyS | KeyD | KeyF | KeyG | KeyH | KeyJ | KeyK
    | KeyL | Semicolon | Quote | Enter

  /** The keys of the Z row and the space-bar row. */
  datatype BottomRowsKey = ShiftLeft | KeyZ | KeyX | KeyC | KeyV | KeyB | KeyN | KeyM
    | Comma | Period | Slash | ShiftRight | ControlLeft | OSLeft | AltLeft | Space
    | AltRight | OSRight | ContextMenu | ControlRight

  /** The keys of the editing block and the arrows. */
  datatype EditingBlockKey = Insert | Home | PageUp | Delete | End | PageDown | ArrowUp
    | ArrowLeft | ArrowDown | ArrowRight

  /** The keys of the numeric keypad. */
  datatype NumpadKey = NumLock | NumpadDivide | NumpadMultiply | NumpadSubtract | Numpad7
    | Numpad8 | Numpad9 | NumpadAdd | Numpad4 | Numpad5 | Numpad6 | Numpad1 | Numpad2
    | Numpad3 | Numpad0 | NumpadDecimal | NumpadEnter

  /** A key of the table. */
  datatype Key = FunctionRow(FunctionRowKey) | DigitRow(DigitRowKey) | UpperRow(UpperRowKey)
    | HomeRow(HomeRowKey) | BottomRows(BottomRowsKey) | EditingBlock(EditingBlockKey)
    | Numpad(NumpadKey)

  /** The key identifier (`event.code`) under which the table lists a key. */
  function Code(k: Key): string
  {
    match k
    case FunctionRow(x) => FunctionRowCode(x)
    case DigitRow(x) => DigitRowCode(x)
    case UpperRow(x) => UpperRowCode(x)
    case HomeRow(x) => HomeRowCode(x)
    case BottomRows(x) => BottomRowsCode(x)
    case EditingBlock(x) => EditingBlockCode(x)
    case Numpad(x) => NumpadCode(x)
  }

  /** The `ps2Codes` table: the make and break sequences of each key. Every entry
      is well formed, and Pause is the one key without a break sequence. */
  function Ps2Codes(k: Key): (e: Ps2Entry)
    ensures WellFormed(e)
    ensures e.release.None? <==> k == PAUSE
  {
    match k
    case FunctionRow(x) => FunctionRowRules(x); FunctionRowEntry(x)
    case DigitRow(x) => DigitRowRules(x); DigitRowEntry(x)
    case UpperRow(x) => UpperRowRules(x); UpperRowEntry(x)
    case HomeRow(x) => HomeRowRules(x); HomeRowEntry(x)
    case BottomRows(x) => BottomRowsRules(x); BottomRowsEntry(x)
    case EditingBlock(x) => EditingBlockRules(x); EditingBlockEntry(x)
    case Numpad(x) => NumpadRules(x); NumpadEntry(x)
  }

  function FunctionRowCode(x: FunctionRowKey): string
  {
    match x
    case Escape => "Escape"
    case F1 => "F1"
    case F2 => "F2"
    case F3 => "F3"
    case F4 => "F4"
    case F5 => "F5"
    case F6 => "F6"
    case F7 => "F7"
    case F8 => "F8"
    case F9 => "F9"
    case F10 => "F10"
    case F11 => "F11"
    case F12 => "F12"
    case PrintScreen => "PrintScreen"
    case ScrollLock => "ScrollLock"
    case Pause => "Pause"
  }

  function FunctionRowEntry(x: FunctionRowKey): Ps2Entry
  {
    match x
    case Escape => Ps2Entry([0x76], Some([0xF0, 0x76]))
    case F1 => Ps2Entry([0x05], Some([0xF0, 0x05]))
    case F2 => Ps2Entry([0x06], Some([0xF0, 0x06]))
    case F3 => Ps2Entry([0x04], Some([0xF0, 0x04]))
    case F4 => Ps2Entry([0x0C], Some([0xF0, 0x0C]))
    case F5 => Ps2Entry([0x03], Some([0xF0, 0x03]))
    case F6 => Ps2Entry([0x0B], Some([0xF0, 0x0B]))
    case F7 => Ps2Entry([0x83], Some([0xF0, 0x83]))
    case F8 => Ps2Entry([0x0A], Some([0xF0, 0x0A]))
    case F9 => Ps2Entry([0x01], Some([0xF0, 0x01]))
    case F10 => Ps2Entry([0x09], Some([0xF0, 0x09]))
    case F11 => Ps2Entry([0x78], Some([0xF0, 0x78]))
    case F12 => Ps2Entry([0x07], Some([0xF0, 0x07]))
    case PrintScreen => Ps2Entry([0xE0, 0x12, 0xE0, 0x7C], Some([0xE0, 0xF0, 0x12, 0xE0, 0xF0, 0x7C]))
    case ScrollLock => Ps2Entry([0x7E], Some([0xF0, 0x7E]))
    case Pause => Ps2Entry([0xE1, 0x14, 0x77, 0xE1, 0xF0, 0x14, 0xE0, 0x77], None)
  }

  function DigitRowCode(x: DigitRowKey): string
  {
    match x
    case Backquote => "Backquote"
    case Digit1 => "Digit1"
    case Digit2 => "Digit2"
    case Digit3 => "Digit3"
    case Digit4 => "Digit4"
    case Digit5 => "Digit5"
    case Digit6 => "Digit6"
    case Digit7 => "Digit7"
    case Digit8 => "Digit8"
    case Digit9 => "Digit9"
    case Digit0 => "Digit0"
    case Minus => "Minus"
    case Equal => "Equal"
    case Backspace => "Backspace"
  }

  function DigitRowEntry(x: DigitRowKey): Ps2Entry
  {
    match x
    case Backquote => Ps2Entry([0x0E], Some([0xF0, 0x0E]))
    case Digit1 => Ps2Entry([0x16], Some([0xF0, 0x16]))
    case Digit2 => Ps2Entry([0x1E], Some([0xF0, 0x1E]))
    case Digit3 => Ps2Entry([0x26], Some([0xF0, 0x26]))
    case Digit4 => Ps2Entry([0x25], Some([0xF0, 0x25]))
    case Digit5 => Ps2Entry([0x2E], Some([0xF0, 0x2E]))
    case Digit6 => Ps2Entry([0x36], Some([0xF0, 0x36]))
    case Digit7 => Ps2Entry([0x3D], Some([0xF0, 0x3D]))
    case Digit8 => Ps2Entry([0x3E], Some([0xF0, 0x3E]))
    case Digit9 => Ps2Entry([0x46], Some([0xF0, 0x46]))
    case Digit0 => Ps2Entry([0x45], Some([0xF0, 0x45]))
    case Minus => Ps2Entry([0x4E], Some([0xF0, 0x4E]))
    case Equal => Ps2Entry([0x55], Some([0xF0, 0x55]))
    case Backspace => Ps2Entry([0x66], Some([0xF0, 0x66]))
  }

  function UpperRowCode(x: UpperRowKey): string
  {
    match x
    case Tab => "Tab"
    case KeyQ => "KeyQ"
    case KeyW => "KeyW"
    case KeyE => "KeyE"
    case KeyR => "KeyR"
    case KeyT => "KeyT"
    case KeyY => "KeyY"
    case KeyU => "KeyU"
    case KeyI => "KeyI"
    case KeyO => "KeyO"
    case KeyP => "KeyP"
    case BracketLeft => "BracketLeft"
    case BracketRight => "BracketRight"
    case Backslash => "Backslash"
  }

  function UpperRowEntry(x: UpperRowKey): Ps2Entry
  {
    match x
    case Tab => Ps2Entry([0x0D], Some([0xF0, 0x0D]))
    case KeyQ => Ps2Entry([0x15], Some([0xF0, 0x15]))
    case KeyW => Ps2Entry([0x1D], Some([0xF0, 0x1D]))
    case KeyE => Ps2Entry([0x24], Some([0xF0, 0x24]))
    case KeyR => Ps2Entry([0x2D], Some([0xF0, 0x2D]))
    case KeyT => Ps2Entry([0x2C], Some([0xF0, 0x2C]))
    case KeyY => Ps2Entry([0x35], Some([0xF0, 0x35]))
    case KeyU => Ps2Entry([0x3C], Some([0xF0, 0x3C]))
    case KeyI => Ps2Entry([0x43], Some([0xF0, 0x43]))
    case KeyO => Ps2Entry([0x44], Some([0xF0, 0x44]))
    case KeyP => Ps2Entry([0x4D], Some([0xF0, 0x4D]))
    case BracketLeft => Ps2Entry([0x54], Some([0xF0, 0x54]))
    case BracketRight => Ps2Entry([0x5B], Some([0xF0, 0x5B]))
    case Backslash => Ps2Entry([0x5D], Some([0xF0, 0x5D]))
  }

  function HomeRowCode(x: HomeRowKey): string
  {
    match x
    case CapsLock => "CapsLock"
    case KeyA => "KeyA"
    case KeyS => "KeyS"
    case KeyD => "KeyD"
    case KeyF => "KeyF"
    case KeyG => "KeyG"
    case KeyH => "KeyH"
    case KeyJ => "KeyJ"
    case KeyK => "KeyK"
    case KeyL => "KeyL"
    case Semicolon => "Semicolon"
    case Quote => "Quote"
    case Enter => "Enter"
  }

  function HomeRowEntry(x: HomeRowKey): Ps2Entry
  {
    match x
    case CapsLock => Ps2Entry([0x58], Some([0xF0, 0x58]))
    case KeyA => Ps2Entry([0x1C], Some([0xF0, 0x1C]))
    case KeyS => Ps2Entry([0x1B], Some([0xF0, 0x1B]))
    case KeyD => Ps2Entry([0x23], Some([0xF0, 0x23]))
    case KeyF => Ps2Entry([0x2B], Some([0xF0, 0x2B]))
    case KeyG => Ps2Entry([0x34], Some([0xF0, 0x34]))
    case KeyH => Ps2Entry([0x33], Some([0xF0, 0x33]))
    case KeyJ => Ps2Entry([0x3B], Some([0xF0, 0x3B]))
    case KeyK => Ps2Entry([0x42], Some([0xF0, 0x42]))
    case KeyL => Ps2Entry([0x4B], Some([0xF0, 0x4B]))
    case Semicolon => Ps2Entry([0x4C], Some([0xF0, 0x4C]))
    case Quote => Ps2Entry([0x52], Some([0xF0, 0x52]))
    case Enter => Ps2Entry([0x5A], Some([0xF0, 0x5A]))
  }

  function BottomRowsCode(x: BottomRowsKey): string
  {
    match x
    case ShiftLeft => "ShiftLeft"
    case KeyZ => "KeyZ"
    case KeyX => "KeyX"
    case KeyC => "KeyC"
    case KeyV => "KeyV"
    case KeyB => "KeyB"
    case KeyN => "KeyN"
    case KeyM => "KeyM"
    case Comma => "Comma"
    case Period => "Period"
    case Slash => "Slash"
    case ShiftRight => "ShiftRight"
    case ControlLeft => "ControlLeft"
    case OSLeft => "OSLeft"
    case AltLeft => "AltLeft"
    case Space => "Space"
    case AltRight => "AltRight"
    case OSRight => "OSRight"
    case ContextMenu => "ContextMenu"
    case ControlRight => "ControlRight"
  }

  function BottomRowsEntry(x: BottomRowsKey): Ps2Entry
  {
    match x
    case ShiftLeft => Ps2Entry([0x12], Some([0xF0, 0x12]))
    case KeyZ => Ps2Entry([0x1A], Some([0xF0, 0x1A]))
    case KeyX => Ps2Entry([0x22], Some([0xF0, 0x22]))
    case KeyC => Ps2Entry([0x21], Some([0xF0, 0x21]))
    case KeyV => Ps2Entry([0x2A], Some([0xF0, 0x2A]))
    case KeyB => Ps2Entry([0x32], Some([0xF0, 0x32]))
    case KeyN => Ps2Entry([0x31], Some([0xF0, 0x31]))
    case KeyM => Ps2Entry([0x3A], Some([0xF0, 0x3A]))
    case Comma => Ps2Entry([0x41], Some([0xF0, 0x41]))
    case Period => Ps2Entry([0x49], Some([0xF0, 0x49]))
    case Slash => Ps2Entry([0x4A], Some([0xF0, 0x4A]))
    case ShiftRight => Ps2Entry([0x59], Some([0xF0, 0x59]))
    case ControlLeft => Ps2Entry([0x14], Some([0xF0, 0x14]))
    case OSLeft => Ps2Entry([0xE0, 0x1F], Some([0xE0, 0xF0, 0x1F]))
    case AltLeft => Ps2Entry([0x11], Some([0xF0, 0x11]))
    case Space => Ps2Entry([0x29], Some([0xF0, 0x29]))
    case AltRight => Ps2Entry([0xE0, 0x11], Some([0xE0, 0xF0, 0x11]))
    case OSRight => Ps2Entry([0xE0, 0x27], Some([0xE0, 0xF0, 0x27]))
    case ContextMenu => Ps2Entry([0xE0, 0x2F], Some([0xE0, 0xF0, 0x2F]))
    case ControlRight => Ps2Entry([0xE0, 0x14], Some([0xE0, 0xF0, 0x14]))
  }

  function EditingBlockCode(x: EditingBlockKey): string
  {
    match x
    case Insert => "Insert"
    case Home => "Home"
    case PageUp => "PageUp"
    case Delete => "Delete"
    case End => "End"
    case PageDown => "PageDown"
    case ArrowUp => "ArrowUp"
    case ArrowLeft => "ArrowLeft"
    case ArrowDown => "ArrowDown"
    case ArrowRight => "ArrowRight"
  }

  function EditingBlockEntry(x: EditingBlockKey): Ps2Entry
  {
    match x
    case Insert => Ps2Entry([0xE0, 0x70], Some([0xE0, 0xF0, 0x70]))
    case Home => Ps2Entry([0xE0, 0x6C], Some([0xE0, 0xF0, 0x6C]))
    case PageUp => Ps2Entry([0xE0, 0x7D], Some([0xE0, 0xF0, 0x7D]))
    case Delete => Ps2Entry([0xE0, 0x71], Some([0xE0, 0xF0, 0x71]))
    case End => Ps2Entry([0xE0, 0x69], Some([0xE0, 0xF0, 0x69]))
    case PageDown => Ps2Entry([0xE0, 0x7A], Some([0xE0, 0xF0, 0x7A]))
    case ArrowUp => Ps2Entry([0xE0, 0x75], Some([0xE0, 0xF0, 0x75]))
    case ArrowLeft => Ps2Entry([0xE0, 0x6B], Some([0xE0, 0xF0, 0x6B]))
    case ArrowDown => Ps2Entry([0xE0, 0x72], Some([0xE0, 0xF0, 0x72]))
    case ArrowRight => Ps2Entry([0xE0, 0x74], Some([0xE0, 0xF0, 0x74]))
  }

  function NumpadCode(x: NumpadKey): string
  {
    match x
    case NumLock => "NumLock"
    case NumpadDivide => "NumpadDivide"
    case NumpadMultiply => "NumpadMultiply"
    case NumpadSubtract => "NumpadSubtract"
    case Numpad7 => "Numpad7"
    case Numpad8 => "Numpad8"
    case Numpad9 => "Numpad9"
    case NumpadAdd => "NumpadAdd"
    case Numpad4 => "Numpad4"
    case Numpad5 => "Numpad5"
    case Numpad6 => "Numpad6"
    case Numpad1 => "Numpad1"
    case Numpad2 => "Numpad2"
    case Numpad3 => "Numpad3"
    case Numpad0 => "Numpad0"
    case NumpadDecimal => "NumpadDecimal"
    case NumpadEnter => "NumpadEnter"
  }

  function NumpadEntry(x: NumpadKey): Ps2Entry
  {
    match x
    case NumLock => Ps2Entry([0x77], Some([0xF0, 0x77]))
    case NumpadDivide => Ps2Entry([0xE0, 0x4A], Some([0xE0, 0xF0, 0x4A]))
    case NumpadMultiply => Ps2Entry([0x7C], Some([0xF0, 0x7C]))
    case NumpadSubtract => Ps2Entry([0x7B], Some([0xF0, 0x7B]))
    case Numpad7 => Ps2Entry([0x6C], Some([0xF0, 0x6C]))
    case Numpad8 => Ps2Entry([0x75], Some([0xF0, 0x75]))
    case Numpad9 => Ps2Entry([0x7D], Some([0xF0, 0x7D]))
    case NumpadAdd => Ps2Entry([0x79], Some([0xF0, 0x79]))
    case Numpad4 => Ps2Entry([0x6B], Some([0xF0, 0x6B]))
    case Numpad5 => Ps2Entry([0x73], Some([0xF0, 0x73]))
    case Numpad6 => Ps2Entry([0x74], Some([0xF0, 0x74]))
    case Numpad1 => Ps2Entry([0x69], Some([0xF0, 0x69]))
    case Numpad2 => Ps2Entry([0x72], Some([0xF0, 0x72]))
    case Numpad3 => Ps2Entry([0x7A], Some([0xF0, 0x7A]))
    case Numpad0 => Ps2Entry([0x70], Some([0xF0, 0x70]))
    case NumpadDecimal => Ps2Entry([0x71], Some([0xF0, 0x71]))
    case NumpadEnter => Ps2Entry([0xE0, 0x5A], Some([0xE0, 0xF0, 0x5A]))
  }

  /** Reference definition of a set 2 break sequence: every 0xE0 prefix byte stays
      as it is and every other byte b becomes the pair 0xF0, b. */
  function BreakOf(make: seq<byte>): (br: seq<byte>)
    ensures |br| >= |make|
  {
    if make == [] then []
    else (if make[0] == 0xE0 then [0xE0] else [0xF0, make[0]]) + BreakOf(make[1..])
  }

  /** In a set 2 sequence an 0xE0 prefix byte is always followed by a byte that is
      not itself a prefix. */
  predicate PrefixesComplete(make: seq<byte>)
  {
    forall i :: 0 <= i < |make| && make[i] == 0xE0 ==> i + 1 < |make| && make[i + 1] != 0xE0
  }

  /** A well-formed entry: a non-empty make sequence whose 0xE0 prefixes are
      complete and, when there is a break sequence, the reference break of it. */
  predicate WellFormed(e: Ps2Entry)
  {
    && |e.make| > 0
    && PrefixesComplete(e.make)
    && (e.release.Some? ==> e.release.value == BreakOf(e.make))
  }

  /** The common shape: one code byte m, released by 0xF0, m. */
  lemma PlainEntry(m: byte)
    requires m != 0xE0
    ensures WellFormed(Ps2Entry([m], Some([0xF0, m])))
  {
    assert BreakOf([m]) == [0xF0, m] + BreakOf([]);
  }

  /** The extended shape: 0xE0, x, released by 0xE0, 0xF0, x. */
  lemma ExtendedEntry(x: byte)
    requires x != 0xE0
    ensures WellFormed(Ps2Entry([0xE0, x], Some([0xE0, 0xF0, x])))
  {
    assert [0xE0, x][1..] == [x];
    assert BreakOf([x]) == [0xF0, x] + BreakOf([]);
  }

  /** Print Screen: two extended codes in a row. */
  lemma PrintScreenEntry()
    ensures WellFormed(FunctionRowEntry(PrintScreen))
  {
    var make: seq<byte> := [0xE0, 0x12, 0xE0, 0x7C];
    assert make[1..] == [0x12, 0xE0, 0x7C] && make[2..] == [0xE0, 0x7C] && make[3..] == [0x7C];
    assert BreakOf([0x7C]) == [0xF0, 0x7C] + BreakOf([]);
  }

  /** Pause: an eight-byte make sequence only. */
  lemma PauseEntry()
    ensures WellFormed(FunctionRowEntry(Pause))
    ensures |FunctionRowEntry(Pause).make| == 8 && FunctionRowEntry(Pause).release.None?
  {
  }

  /** Pause, the one key without a break sequence. */
  const PAUSE: Key := FunctionRow(Pause)

  lemma FunctionRowRules(x: FunctionRowKey)
    ensures WellFormed(FunctionRowEntry(x))
    ensures FunctionRowEntry(x).release.None? <==> x == Pause
  {
    match x
    case Escape => PlainEntry(0x76);
    case F1 => PlainEntry(0x05);
    case F2 => PlainEntry(0x06);
    case F3 => PlainEntry(0x04);
    case F4 => PlainEntry(0x0C);
    case F5 => PlainEntry(0x03);
    case F6 => PlainEntry(0x0B);
    case F7 => PlainEntry(0x83);
    case F8 => PlainEntry(0x0A);
    case F9 => PlainEntry(0x01);
    case F10 => PlainEntry(0x09);
    case F11 => PlainEntry(0x78);
    case F12 => PlainEntry(0x07);
    case PrintScreen => PrintScreenEntry();
    case ScrollLock => PlainEntry(0x7E);
    case Pause => PauseEntry();
  }

  lemma DigitRowRules(x: DigitRowKey)
    ensures WellFormed(DigitRowEntry(x)) && DigitRowEntry(x).release.Some?
  {
    match x
    case Backquote => PlainEntry(0x0E);
    case Digit1 => PlainEntry(0x16);
    case Digit2 => PlainEntry(0x1E);
    case Digit3 => PlainEntry(0x26);
    case Digit4 => PlainEntry(0x25);
    case Digit5 => PlainEntry(0x2E);
    case Digit6 => PlainEntry(0x36);
    case Digit7 => PlainEntry(0x3D);
    case Digit8 => PlainEntry(0x3E);
    case Digit9 => PlainEntry(0x46);
    case Digit0 => PlainEntry(0x45);
    case Minus => PlainEntry(0x4E);
    case Equal => PlainEntry(0x55);
    case Backspace => PlainEntry(0x66);
  }

  lemma UpperRowRules(x: UpperRowKey)
    ensures WellFormed(UpperRowEntry(x)) && UpperRowEntry(x).release.Some?
  {
    match x
    case Tab => PlainEntry(0x0D);
    case KeyQ => PlainEntry(0x15);
    case KeyW => PlainEntry(0x1D);
    case KeyE => PlainEntry(0x24);
    case KeyR => PlainEntry(0x2D);
    case KeyT => PlainEntry(0x2C);
    case KeyY => PlainEntry(0x35);
    case KeyU => PlainEntry(0x3C);
    case KeyI => PlainEntry(0x43);
    case KeyO => PlainEntry(0x44);
    case KeyP => PlainEntry(0x4D);
    case BracketLeft => PlainEntry(0x54);
    case BracketRight => PlainEntry(0x5B);
    case Backslash => PlainEntry(0x5D);
  }

  lemma HomeRowRules(x: HomeRowKey)
    ensures WellFormed(HomeRowEntry(x)) && HomeRowEntry(x).release.Some?
  {
    match x
    case CapsLock => PlainEntry(0x58);
    case KeyA => PlainEntry(0x1C);
    case KeyS => PlainEntry(0x1B);
    case KeyD => PlainEntry(0x23);
    case KeyF => PlainEntry(0x2B);
    case KeyG => PlainEntry(0x34);
    case KeyH => PlainEntry(0x33);
    case KeyJ => PlainEntry(0x3B);
    case KeyK => PlainEntry(0x42);
    case KeyL => PlainEntry(0x4B);
    case Semicolon => PlainEntry(0x4C);
    case Quote => PlainEntry(0x52);
    case Enter => PlainEntry(0x5A);
  }

  lemma BottomRowsRules(x: BottomRowsKey)
    ensures WellFormed(BottomRowsEntry(x)) && BottomRowsEntry(x).release.Some?
  {
    match x
    case ShiftLeft => PlainEntry(0x12);
    case KeyZ => PlainEntry(0x1A);
    case KeyX => PlainEntry(0x22);
    case KeyC => PlainEntry(0x21);
    case KeyV => PlainEntry(0x2A);
    case KeyB => PlainEntry(0x32);
    case KeyN => PlainEntry(0x31);
    case KeyM => PlainEntry(0x3A);
    case Comma => PlainEntry(0x41);
    case Period => PlainEntry(0x49);
    case Slash => PlainEntry(0x4A);
    case ShiftRight => PlainEntry(0x59);
    case ControlLeft => PlainEntry(0x14);
    case OSLeft => ExtendedEntry(0x1F);
    case AltLeft => PlainEntry(0x11);
    case Space => PlainEntry(0x29);
    case AltRight => ExtendedEntry(0x11);
    case OSRight => ExtendedEntry(0x27);
    case ContextMenu => ExtendedEntry(0x2F);
    case ControlRight => ExtendedEntry(0x14);
  }

  lemma EditingBlockRules(x: EditingBlockKey)
    ensures WellFormed(EditingBlockEntry(x)) && EditingBlockEntry(x).release.Some?
  {
    match x
    case Insert => ExtendedEntry(0x70);
    case Home => ExtendedEntry(0x6C);
    case PageUp => ExtendedEntry(0x7D);
    case Delete => ExtendedEntry(0x71);
    case End => ExtendedEntry(0x69);
    case PageDown => ExtendedEntry(0x7A);
    case ArrowUp => ExtendedEntry(0x75);
    case ArrowLeft => ExtendedEntry(0x6B);
    case ArrowDown => ExtendedEntry(0x72);
    case ArrowRight => ExtendedEntry(0x74);
  }

  lemma NumpadRules(x: NumpadKey)
    ensures WellFormed(NumpadEntry(x)) && NumpadEntry(x).release.Some?
  {
    match x
    case NumLock => PlainEntry(0x77);
    case NumpadDivide => ExtendedEntry(0x4A);
    case NumpadMultiply => PlainEntry(0x7C);
    case NumpadSubtract => PlainEntry(0x7B);
    case Numpad7 => PlainEntry(0x6C);
    case Numpad8 => PlainEntry(0x75);
    case Numpad9 => PlainEntry(0x7D);
    case NumpadAdd => PlainEntry(0x79);
    case Numpad4 => PlainEntry(0x6B);
    case Numpad5 => PlainEntry(0x73);
    case Numpad6 => PlainEntry(0x74);
    case Numpad1 => PlainEntry(0x69);
    case Numpad2 => PlainEntry(0x72);
    case Numpad3 => PlainEntry(0x7A);
    case Numpad0 => PlainEntry(0x70);
    case NumpadDecimal => PlainEntry(0x71);
    case NumpadEnter => ExtendedEntry(0x5A);
  }

  /* Finding a key by its identifier. */

  /** The length and the first, next-to-last and last characters of an identifier:
      no two identifiers of the table share them. */
  function Sig(code: string): (nat, char, char, char)
    requires |code| >= 2
  {
    (|code|, code[0], code[|code| - 2], code[|code| - 1])
  }

  /** The table indexed by signature: the key whose identifier has this signature. */
  function KeyBySig(sig: (nat, char, char, char)): Option<Key>
  {
    match sig
    case (6, 'E', 'p', 'e') => Some(FunctionRow(Escape))
    case (2, 'F', 'F', '1') => Some(FunctionRow(F1))
    case (2, 'F', 'F', '2') => Some(FunctionRow(F2))
    case (2, 'F', 'F', '3') => Some(FunctionRow(F3))
    case (2, 'F', 'F', '4') => Some(FunctionRow(F4))
    case (2, 'F', 'F', '5') => Some(FunctionRow(F5))
    case (2, 'F', 'F', '6') => Some(FunctionRow(F6))
    case (2, 'F', 'F', '7') => Some(FunctionRow(F7))
    case (2, 'F', 'F', '8') => Some(FunctionRow(F8))
    case (2, 'F', 'F', '9') => Some(FunctionRow(F9))
    case (3, 'F', '1', '0') => Some(FunctionRow(F10))
    case (3, 'F', '1', '1') => Some(FunctionRow(F11))
    case (3, 'F', '1', '2') => Some(FunctionRow(F12))
    case (11, 'P', 'e', 'n') => Some(FunctionRow(PrintScreen))
    case (10, 'S', 'c', 'k') => Some(FunctionRow(ScrollLock))
    case (5, 'P', 's', 'e') => Some(FunctionRow(Pause))
    case (9, 'B', 't', 'e') => Some(DigitRow(Backquote))
    case (6, 'D', 't', '1') => Some(DigitRow(Digit1))
    case (6, 'D', 't', '2') => Some(DigitRow(Digit2))
    case (6, 'D', 't', '3') => Some(DigitRow(Digit3))
    case (6, 'D', 't', '4') => Some(DigitRow(Digit4))
    case (6, 'D', 't', '5') => Some(DigitRow(Digit5))
    case (6, 'D', 't', '6') => Some(DigitRow(Digit6))
    case (6, 'D', 't', '7') => Some(DigitRow(Digit7))
    case (6, 'D', 't', '8') => Some(DigitRow(Digit8))
    case (6, 'D', 't', '9') => Some(DigitRow(Digit9))
    case (6, 'D', 't', '0') => Some(DigitRow(Digit0))
    case (5, 'M', 'u', 's') => Some(DigitRow(Minus))
    case (5, 'E', 'a', 'l') => Some(DigitRow(Equal))
    case (9, 'B', 'c', 'e') => Some(DigitRow(Backspace))
    case (3, 'T', 'a', 'b') => Some(UpperRow(Tab))
    case (4, 'K', 'y', 'Q') => Some(UpperRow(KeyQ))
    case (4, 'K', 'y', 'W') => Some(UpperRow(KeyW))
    case (4, 'K', 'y', 'E') => Some(UpperRow(KeyE))
    case (4, 'K', 'y', 'R') => Some(UpperRow(KeyR))
    case (4, 'K', 'y', 'T') => Some(UpperRow(KeyT))
    case (4, 'K', 'y', 'Y') => Some(UpperRow(KeyY))
    case (4, 'K', 'y', 'U') => Some(UpperRow(KeyU))
    case (4, 'K', 'y', 'I') => Some(UpperRow(KeyI))
    case (4, 'K', 'y', 'O') => Some(UpperRow(KeyO))
    case (4, 'K', 'y', 'P') => Some(UpperRow(KeyP))
    case (11, 'B', 'f', 't') => Some(UpperRow(BracketLeft))
    case (12, 'B', 'h', 't') => Some(UpperRow(BracketRight))
    case (9, 'B', 's', 'h') => Some(UpperRow(Backslash))
    case (8, 'C', 'c', 'k') => Some(HomeRow(CapsLock))
    case (4, 'K', 'y', 'A') => Some(HomeRow(KeyA))
    case (4, 'K', 'y', 'S') => Some(HomeRow(KeyS))
    case (4, 'K', 'y', 'D') => Some(HomeRow(KeyD))
    case (4, 'K', 'y', 'F') => Some(HomeRow(KeyF))
    case (4, 'K', 'y', 'G') => Some(HomeRow(KeyG))
    case (4, 'K', 'y', 'H') => Some(HomeRow(KeyH))
    case (4, 'K', 'y', 'J') => Some(HomeRow(KeyJ))
    case (4, 'K', 'y', 'K') => Some(HomeRow(KeyK))
    case (4, 'K', 'y', 'L') => Some(HomeRow(KeyL))
    case (9, 'S', 'o', 'n') => Some(HomeRow(Semicolon))
    case (5, 'Q', 't', 'e') => Some(HomeRow(Quote))
    case (5, 'E', 'e', 'r') => Some(HomeRow(Enter))
    case (9, 'S', 'f', 't') => Some(BottomRows(ShiftLeft))
    case (4, 'K', 'y', 'Z') => Some(BottomRows(KeyZ))
    case (4, 'K', 'y', 'X') => Some(BottomRows(KeyX))
    case (4, 'K', 'y', 'C') => Some(BottomRows(KeyC))
    case (4, 'K', 'y', 'V') => Some(BottomRows(KeyV))
    case (4, 'K', 'y', 'B') => Some(BottomRows(KeyB))
    case (4, 'K', 'y', 'N') => Some(BottomRows(KeyN))
    case (4, 'K', 'y', 'M') => Some(BottomRows(KeyM))
    case (5, 'C', 'm', 'a') => Some(BottomRows(Comma))
    case (6, 'P', 'o', 'd') => Some(BottomRows(Period))
    case (5, 'S', 's', 'h') => Some(BottomRows(Slash))
    case (10, 'S', 'h', 't') => Some(BottomRows(ShiftRight))
    case (11, 'C', 'f', 't') => Some(BottomRows(ControlLeft))
    case (6, 'O', 'f', 't') => Some(BottomRows(OSLeft))
    case (7, 'A', 'f', 't') => Some(BottomRows(AltLeft))
    case (5, 'S', 'c', 'e') => Some(BottomRows(Space))
    case (8, 'A', 'h', 't') => Some(BottomRows(AltRight))
    case (7, 'O', 'h', 't') => Some(BottomRows(OSRight))
    case (11, 'C', 'n', 'u') => Some(BottomRows(ContextMenu))
    case (12, 'C', 'h', 't') => Some(BottomRows(ControlRight))
    case (6, 'I', 'r', 't') => Some(EditingBlock(Insert))
    case (4, 'H', 'm', 'e') => Some(EditingBlock(Home))
    case (6, 'P', 'U', 'p') => Some(EditingBlock(PageUp))
    case (6, 'D', 't', 'e') => Some(EditingBlock(Delete))
    case (3, 'E', 'n', 'd') => Some(EditingBlock(End))
    case (8, 'P', 'w', 'n') => Some(EditingBlock(PageDown))
    case (7, 'A', 'U', 'p') => Some(EditingBlock(ArrowUp))
    case (9, 'A', 'f', 't') => Some(EditingBlock(ArrowLeft))
    case (9, 'A', 'w', 'n') => Some(EditingBlock(ArrowDown))
    case (10, 'A', 'h', 't') => Some(EditingBlock(ArrowRight))
    case (7, 'N', 'c', 'k') => Some(Numpad(NumLock))
    case (12, 'N', 'd', 'e') => Some(Numpad(NumpadDivide))
    case (14, 'N', 'l', 'y') => Some(Numpad(NumpadMultiply))
    case (14, 'N', 'c', 't') => Some(Numpad(NumpadSubtract))
    case (7, 'N', 'd', '7') => Some(Numpad(Numpad7))
    case (7, 'N', 'd', '8') => Some(Numpad(Numpad8))
    case (7, 'N', 'd', '9') => Some(Numpad(Numpad9))
    case (9, 'N', 'd', 'd') => Some(Numpad(NumpadAdd))
    case (7, 'N', 'd', '4') => Some(Numpad(Numpad4))
    case (7, 'N', 'd', '5') => Some(Numpad(Numpad5))
    case (7, 'N', 'd', '6') => Some(Numpad(Numpad6))
    case (7, 'N', 'd', '1') => Some(Numpad(Numpad1))
    case (7, 'N', 'd', '2') => Some(Numpad(Numpad2))
    case (7, 'N', 'd', '3') => Some(Numpad(Numpad3))
    case (7, 'N', 'd', '0') => Some(Numpad(Numpad0))
    case (13, 'N', 'a', 'l') => Some(Numpad(NumpadDecimal))
    case (11, 'N', 'e', 'r') => Some(Numpad(NumpadEnter))
    case _ => None
  }

  /** The key listed under an identifier, if any: the candidate with the same
      signature, kept only when its whole identifier matches. */
  function KeyOf(code: string): (r: Option<Key>)
    ensures r.Some? ==> Code(r.value) == code
  {
    if |code| < 2 then None
    else
      match KeyBySig(Sig(code))
      case Some(k) => if Code(k) == code then Some(k) else None
      case None => None
  }

  lemma FunctionRowIndexed(x: FunctionRowKey)
    ensures |FunctionRowCode(x)| >= 2 && KeyBySig(Sig(FunctionRowCode(x))) == Some(FunctionRow(x))
  {
    match x
    case Escape =>
    case F1 =>
    case F2 =>
    case F3 =>
    case F4 =>
    case F5 =>
    case F6 =>
    case F7 =>
    case F8 =>
    case F9 =>
    case F10 =>
    case F11 =>
    case F12 =>
    case PrintScreen =>
    case ScrollLock =>
    case Pause =>
  }

  lemma DigitRowIndexed(x: DigitRowKey)
    ensures |DigitRowCode(x)| >= 2 && KeyBySig(Sig(DigitRowCode(x))) == Some(DigitRow(x))
  {
    match x
    case Backquote =>
    case Digit1 =>
    case Digit2 =>
    case Digit3 =>
    case Digit4 =>
    case Digit5 =>
    case Digit6 =>
    case Digit7 =>
    case Digit8 =>
    case Digit9 =>
    case Digit0 =>
    case Minus =>
    case Equal =>
    case Backspace =>
  }

  lemma UpperRowIndexed(x: UpperRowKey)
    ensures |UpperRowCode(x)| >= 2 && KeyBySig(Sig(UpperRowCode(x))) == Some(UpperRow(x))
  {
    match x
    case Tab =>
    case KeyQ =>
    case KeyW =>
    case KeyE =>
    case KeyR =>
    case KeyT =>
    case KeyY =>
    case KeyU =>
    case KeyI =>
    case KeyO =>
    case KeyP =>
    case BracketLeft =>
    case BracketRight =>
    case Backslash =>
  }

  lemma HomeRowIndexed(x: HomeRowKey)
    ensures |HomeRowCode(x)| >= 2 && KeyBySig(Sig(HomeRowCode(x))) == Some(HomeRow(x))
  {
    match x
    case CapsLock =>
    case KeyA =>
    case KeyS =>
    case KeyD =>
    case KeyF =>
    case KeyG =>
    case KeyH =>
    case KeyJ =>
    case KeyK =>
    case KeyL =>
    case Semicolon =>
    case Quote =>
    case Enter =>
  }

  lemma BottomRowsIndexed(x: BottomRowsKey)
    ensures |BottomRowsCode(x)| >= 2 && KeyBySig(Sig(BottomRowsCode(x))) == Some(BottomRows(x))
  {
    match x
    case ShiftLeft =>
    case KeyZ =>
    case KeyX =>
    case KeyC =>
    case KeyV =>
    case KeyB =>
    case KeyN =>
    case KeyM =>
    case Comma =>
    case Period =>
    case Slash =>
    case ShiftRight =>
    case ControlLeft =>
    case OSLeft =>
    case AltLeft =>
    case Space =>
    case AltRight =>
    case OSRight =>
    case ContextMenu =>
    case ControlRight =>
  }

  lemma EditingBlockIndexed(x: EditingBlockKey)
    ensures |EditingBlockCode(x)| >= 2 && KeyBySig(Sig(EditingBlockCode(x))) == Some(EditingBlock(x))
  {
    match x
    case Insert =>
    case Home =>
    case PageUp =>
    case Delete =>
    case End =>
    case PageDown =>
    case ArrowUp =>
    case ArrowLeft =>
    case ArrowDown =>
    case ArrowRight =>
  }

  lemma NumpadIndexed(x: NumpadKey)
    ensures |NumpadCode(x)| >= 2 && KeyBySig(Sig(NumpadCode(x))) == Some(Numpad(x))
  {
    match x
    case NumLock =>
    case NumpadDivide =>
    case NumpadMultiply =>
    case NumpadSubtract =>
    case Numpad7 =>
    case Numpad8 =>
    case Numpad9 =>
    case NumpadAdd =>
    case Numpad4 =>
    case Numpad5 =>
    case Numpad6 =>
    case Numpad1 =>
    case Numpad2 =>
    case Numpad3 =>
    case Numpad0 =>
    case NumpadDecimal =>
    case NumpadEnter =>
  }

  /** Every key is found under its own identifier. */
  lemma KeyOfCode(k: Key)
    ensures KeyOf(Code(k)) == Some(k)
  {
    match k
    case FunctionRow(x) => FunctionRowIndexed(x);
    case DigitRow(x) => DigitRowIndexed(x);
    case UpperRow(x) => UpperRowIndexed(x);
    case HomeRow(x) => HomeRowIndexed(x);
    case BottomRows(x) => BottomRowsIndexed(x);
    case EditingBlock(x) => EditingBlockIndexed(x);
    case Numpad(x) => NumpadIndexed(x);
  }

  lemma KeyOfCodes()
    ensures forall k :: KeyOf(Code(k)) == Some(k)
  {
    forall k {
      KeyOfCode(k);
    }
  }

  /** No two keys of the table share an identifier. */
  lemma CodesDistinct(j: Key, k: Key)
    requires Code(j) == Code(k)
    ensures j == k
  {
    KeyOfCode(j);
    KeyOfCode(k);
  }

  /** The table lookup `ps2Codes[event.code]`: the entry of the key listed under the
      identifier, and `undefined` for an identifier the table does not list. */
  function Lookup(code: string): (e: Option<Ps2Entry>)
    ensures e.Some? <==> exists k :: Code(k) == code
    ensures forall k :: Code(k) == code ==> e == Some(Ps2Codes(k))
  {
    KeyOfCodes();
    match KeyOf(code)
    case Some(k) => Some(Ps2Codes(k))
    case None => None
  }

  /** Identifiers are matched exactly: "Escape" is listed, "escape" and "Fn" are not. */
  lemma LookupExample()
    ensures Lookup("Escape") == Some(Ps2Entry([0x76], Some([0xF0, 0x76])))
    ensures Lookup("escape") == None && Lookup("Fn") == None
  {
    assert Code(FunctionRow(Escape)) == "Escape";
  }

  /** The `keydown` handler: a listed key appends its make sequence to the queue,
      any other identifier leaves the queue alone. */
  function KeyDown(queue: seq<byte>, code: string): (queue': seq<byte>)
    ensures (forall k :: Code(k) != code) ==> queue' == queue
    ensures forall k :: Code(k) == code ==> queue' == queue + Ps2Codes(k).make
  {
    match Lookup(code)
    case Some(e) => queue + e.make
    case None => queue
  }

  /** The `keyup` handler: a listed key appends its break sequence, which is the set 2
      break of its make sequence; Pause and unlisted identifiers append nothing. */
  function KeyUp(queue: seq<byte>, code: string): (queue': seq<byte>)
    ensures queue' == queue <==> (forall k :: Code(k) != code) || code == Code(PAUSE)
    ensures forall k :: Code(k) == code && k != PAUSE ==> queue' == queue + BreakOf(Ps2Codes(k).make)
  {
    match Lookup(code)
    case Some(e) =>
      ReleaseRule(code, e);
      if e.release.Some? then queue + e.release.value else queue
    case None => queue
  }

  /** The entry found under an identifier has a break sequence unless the identifier
      is Pause's, and that break sequence is the non-empty set 2 break of its make
      sequence. */
  lemma ReleaseRule(code: string, e: Ps2Entry)
    requires Lookup(code) == Some(e)
    ensures e.release.None? <==> code == Code(PAUSE)
    ensures e.release.Some? ==> e.release.value == BreakOf(e.make) && |e.release.value| > 0
    ensures forall k :: Code(k) == code ==> (k == PAUSE <==> e.release.None?)
  {
    var k :| Code(k) == code;
    assert e == Ps2Codes(k);
    forall j | Code(j) == code
      ensures j == k
    {
      CodesDistinct(j, k);
    }
  }

  /** Port 0xC0, `sio_buffer.shift()`: the head and the rest, or `undefined` and the
      unchanged empty queue. */
  function Shift(queue: seq<byte>): (r: (Option<byte>, seq<byte>))
    ensures r.0.None? <==> queue == []
    ensures r.0.Some? ==> [r.0.value] + r.1 == queue
    ensures r.0.None? ==> r.1 == queue
  {
    if queue == [] then (None, queue) else (Some(queue[0]), queue[1..])
  }

  /** Port 0xC1: 1 exactly when a byte is waiting, 0 otherwise. */
  function Status(queue: seq<byte>): (r: byte)
    ensures r == 1 <==> queue != []
    ensures r == 0 <==> queue == []
  {
    if |queue| > 0 then 1 else 0
  }

  /** The results of `n` consecutive reads of port 0xC0, and the queue left behind. */
  function Drain(queue: seq<byte>, n: nat): (r: (seq<Option<byte>>, seq<byte>))
    ensures |r.0| == n
  {
    if n == 0 then ([], queue)
    else
      var (head, rest) := Shift(queue);
      var (tail, left) := Drain(rest, n - 1);
      ([head] + tail, left)
  }

  /** First in, first out: reading as many bytes as were queued before `later`
      returns exactly those bytes, in order, and leaves `later` queued. */
  lemma {:induction false} DrainFifo(queue: seq<byte>, later: seq<byte>)
    ensures Drain(queue + later, |queue|) == (Defined(queue), later)
  {
    if queue != [] {
      var q := queue + later;
      assert q[1..] == queue[1..] + later;
      assert Shift(q) == (Some(queue[0]), queue[1..] + later);
      DrainFifo(queue[1..], later);
      assert Drain(q, |queue|) == ([Some(queue[0])] + Defined(queue[1..]), later);
      assert Defined(queue) == [Some(queue[0])] + Defined(queue[1..]);
    } else {
      assert queue + later == later;
      assert Defined(queue) == [];
    }
  }

  /** Reading an empty queue never fails: every read returns `undefined`. */
  lemma {:induction false} DrainEmpty(n: nat)
    ensures forall i :: 0 <= i < n ==> Drain([], n).0[i].None?
    ensures Drain([], n).1 == []
  {
    if n > 0 {
      DrainEmpty(n - 1);
    }
  }

  /** In a well-formed entry a single-byte make code m is released by 0xF0, m ... */
  lemma SingleByteEntry(e: Ps2Entry, m: byte)
    requires WellFormed(e) && e.make == [m] && e.release.Some?
    ensures e.release.value == [0xF0, m]
  {
    assert e.make[0] == m;
    assert BreakOf([m]) == [0xF0, m] + BreakOf([]);
  }

  /** ... and a make code 0xE0, x by 0xE0, 0xF0, x. */
  lemma ExtendedEntryBreak(e: Ps2Entry, x: byte)
    requires WellFormed(e) && e.make == [0xE0, x] && e.release.Some?
    ensures e.release.value == [0xE0, 0xF0, x]
  {
    assert e.make[1] == x;
    assert [0xE0, x][1..] == [x];
    assert BreakOf([x]) == [0xF0, x] + BreakOf([]);
  }

  /** Every key whose make code is a single byte m is released by 0xF0, m. */
  lemma SingleByteBreak(k: Key, m: byte)
    requires Ps2Codes(k).make == [m]
    ensures Ps2Codes(k).release == Some([0xF0, m])
  {
    var e := Ps2Codes(k);
    PauseEntry();
    SingleByteEntry(e, m);
  }

  /** Every key whose make code is 0xE0, x is released by 0xE0, 0xF0, x. */
  lemma ExtendedBreak(k: Key, x: byte)
    requires Ps2Codes(k).make == [0xE0, x]
    ensures Ps2Codes(k).release == Some([0xE0, 0xF0, x])
  {
    var e := Ps2Codes(k);
    PauseEntry();
    ExtendedEntryBreak(e, x);
  }

  /** Pressing and releasing a key queues its make sequence followed by its break
      sequence; the first reads of port 0xC0 then return them in that order. */
  lemma PressRelease(queue: seq<byte>, k: Key)
    requires k != PAUSE
    ensures var queued := KeyUp(KeyDown(queue, Code(k)), Code(k));
            && queued == queue + Ps2Codes(k).make + BreakOf(Ps2Codes(k).make)
            && Drain(queued, |queued|) == (Defined(queued), [])
  {
    var queued := KeyUp(KeyDown(queue, Code(k)), Code(k));
    DrainFifo(queued, []);
    assert queued + [] == queued;
  }

  /** The Print Screen example: press queues E0 12 E0 7C, release E0 F0 12 E0 F0 7C. */
  lemma PrintScreenExample()
    ensures KeyDown([], "PrintScreen") == [0xE0, 0x12, 0xE0, 0x7C]
    ensures KeyUp([], "PrintScreen") == [0xE0, 0xF0, 0x12, 0xE0, 0xF0, 0x7C]
  {
    assert Code(FunctionRow(PrintScreen)) == "PrintScreen";
  }
}

=== FILE: native.dfy ===
/** The native build (emu21.c): the same port protocol over C globals. The latch is
    kept inside the banks by masking on every write, a bank write always raises the
    dirty flag, the serial receive ports read 0, port 0xC3 reports the transmitter
    ready, and port 0xC2 prints a character. */
module Native {
  import opened Bytes
  import opened Arith
  import opened Bus
  import opened Video
  import Scanout
  import OldScript

  /** The globals `io_in`, `io_out`, `mem_read`, `mem_write` and `render_frame` use. */
  datatype Machine = Machine(
    rom: seq<byte>,
    ram: seq<byte>,
    regs: Registers,
    latch: nat,
    vram: Vram,
    dirty: bool)
  {
    /** The latch is always an index into the banks. */
    predicate Valid()
    {
      ValidMemory(rom, ram) && regs.Valid() && vram.Valid() && latch < BANK_SIZE
    }
  }

  /** The transmitter status read from port 0xC3: bit 0 "sender ready" and bit 2
      "all data sent". */
  const TX_READY: byte := 0x05

  /** `run` and `init_video` at start-up, with the ROM image fetched from the server
      and the values `rand()` returned. The C globals start zeroed, so RAM is zero and
      the ROM past the image is zero; the scroll registers and the mode flags are
      cleared and a redraw is pending. Each bank cell is `rand() % 255`, drawn cell by
      cell in the order name, attribute, pattern, palette. */
  function Boot(image: seq<byte>, draws: seq<nat>): (m: Machine)
    requires |image| <= ROM_SIZE && |draws| == 4 * BANK_SIZE
    ensures m.Valid() && m.dirty && m.latch == 0 && m.regs == PowerOn
    ensures m.rom[..|image|] == image
    ensures forall a :: |image| <= a < ROM_SIZE ==> m.rom[a] == 0
    ensures forall a :: 0 <= a < RAM_SIZE ==> m.ram[a] == 0
    ensures forall b: BankId, i :: 0 <= i < BANK_SIZE ==> m.vram.Bank(b)[i] == draws[4 * i + BankIndex(b)] % 255
    ensures forall b: BankId, i :: 0 <= i < BANK_SIZE ==> m.vram.Bank(b)[i] != 0xFF
  {
    var vram := Vram(Noise(draws, 0), Noise(draws, 1), Noise(draws, 2), Noise(draws, 3));
    Machine(image + seq(ROM_SIZE - |image|, _ => 0), seq(RAM_SIZE, _ => 0), PowerOn, 0, vram, true)
  }

  /** One bank's worth of `rand() % 255`: cell i takes draw `4 * i + j`. */
  function Noise(draws: seq<nat>, j: nat): (bank: seq<byte>)
    requires |draws| == 4 * BANK_SIZE && j < 4
    ensures |bank| == BANK_SIZE
    ensures forall i :: 0 <= i < BANK_SIZE ==> bank[i] == draws[4 * i + j] % 255
  {
    seq(BANK_SIZE, i requires 0 <= i < BANK_SIZE => draws[4 * i + j] % 255)
  }

  /** `mem_read`. */
  function MemRead(m: Machine, address: u16): (v: byte)
    requires m.Valid()
    ensures address >= 0x8000 ==> v == m.ram[address - 0x8000]
    ensures address < 0x8000 ==> v == m.rom[address]
  {
    NativeRead(m.rom, m.ram, address)
  }

  /** `mem_write`. */
  function MemWrite(m: Machine, address: u16, value: byte): (m': Machine)
    requires m.Valid()
    ensures m'.Valid() && m' == m.(ram := m'.ram)
    ensures address < 0x8000 ==> m' == m
    ensures MemRead(m', address) == if address >= 0x8000 then value else m.rom[address]
    ensures forall other: u16 :: other != address ==> MemRead(m', other) == MemRead(m, other)
  {
    m.(ram := NativeWrite(m.rom, m.ram, address, value))
  }

  /** `video_write`: the byte is stored at the latch unconditionally and the dirty
      flag is raised even when the byte was already there. */
  function VideoWrite(m: Machine, bank: BankId, value: byte, increment: bool): (m': Machine)
    requires m.Valid()
    ensures m'.Valid() && m'.dirty
    ensures m'.vram.Bank(bank) == m.vram.Bank(bank)[m.latch := value]
    ensures forall other :: other != bank ==> m'.vram.Bank(other) == m.vram.Bank(other)
    ensures m'.latch == if increment then (m.latch + 1) % BANK_SIZE else m.latch
    ensures m'.rom == m.rom && m'.ram == m.ram && m'.regs == m.regs
  {
    var stored := m.(vram := m.vram.WithBank(bank, m.vram.Bank(bank)[m.latch := value]), dirty := true);
    if increment then stored.(latch := Increment13(stored.latch)) else stored
  }

  /** `io_in`: bank ports read at the latch, 0xBC-0xBF then move it on; 0xC3 reads
      the transmitter status; every other port, the serial receive ports included,
      reads 0. Result: (value, machine). */
  function IoIn(m: Machine, port: u16): (r: (byte, Machine))
    requires m.Valid()
    ensures r.1.Valid()
    ensures 0xB8 <= port % 256 < 0xC0 ==> r.0 == m.vram.Bank(BankOfIndex(port % 4))[m.latch]
    ensures 0xBC <= port % 256 < 0xC0 ==> r.1 == m.(latch := (m.latch + 1) % BANK_SIZE)
    ensures !(0xBC <= port % 256 < 0xC0) ==> r.1 == m
    ensures port % 256 == 0xC3 ==> r.0 == TX_READY
    ensures !(0xB8 <= port % 256 < 0xC0 || port % 256 == 0xC3) ==> r.0 == 0
  {
    OldScript.PortLowBits(port);
    match DecodePort(port % 256)
    case Direct(b) => (m.vram.Bank(b)[m.latch], m)
    case AutoIncrement(b) => (m.vram.Bank(b)[m.latch], m.(latch := Increment13(m.latch)))
    case SerialTxStatus => (TX_READY, m)
    case _ => (0, m)
  }

  /** `io_out`: scroll writes and `set_video_mode` raise the dirty flag, the latch
      ports mask the latch to 13 bits, bank ports go through `VideoWrite`, and port
      0xC2 hands its byte to `putchar`. Result: (machine, character printed). */
  function IoOut(m: Machine, port: u16, value: byte): (r: (Machine, Option<byte>))
    requires m.Valid()
    ensures r.0.Valid()
    ensures r.0.rom == m.rom && r.0.ram == m.ram
    ensures r.1 == if port % 256 == 0xC2 then Some(value) else None
    ensures port % 256 == 0xB0 ==> r.0 == m.(regs := m.regs.(scrollX := MergeLow(m.regs.scrollX, value)), dirty := true)
    ensures port % 256 == 0xB1 ==> r.0 == m.(regs := m.regs.(scrollY := MergeLow(m.regs.scrollY, value)), dirty := true)
    ensures port % 256 == 0xB2 ==> r.0 == m.(regs := ApplyControl(m.regs, value), dirty := true)
    ensures port % 256 == 0xB3 ==> r.0 == m.(latch := m.latch / 256 * 256 + value)
    ensures port % 256 == 0xB4 ==> r.0 == m.(latch := value % 32 * 256 + m.latch % 256)
    ensures 0xB8 <= port % 256 < 0xC0 ==>
              r.0 == VideoWrite(m, BankOfIndex(port % 4), value, port % 256 >= 0xBC)
    ensures !(0xB0 <= port % 256 < 0xB5 || 0xB8 <= port % 256 < 0xC0) ==> r.0 == m
  {
    OldScript.PortLowBits(port);
    match DecodePort(port % 256)
    case ScrollXLow => (m.(regs := m.regs.(scrollX := MergeLow(m.regs.scrollX, value)), dirty := true), None)
    case ScrollYLow => (m.(regs := m.regs.(scrollY := MergeLow(m.regs.scrollY, value)), dirty := true), None)
    case ControlByte => (m.(regs := ApplyControl(m.regs, value), dirty := true), None)
    case LatchLow => (m.(latch := NativeLatchLow(m.latch, value)), None)
    case LatchHigh => (m.(latch := NativeLatchHigh(m.latch, value)), None)
    case Direct(b) => (VideoWrite(m, b, value, false), None)
    case AutoIncrement(b) => (VideoWrite(m, b, value, true), None)
    case SerialOut => (m, Some(value))
    case _ => (m, None)
  }

  /** The drawing half of `render_frame`: nothing happens while the dirty flag is
      clear; otherwise every pixel is drawn and the flag cleared. Result:
      (machine, surface pixels). */
  function RenderFrame(m: Machine, pixels: seq<byte>): (r: (Machine, seq<byte>))
    requires m.Valid()
    ensures r.0 == m.(dirty := false)
    ensures !m.dirty ==> r.1 == pixels
    ensures m.dirty ==> r.1 == Scanout.Frame(m.regs, m.vram)
  {
    var (dirty, pixels') := Scanout.Present(m.dirty, m.regs, m.vram, pixels);
    (m.(dirty := dirty), pixels')
  }

  /* Properties. */

  /** A byte written through a bank port is read back through the same port. */
  lemma BankReadAfterWrite(m: Machine, k: nat, value: byte)
    requires m.Valid() && k < 4
    ensures IoIn(IoOut(m, 0xB8 + k, value).0, 0xB8 + k).0 == value
  {
    assert (0xB8 + k) % 4 == k;
  }

  /** Unlike the old script, rewriting the byte already stored still raises the
      dirty flag, although no bank changes. */
  lemma SameByteStillDirty(m: Machine, k: nat)
    requires m.Valid() && k < 4 && !m.dirty
    ensures var m' := IoOut(m, 0xB8 + k, m.vram.Bank(BankOfIndex(k))[m.latch]).0;
            m'.dirty && m'.vram == m.vram
  {
    var b := BankOfIndex(k);
    assert (0xB8 + k) % 4 == k;
    var m' := IoOut(m, 0xB8 + k, m.vram.Bank(b)[m.latch]).0;
    assert m.vram.Bank(b)[m.latch := m.vram.Bank(b)[m.latch]] == m.vram.Bank(b);
    OldScript.VramExtensional(m'.vram, m.vram);
  }

  /** The 13-bit latch ports are the script ones reduced to the bank size, so the
      latch can never leave the banks. */
  lemma LatchIsMaskedScriptLatch(latch: nat, value: byte)
    requires latch < BANK_SIZE
    ensures NativeLatchLow(latch, value) == ScriptLatchLow(latch, value) % BANK_SIZE
    ensures NativeLatchHigh(latch, value) == ScriptLatchHigh(latch, value) % BANK_SIZE
  {
    var lo := ScriptLatchLow(latch, value);
    DivMod(lo, BANK_SIZE, 0, lo);
    var hi := ScriptLatchHigh(latch, value);
    DivMod(hi, BANK_SIZE, value / 32, NativeLatchHigh(latch, value));
  }

  /** The old script and the native build agree on every port write while the latch
      is inside the banks, except a latch-high write of 32 or more (the native build
      masks it) and the dirty flag (the script compares before storing). */
  lemma AgreesWithOldScript(o: OldScript.Machine, n: Machine, port: u16, value: byte)
    requires o.Valid() && n.Valid()
    requires o.rom == n.rom && o.ram == n.ram && o.regs == n.regs && o.latch == n.latch && o.vram == n.vram
    requires port % 256 == 0xB4 ==> value < 32
    ensures var o' := OldScript.IoWrite(o, port, value);
            var n' := IoOut(n, port, value).0;
            o'.regs == n'.regs && o'.latch == n'.latch && o'.vram == n'.vram
  {
    if 0xB8 <= port % 256 < 0xC0 {
      var b := BankOfIndex(port % 4);
      var o' := OldScript.IoWrite(o, port, value);
      var n' := IoOut(n, port, value).0;
      assert o'.vram.Bank(b) == n'.vram.Bank(b);
      OldScript.VramExtensional(o'.vram, n'.vram);
    } else if port % 256 == 0xB4 {
      assert value % 32 == value;
    }
  }

  /** Drawing twice without an intervening write leaves the surface as the first
      drawing left it. */
  lemma RenderOnce(m: Machine, pixels: seq<byte>)
    requires m.Valid()
    ensures var (m1, p1) := RenderFrame(m, pixels);
            RenderFrame(m1, p1) == (m1, p1)
  {
  }
}

=== FILE: old_script.dfy ===
/** The browser emulator as first written (old/emu21.js): the machine state the Z80
    sees through `mem_read`/`mem_write` and `io_read`/`io_write`, the byte-compare
    `video_write`, the keyboard handlers feeding the serial queue, and the dirty-gated
    redraw. The latch is an unmasked number that port 0xB4 can push past the end of
    the 8 KiB banks; a bank read there yields `undefined` and a bank write is dropped. */
module OldScript {
  import opened Bytes
  import opened Arith
  import opened Bus
  import opened Video
  import Scanout
  import Keyboard

  /** Everything `io_read`, `io_write` and the handlers touch. */
  datatype Machine = Machine(
    rom: seq<byte>,
    ram: seq<byte>,
    regs: Registers,
    latch: nat,
    vram: Vram,
    dirty: bool,
    sio: seq<byte>)
  {
    /** Memory and banks have their sizes, the scroll registers are 10 bits, and the
        latch is 16 bits (port 0xB4 can set any value up to 0xFFFF). */
    predicate Valid()
    {
      ValidMemory(rom, ram) && regs.Valid() && vram.Valid() && latch < 0x1_0000
    }
  }

  /** The machine after loading: no scroll, no zoom, graphics mode, latch 0, a pending
      redraw, an empty queue; ROM, RAM and banks are whatever they were given. */
  function Boot(rom: seq<byte>, ram: seq<byte>, vram: Vram): (m: Machine)
    requires ValidMemory(rom, ram) && vram.Valid()
    ensures m.Valid() && m.dirty && m.sio == [] && m.latch == 0 && m.regs == PowerOn
    ensures m.rom == rom && m.ram == ram && m.vram == vram
  {
    Machine(rom, ram, PowerOn, 0, vram, true, [])
  }

  /** `mem_read`. */
  function MemRead(m: Machine, address: u16): (v: byte)
    requires m.Valid()
    ensures v == if address < ROM_SIZE then m.rom[address] else m.ram[address - ROM_SIZE]
  {
    ScriptRead(m.rom, m.ram, address)
  }

  /** `mem_write`: RAM takes the byte, a ROM address leaves the machine as it was. */
  function MemWrite(m: Machine, address: u16, value: byte): (m': Machine)
    requires m.Valid()
    ensures m'.Valid()
    ensures address < ROM_SIZE ==> m' == m
    ensures m' == m.(ram := m'.ram)
    ensures MemRead(m', address) == if address < ROM_SIZE then m.rom[address] else value
    ensures forall other: u16 :: other != address ==> MemRead(m', other) == MemRead(m, other)
  {
    m.(ram := ScriptWrite(m.rom, m.ram, address, value))
  }

  /** `video_write`: the byte is stored only when it differs from the one read at the
      latch, and only then is the dirty flag raised. Past the end of the bank the read
      gives `undefined`, which differs from every byte: the store is dropped and the
      flag is still raised. An auto-increment port then moves the latch on. */
  function VideoWrite(m: Machine, bank: BankId, value: byte, increment: bool): (m': Machine)
    requires m.Valid()
    ensures m'.Valid()
    ensures m'.vram.Bank(bank) == Store(m.vram.Bank(bank), m.latch, value)
    ensures forall other :: other != bank ==> m'.vram.Bank(other) == m.vram.Bank(other)
    ensures m'.vram.Bank(bank) != m.vram.Bank(bank)
            <==> m.latch < BANK_SIZE && m.vram.Bank(bank)[m.latch] != value
    ensures m'.dirty <==> m.dirty || Load(m.vram.Bank(bank), m.latch) != Some(value)
    ensures m'.latch == if increment then (m.latch + 1) % BANK_SIZE else m.latch
    ensures m'.rom == m.rom && m'.ram == m.ram && m'.regs == m.regs && m'.sio == m.sio
  {
    var old_ := m.vram.Bank(bank);
    var stored :=
      if Load(old_, m.latch) != Some(value) then
        m.(vram := m.vram.WithBank(bank, Store(old_, m.latch, value)), dirty := true)
      else
        assert old_[m.latch := value] == old_;
        m;
    if increment then stored.(latch := Increment13(stored.latch)) else stored
  }

  /** `io_read`: only the low byte of the port number selects. Bank ports read at the
      latch (`undefined` past the bank's end), and 0xBC-0xBF then move it on; 0xC0
      takes the queue head (`undefined` when empty), 0xC1 reports a non-empty queue;
      every other port reads 0. Result: (value, machine). */
  function IoRead(m: Machine, port: u16): (r: (Option<byte>, Machine))
    requires m.Valid()
    ensures r.1.Valid()
    ensures 0xB8 <= port % 256 < 0xC0 ==>
              r.0 == Load(m.vram.Bank(BankOfIndex(port % 4)), m.latch)
    ensures 0xB8 <= port % 256 < 0xC0 ==> (r.0.None? <==> m.latch >= BANK_SIZE)
    ensures 0xBC <= port % 256 < 0xC0 ==> r.1 == m.(latch := (m.latch + 1) % BANK_SIZE)
    ensures port % 256 == 0xC0 ==> (r.0.None? <==> m.sio == [])
    ensures port % 256 == 0xC0 && r.0.Some? ==> [r.0.value] + r.1.sio == m.sio
    ensures port % 256 == 0xC0 ==> r.1 == m.(sio := r.1.sio)
    ensures port % 256 == 0xC0 && m.sio == [] ==> r.1 == m
    ensures port % 256 == 0xC1 ==> (r.0 == Some(1) <==> m.sio != []) && (r.0 == Some(0) <==> m.sio == [])
    ensures !(0xB8 <= port % 256 < 0xC1) ==> r.0 == Some(0) || (port % 256 == 0xC1 && r.0 == Some(1))
    ensures !(0xBC <= port % 256 <= 0xC0) ==> r.1 == m
  {
    PortLowBits(port);
    match DecodePort(port % 256)
    case Direct(b) => (Load(m.vram.Bank(b), m.latch), m)
    case AutoIncrement(b) => (Load(m.vram.Bank(b), m.latch), m.(latch := Increment13(m.latch)))
    case SerialData =>
      var (head, rest) := Keyboard.Shift(m.sio);
      (head, m.(sio := rest))
    case SerialStatus => (Some(Keyboard.Status(m.sio)), m)
    case _ => (Some(0), m)
  }

  /** `io_write`: only the low byte of the port number selects. Scroll and control
      writes always raise the dirty flag; the latch ports do not; bank ports go
      through `VideoWrite`; every other port is ignored. */
  function IoWrite(m: Machine, port: u16, value: byte): (m': Machine)
    requires m.Valid()
    ensures m'.Valid()
    ensures m'.rom == m.rom && m'.ram == m.ram && m'.sio == m.sio
    ensures port % 256 == 0xB0 ==> m' == m.(regs := m.regs.(scrollX := MergeLow(m.regs.scrollX, value)), dirty := true)
    ensures port % 256 == 0xB1 ==> m' == m.(regs := m.regs.(scrollY := MergeLow(m.regs.scrollY, value)), dirty := true)
    ensures port % 256 == 0xB2 ==> m' == m.(regs := ApplyControl(m.regs, value), dirty := true)
    ensures port % 256 == 0xB3 ==> m' == m.(latch := m.latch / 256 * 256 + value)
    ensures port % 256 == 0xB4 ==> m' == m.(latch := value * 256 + m.latch % 256)
    ensures 0xB8 <= port % 256 < 0xC0 ==>
              m' == VideoWrite(m, BankOfIndex(port % 4), value, port % 256 >= 0xBC)
    ensures !(0xB0 <= port % 256 < 0xB5 || 0xB8 <= port % 256 < 0xC0) ==> m' == m
  {
    PortLowBits(port);
    match DecodePort(port % 256)
    case ScrollXLow => m.(regs := m.regs.(scrollX := MergeLow(m.regs.scrollX, value)), dirty := true)
    case ScrollYLow => m.(regs := m.regs.(scrollY := MergeLow(m.regs.scrollY, value)), dirty := true)
    case ControlByte => m.(regs := ApplyControl(m.regs, value), dirty := true)
    case LatchLow => m.(latch := ScriptLatchLow(m.latch, value))
    case LatchHigh => m.(latch := ScriptLatchHigh(m.latch, value))
    case Direct(b) => VideoWrite(m, b, value, false)
    case AutoIncrement(b) => VideoWrite(m, b, value, true)
    case _ => m
  }

  /** A bank port's number and its low byte select the same bank. */
  lemma PortLowBits(port: u16)
    ensures port % 256 % 4 == port % 4
  {
    DivMod(port, 4, port / 256 * 64 + port % 256 / 4, port % 256 % 4);
  }

  /** The `keydown` handler, given the event's key identifier. */
  function KeyDown(m: Machine, code: string): (m': Machine)
    requires m.Valid()
    ensures m'.Valid() && m' == m.(sio := m'.sio)
    ensures forall k :: Keyboard.Code(k) == code ==> m'.sio == m.sio + Keyboard.Ps2Codes(k).make
    ensures (forall k :: Keyboard.Code(k) != code) ==> m' == m
  {
    m.(sio := Keyboard.KeyDown(m.sio, code))
  }

  /** The `keyup` handler, given the event's key identifier. */
  function KeyUp(m: Machine, code: string): (m': Machine)
    requires m.Valid()
    ensures m'.Valid() && m' == m.(sio := m'.sio)
    ensures forall k :: Keyboard.Code(k) == code && k != Keyboard.PAUSE ==>
              m'.sio == m.sio + Keyboard.BreakOf(Keyboard.Ps2Codes(k).make)
    ensures m' == m <==> (forall k :: Keyboard.Code(k) != code) || code == Keyboard.Code(Keyboard.PAUSE)
  {
    m.(sio := Keyboard.KeyUp(m.sio, code))
  }

  /** `render`: redraws the canvas image when dirty and clears the flag.
      Result: (machine, image). */
  function Render(m: Machine, image: seq<byte>): (r: (Machine, seq<byte>))
    requires m.Valid()
    ensures r.0 == m.(dirty := false)
    ensures m.dirty ==> r.1 == Scanout.Frame(m.regs, m.vram)
    ensures !m.dirty ==> r.1 == image
  {
    var (dirty, image') := Scanout.Present(m.dirty, m.regs, m.vram, image);
    (m.(dirty := dirty), image')
  }

  /* Properties of the port protocol. */

  /** A byte written through a direct bank port is read back through the same port
      while the latch is inside the bank; past the end the write is lost, the read
      gives `undefined`, and the redraw is still requested. */
  lemma BankReadAfterWrite(m: Machine, k: nat, value: byte)
    requires m.Valid() && k < 4
    ensures var m' := IoWrite(m, 0xB8 + k, value);
            IoRead(m', 0xB8 + k).0 == if m.latch < BANK_SIZE then Some(value) else None
    ensures m.latch >= BANK_SIZE ==> IoWrite(m, 0xB8 + k, value) == m.(dirty := true)
  {
    var b := BankOfIndex(k);
    assert (0xB8 + k) % 4 == k;
    var m' := IoWrite(m, 0xB8 + k, value);
    assert m' == VideoWrite(m, b, value, false);
    if m.latch >= BANK_SIZE {
      assert m'.vram.Bank(b) == m.vram.Bank(b);
      VramExtensional(m'.vram, m.vram);
    }
  }

  /** Two video memories with equal banks are equal. */
  lemma VramExtensional(v: Vram, w: Vram)
    requires forall id :: v.Bank(id) == w.Bank(id)
    ensures v == w
  {
    assert v.Bank(Name) == w.Bank(Name) && v.Bank(Color) == w.Bank(Color);
    assert v.Bank(Pattern) == w.Bank(Pattern) && v.Bank(Palette) == w.Bank(Palette);
  }

  /** Rewriting the byte already stored at the latch through a direct port changes
      nothing: the dirty flag is raised only by a real change. */
  lemma SameByteIsClean(m: Machine, k: nat)
    requires m.Valid() && k < 4 && m.latch < BANK_SIZE
    ensures IoWrite(m, 0xB8 + k, m.vram.Bank(BankOfIndex(k))[m.latch]) == m
  {
    var b := BankOfIndex(k);
    assert (0xB8 + k) % 4 == k;
    var m' := IoWrite(m, 0xB8 + k, m.vram.Bank(b)[m.latch]);
    VramExtensional(m'.vram, m.vram);
  }

  /** Writing the same byte twice through a direct port has the effect of writing
      it once. */
  lemma DirectWriteIdempotent(m: Machine, k: nat, value: byte)
    requires m.Valid() && k < 4
    ensures IoWrite(IoWrite(m, 0xB8 + k, value), 0xB8 + k, value) == IoWrite(m, 0xB8 + k, value)
  {
    var b := BankOfIndex(k);
    assert (0xB8 + k) % 4 == k;
    var once := IoWrite(m, 0xB8 + k, value);
    var twice := IoWrite(once, 0xB8 + k, value);
    if m.latch < BANK_SIZE {
      assert once.vram.Bank(b)[m.latch] == value;
      SameByteIsClean(once, k);
    } else {
      VramExtensional(twice.vram, once.vram);
    }
  }

  /** The latch ports in either order program the whole 16-bit latch. */
  lemma LatchProgramming(m: Machine, lo: byte, hi: byte)
    requires m.Valid()
    ensures IoWrite(IoWrite(m, 0xB3, lo), 0xB4, hi).latch == hi * 256 + lo
    ensures IoWrite(IoWrite(m, 0xB4, hi), 0xB3, lo).latch == hi * 256 + lo
  {
    var m1 := IoWrite(m, 0xB3, lo);
    assert m1.latch % 256 == lo by {
      DivMod(m1.latch, 256, m.latch / 256, lo);
    }
    var m2 := IoWrite(m, 0xB4, hi);
    assert m2.latch / 256 == hi by {
      DivMod(m2.latch, 256, hi, m.latch % 256);
    }
  }

  /** Every auto-increment access, read or write, leaves the latch inside the bank,
      wrapping from 0x1FFF to 0. */
  lemma AutoIncrementStaysInBank(m: Machine, k: nat, value: byte)
    requires m.Valid() && k < 4
    ensures IoWrite(m, 0xBC + k, value).latch < BANK_SIZE
    ensures IoRead(m, 0xBC + k).1.latch < BANK_SIZE
    ensures m.latch == 0x1FFF ==> IoWrite(m, 0xBC + k, value).latch == 0
  {
  }

  /** The serial ports agree: 0xC1 reads 1 exactly when a read of 0xC0 yields a byte. */
  lemma StatusMatchesData(m: Machine)
    requires m.Valid()
    ensures IoRead(m, 0xC1).0 == Some(1) <==> IoRead(m, 0xC0).0.Some?
  {
  }

  /** A key pressed and released is read back from port 0xC0 byte by byte: its make
      sequence, then its break sequence, and then the queue is empty. */
  lemma TypedKeyIsRead(m: Machine, k: Keyboard.Key)
    requires m.Valid() && m.sio == [] && k != Keyboard.PAUSE
    ensures var typed := KeyUp(KeyDown(m, Keyboard.Code(k)), Keyboard.Code(k));
            typed.sio == Keyboard.Ps2Codes(k).make + Keyboard.BreakOf(Keyboard.Ps2Codes(k).make)
            && ReadSerial(typed, |typed.sio|) == (Defined(typed.sio), m)
  {
    var typed := KeyUp(KeyDown(m, Keyboard.Code(k)), Keyboard.Code(k));
    TypedKeyQueue(m, k);
    ReadSerialDrains(typed, |typed.sio|);
    assert typed.(sio := []) == m;
  }

  /** The queue after a key is pressed and released on an empty queue. */
  lemma TypedKeyQueue(m: Machine, k: Keyboard.Key)
    requires m.Valid() && m.sio == [] && k != Keyboard.PAUSE
    ensures var typed := KeyUp(KeyDown(m, Keyboard.Code(k)), Keyboard.Code(k));
            typed.sio == Keyboard.Ps2Codes(k).make + Keyboard.BreakOf(Keyboard.Ps2Codes(k).make)
            && typed == m.(sio := typed.sio)
  {
    Keyboard.PressRelease([], k);
    assert [] + Keyboard.Ps2Codes(k).make == Keyboard.Ps2Codes(k).make;
  }

  /** `n` reads of port 0xC0. Result: (the values read, the machine after). */
  function ReadSerial(m: Machine, n: nat): (r: (seq<Option<byte>>, Machine))
    requires m.Valid()
    ensures |r.0| == n && r.1.Valid()
    decreases n
  {
    if n == 0 then ([], m)
    else
      var (v, m1) := IoRead(m, 0xC0);
      var (vs, m2) := ReadSerial(m1, n - 1);
      ([v] + vs, m2)
  }

  /** Reading port 0xC0 as often as there are queued bytes returns them in arrival
      order and leaves the queue empty and the rest of the machine as it was. */
  lemma {:induction false} ReadSerialDrains(m: Machine, n: nat)
    requires m.Valid() && n == |m.sio|
    ensures ReadSerial(m, n) == (Defined(m.sio), m.(sio := []))
    decreases n
  {
    if n > 0 {
      var (v, m1) := IoRead(m, 0xC0);
      assert v == Some(m.sio[0]) && m1 == m.(sio := m.sio[1..]);
      ReadSerialDrains(m1, n - 1);
      assert Defined(m.sio) == [v] + Defined(m1.sio);
      assert m1.(sio := []) == m.(sio := []);
    }
  }

  /* Block transfers through an auto-increment port. */

  /** Writes `data` byte by byte through the auto-increment port of `bank`. */
  function WriteBlock(m: Machine, bank: BankId, data: seq<byte>): (m': Machine)
    requires m.Valid()
    ensures m'.Valid()
    decreases |data|
  {
    if data == [] then m else WriteBlock(VideoWrite(m, bank, data[0], true), bank, data[1..])
  }

  /** What a block write does to the bank it goes to: one store per byte, at the
      latch and the cells after it, around the end of the bank. */
  function BlockStores(cells: seq<byte>, latch: nat, data: seq<byte>): (cells': seq<byte>)
    requires latch < |cells| == BANK_SIZE
    ensures |cells'| == BANK_SIZE
    decreases |data|
  {
    if data == [] then cells
    else BlockStores(Store(cells, latch, data[0]), (latch + 1) % BANK_SIZE, data[1..])
  }

  /** A block write through the machine changes its bank exactly by the block's stores
      and leaves the other banks alone. */
  lemma {:induction false} WriteBlockStores(m: Machine, bank: BankId, data: seq<byte>)
    requires m.Valid() && m.latch < BANK_SIZE
    ensures WriteBlock(m, bank, data).vram.Bank(bank) == BlockStores(m.vram.Bank(bank), m.latch, data)
    ensures forall other :: other != bank ==> WriteBlock(m, bank, data).vram.Bank(other) == m.vram.Bank(other)
    decreases |data|
  {
    if data != [] {
      var m1 := VideoWrite(m, bank, data[0], true);
      WriteBlockStores(m1, bank, data[1..]);
    }
  }

  /** A block of up to 8 KiB written from a latch inside the bank lands at consecutive
      addresses, wrapping at the end of the bank. */
  lemma BlockLands(m: Machine, bank: BankId, data: seq<byte>, j: nat)
    requires m.Valid() && m.latch < BANK_SIZE && |data| <= BANK_SIZE && j < |data|
    ensures WriteBlock(m, bank, data).vram.Bank(bank)[(m.latch + j) % BANK_SIZE] == data[j]
  {
    WriteBlockStores(m, bank, data);
    StoresLand(m.vram.Bank(bank), m.latch, data, j);
  }

  /** Byte j of the block ends up j cells after the latch. */
  lemma {:induction false} StoresLand(cells: seq<byte>, latch: nat, data: seq<byte>, j: nat)
    requires latch < |cells| == BANK_SIZE && |data| <= BANK_SIZE && j < |data|
    ensures BlockStores(cells, latch, data)[(latch + j) % BANK_SIZE] == data[j]
    decreases |data|
  {
    var cells1 := Store(cells, latch, data[0]);
    var next := (latch + 1) % BANK_SIZE;
    if j == 0 {
      assert cells1[latch] == data[0];
      WrapDistance(latch, latch, next);
      StoresMiss(cells1, next, data[1..], latch);
    } else {
      StoresLand(cells1, next, data[1..], j - 1);
      WrapStep(latch, next, j);
    }
  }

  /** Cells the block does not reach keep their contents: those whose distance ahead
      of the latch, around the bank, is at least the block length. */
  lemma {:induction false} StoresMiss(cells: seq<byte>, latch: nat, data: seq<byte>, a: nat)
    requires latch < |cells| == BANK_SIZE && a < BANK_SIZE
    requires (a - latch) % BANK_SIZE >= |data|
    ensures BlockStores(cells, latch, data)[a] == cells[a]
    decreases |data|
  {
    if data != [] {
      var next := (latch + 1) % BANK_SIZE;
      WrapDistance(a, latch, next);
      StoresMiss(Store(cells, latch, data[0]), next, data[1..], a);
    }
  }

  /** The latch after a block write has moved on by the block length, around the bank. */
  lemma {:induction false} BlockLatch(m: Machine, bank: BankId, data: seq<byte>)
    requires m.Valid() && m.latch < BANK_SIZE
    ensures WriteBlock(m, bank, data).latch == (m.latch + |data|) % BANK_SIZE
    decreases |data|
  {
    if data != [] {
      var m1 := VideoWrite(m, bank, data[0], true);
      BlockLatch(m1, bank, data[1..]);
      WrapStep(m.latch, m1.latch, |data|);
    }
  }

  /** Moving the latch one step on shortens the distance to any other cell by one. */
  lemma WrapDistance(a: nat, latch: nat, next: nat)
    requires a < BANK_SIZE && latch < BANK_SIZE && next == (latch + 1) % BANK_SIZE
    ensures a != latch ==> (a - next) % BANK_SIZE == (a - latch) % BANK_SIZE - 1
    ensures a == latch ==> (a - next) % BANK_SIZE == BANK_SIZE - 1
  {
    if latch + 1 < BANK_SIZE {
      if a > latch {
        DivMod(a - next, BANK_SIZE, 0, a - next);
        DivMod(a - latch, BANK_SIZE, 0, a - latch);
      } else if a < latch {
        DivMod(a - next, BANK_SIZE, -1, a - next + BANK_SIZE);
        DivMod(a - latch, BANK_SIZE, -1, a - latch + BANK_SIZE);
      } else {
        DivMod(a - next, BANK_SIZE, -1, BANK_SIZE - 1);
      }
    } else {
      assert next == 0;
      DivMod(a - next, BANK_SIZE, 0, a);
      if a < latch {
        DivMod(a - latch, BANK_SIZE, -1, a - latch + BANK_SIZE);
      }
    }
  }

  /** One step of the latch followed by j - 1 more is j steps. */
  lemma WrapStep(latch: nat, next: nat, j: nat)
    requires latch < BANK_SIZE && next == (latch + 1) % BANK_SIZE && j >= 1
    ensures (next + (j - 1)) % BANK_SIZE == (latch + j) % BANK_SIZE
  {
    AddMod(j - 1, latch + 1, BANK_SIZE);
  }
}

=== FILE: scanout.dfy ===
/** The scan-out pipeline shared by the old script and both native builds: a pure map
    from a screen coordinate, the video registers and the four video memories to one
    RGBA pixel, the 640x480 frame built from it, and the dirty-flag gate around it. */
module Scanout {
  import opened Bytes
  import opened Video
  import opened Arith

  /** The framebuffer size: 640 x 480 pixels of four bytes each. */
  const FRAME_BYTES: nat := 1_228_800

  datatype Rgba = Rgba(r: byte, g: byte, b: byte, a: byte)

  /** Step 1, horizontal: `((zoomX ? x/2 + 2 : x + 3) + scrollX) & 0x3ff`. */
  function VideoX(screenX: nat, regs: Registers): (v: nat)
    ensures v < 1024
  {
    ((if regs.zoomX then screenX / 2 + 2 else screenX + 3) + regs.scrollX) % 1024
  }

  /** Step 1, vertical: `((zoomY ? y/2 + 2 : y + 4) + scrollY) & 0x3ff`. */
  function VideoY(screenY: nat, regs: Registers): (v: nat)
    ensures v < 1024
  {
    ((if regs.zoomY then screenY / 2 + 2 else screenY + 4) + regs.scrollY) % 1024
  }

  /** Step 2: the name/colour table index of the tile under the video coordinate.
      The column is videoX bits 3-9; the row is videoY bits 3-8, except that in
      text mode the row's low bit is videoY bit 9 instead of bit 3. */
  function TileAddr(videoX: nat, videoY: nat, textMode: bool): (a: nat)
    requires videoX < 1024 && videoY < 1024
    ensures a < BANK_SIZE
    ensures a % 128 == videoX / 8
    ensures a / 128 / 2 == videoY / 16 % 32
    ensures a / 128 % 2 == if textMode then videoY / 512 else videoY / 8 % 2
  {
    var tileX := videoX / 8 % 128;
    var tileY := videoY / 8 % 64;
    // (tileY & 0x3e) | ((videoY & 0x200) >> 9)
    var row := if textMode then tileY / 2 * 2 + videoY / 512 % 2 else tileY;
    TileRowBits(videoY);
    DivMod(tileX + row * 128, 128, row, tileX);
    DivMod(row, 2, tileY / 2, row % 2);
    tileX + row * 128
  }

  /** Bits 1-5 and bit 0 of the 6-bit tile row `(videoY >> 3) & 0x3f`. */
  lemma TileRowBits(videoY: nat)
    ensures videoY / 8 % 64 / 2 == videoY / 16 % 32
    ensures videoY / 8 % 64 % 2 == videoY / 8 % 2
  {
    var y8 := videoY / 8;
    DivDiv(videoY, 8, 2);
    var t := y8 % 64;
    assert y8 == 2 * (y8 / 64 * 32 + t / 2) + t % 2;
    DivMod(y8, 2, y8 / 64 * 32 + t / 2, t % 2);
    DivMod(y8 / 2, 32, y8 / 64, t / 2);
  }

  /** Step 3: the pattern table index. The name byte selects a 32-byte pattern; within
      it, videoX bits 0-2 select the column and videoY bits 1-2 the pair of rows. */
  function PatternAddr(videoX: nat, videoY: nat, nameByte: byte): (a: nat)
    ensures a < BANK_SIZE
    ensures a / 32 == nameByte
    ensures a % 32 == videoX % 8 + videoY % 8 / 2 * 8
  {
    var patternX := videoX % 8;
    var patternY := videoY % 8;
    // patternX | ((patternY & 0b110) << 2) | (nameByte << 5)
    var a := patternX + patternY / 2 * 2 * 4 + nameByte * 32;
    DivMod(a, 32, nameByte, patternX + patternY / 2 * 8);
    a
  }

  /** Step 3, continued: one pattern byte holds two 4-bit pixels, the low nibble for
      even rows and the high nibble for odd rows. */
  function PatternNibble(patternByte: byte, videoY: nat): (n: nat)
    ensures n < 16
    ensures videoY % 2 == 1 ==> n == patternByte / 16
    ensures videoY % 2 == 0 ==> n == patternByte % 16
  {
    if videoY % 8 % 2 == 1 then patternByte / 16 else patternByte % 16
  }

  /** The two rows that share a pattern byte together hold the whole byte. */
  lemma PatternRowsShareByte(patternByte: byte, evenRow: nat)
    requires evenRow % 2 == 0
    ensures PatternNibble(patternByte, evenRow + 1) * 16 + PatternNibble(patternByte, evenRow) == patternByte
  {
    assert (evenRow + 1) % 2 == 1;
    var high := PatternNibble(patternByte, evenRow + 1);
    var low := PatternNibble(patternByte, evenRow);
    assert high == patternByte / 16 && low == patternByte % 16;
    assert patternByte == patternByte / 16 * 16 + patternByte % 16;
  }

  /** Step 4: the palette index. The nibble selects one of 16 entries, the colour
      byte one of 256 sets of 16, and bit 12 the palette page: videoY bit 3 in text
      mode, videoY bit 9 in graphics mode. */
  function PaletteAddr(nibble: nat, colorByte: byte, videoY: nat, textMode: bool): (a: nat)
    requires nibble < 16 && videoY < 1024
    ensures a < BANK_SIZE
    ensures a % 16 == nibble
    ensures a / 16 % 256 == colorByte
    ensures a / 4096 == if textMode then videoY / 8 % 2 else videoY / 512
  {
    // pattern_out | (colorByte << 4), then |= (videoY & 0x008) << 9 or (videoY & 0x200) << 3
    var page := if textMode then videoY / 8 % 2 else videoY / 512 % 2;
    var a := nibble + colorByte * 16 + page * 4096;
    DivMod(a, 16, colorByte + page * 256, nibble);
    DivMod(a / 16, 256, page, colorByte);
    DivDiv(a, 16, 256);
    a
  }

  /** Step 5: colour decode of an RrGgBbIi palette byte. */
  function DecodeColor(c: byte): (px: Rgba)
    ensures px.a == 255
  {
    var R := c / 128 % 2;   // (c & 0b1000_0000) >> 7
    var r := c / 64 % 2;    // (c & 0b0100_0000) >> 6
    var G := c / 32 % 2;
    var g := c / 16 % 2;
    var B := c / 8 % 2;
    var b := c / 4 % 2;
    var I := c / 2 % 2;
    var i := c % 2;
    Rgba(Channel(R, r, I, i), Channel(G, g, I, i), Channel(B, b, I, i), 255)
  }

  /** One 8-bit channel: the 4-bit value (C << 3) | (c << 1) | ((I << 2) | i),
      replicated into both nibbles (`(v4 << 4) | v4`). */
  function Channel(high: nat, low: nat, I: nat, i: nat): byte
    requires high < 2 && low < 2 && I < 2 && i < 2
  {
    var v4 := high * 8 + low * 2 + (I * 4 + i);
    v4 * 16 + v4
  }

  /** A channel is 17 times its 4-bit value, whose bits 3, 2, 1, 0 are C, I, c, i. */
  lemma ChannelBits(high: nat, low: nat, I: nat, i: nat)
    requires high < 2 && low < 2 && I < 2 && i < 2
    ensures var ch := Channel(high, low, I, i);
            && ch == 17 * (high * 8 + I * 4 + low * 2 + i)
            && ch % 17 == 0
            && ch / 17 / 8 % 2 == high && ch / 17 / 4 % 2 == I
            && ch / 17 / 2 % 2 == low && ch / 17 % 2 == i
  {
    var v4 := high * 8 + I * 4 + low * 2 + i;
    DivMod(Channel(high, low, I, i), 17, v4, 0);
    NibbleOfBits(high, I, low, i);
  }

  /** The colours the decoder can produce: opaque, every channel a 4-bit value
      written into both nibbles, and the two intensity bits (bits 2 and 0 of each
      4-bit value) shared by all three channels. */
  predicate IsPaletteColor(px: Rgba)
  {
    && px.a == 255
    && px.r % 17 == 0 && px.g % 17 == 0 && px.b % 17 == 0
    && px.r / 17 % 2 == px.g / 17 % 2 == px.b / 17 % 2
    && px.r / 17 / 4 % 2 == px.g / 17 / 4 % 2 == px.b / 17 / 4 % 2
  }

  /** The inverse of the decoder: collects the RrGgBbIi bits back from the channels. */
  function EncodeColor(px: Rgba): (c: byte)
  {
    var r4 := px.r / 17;
    var g4 := px.g / 17;
    var b4 := px.b / 17;
    r4 / 8 % 2 * 128 + r4 / 2 % 2 * 64 + g4 / 8 % 2 * 32 + g4 / 2 % 2 * 16
      + b4 / 8 % 2 * 8 + b4 / 2 % 2 * 4 + r4 / 4 % 2 * 2 + r4 % 2
  }

  /** A byte is the sum of its eight bits. */
  lemma ByteBits(c: byte)
    ensures c == c / 128 % 2 * 128 + c / 64 % 2 * 64 + c / 32 % 2 * 32 + c / 16 % 2 * 16
                 + c / 8 % 2 * 8 + c / 4 % 2 * 4 + c / 2 % 2 * 2 + c % 2
  {
    DivDiv(c, 2, 2);
    DivDiv(c, 4, 2);
    DivDiv(c, 8, 2);
    DivDiv(c, 16, 2);
    DivDiv(c, 32, 2);
    DivDiv(c, 64, 2);
    assert c == c % 2 + 2 * (c / 2);
    assert c / 2 == c / 2 % 2 + 2 * (c / 4);
    assert c / 4 == c / 4 % 2 + 2 * (c / 8);
    assert c / 8 == c / 8 % 2 + 2 * (c / 16);
    assert c / 16 == c / 16 % 2 + 2 * (c / 32);
    assert c / 32 == c / 32 % 2 + 2 * (c / 64);
    assert c / 64 == c / 64 % 2 + 2 * (c / 128);
  }

  /** A 4-bit value is the sum of its four bits. */
  lemma NibbleBits(n: nat)
    requires n < 16
    ensures n == n / 8 % 2 * 8 + n / 4 % 2 * 4 + n / 2 % 2 * 2 + n % 2
  {
    DivDiv(n, 2, 2);
    DivDiv(n, 4, 2);
    assert n == n % 2 + 2 * (n / 2);
    assert n / 2 == n / 2 % 2 + 2 * (n / 4);
    assert n / 4 == n / 4 % 2 + 2 * (n / 8);
  }

  /** The bits of a 4-bit value built from four bits. */
  lemma NibbleOfBits(h: nat, m: nat, l: nat, i: nat)
    requires h < 2 && m < 2 && l < 2 && i < 2
    ensures var n := h * 8 + m * 4 + l * 2 + i;
            n / 8 % 2 == h && n / 4 % 2 == m && n / 2 % 2 == l && n % 2 == i
  {
    var n := h * 8 + m * 4 + l * 2 + i;
    DivMod(n, 2, h * 4 + m * 2 + l, i);
    DivMod(n / 2, 2, h * 2 + m, l);
    DivMod(n / 2 / 2, 2, h, m);
    DivDiv(n, 2, 2);
    DivDiv(n, 4, 2);
  }

  /** The bits of a byte built from eight bits. */
  lemma ByteOfBits(b7: nat, b6: nat, b5: nat, b4: nat, b3: nat, b2: nat, b1: nat, b0: nat)
    requires b7 < 2 && b6 < 2 && b5 < 2 && b4 < 2 && b3 < 2 && b2 < 2 && b1 < 2 && b0 < 2
    ensures var c := b7 * 128 + b6 * 64 + b5 * 32 + b4 * 16 + b3 * 8 + b2 * 4 + b1 * 2 + b0;
            && c / 128 % 2 == b7 && c / 64 % 2 == b6 && c / 32 % 2 == b5 && c / 16 % 2 == b4
            && c / 8 % 2 == b3 && c / 4 % 2 == b2 && c / 2 % 2 == b1 && c % 2 == b0
  {
    var lo := b3 * 8 + b2 * 4 + b1 * 2 + b0;
    var hi := b7 * 8 + b6 * 4 + b5 * 2 + b4;
    var c := hi * 16 + lo;
    NibbleOfBits(b3, b2, b1, b0);
    NibbleOfBits(b7, b6, b5, b4);
    DivMod(c, 16, hi, lo);
    DivDiv(c, 16, 2);
    DivDiv(c, 16, 4);
    DivDiv(c, 16, 8);
    DivMod(c, 2, hi * 8 + lo / 2, b0);
    DivMod(c, 4, hi * 4 + lo / 4, lo % 4);
    DivMod(c, 8, hi * 2 + lo / 8, lo % 8);
    DivMod(lo, 2, lo / 2, b0);
    DivMod(lo, 4, b3 * 2 + b2, b1 * 2 + b0);
    DivMod(lo, 8, b3, b2 * 4 + b1 * 2 + b0);
    DivMod(lo / 2, 2, b3 * 2 + b2, b1);
    DivMod(lo / 4, 2, b3, b2);
    DivMod(hi * 8 + lo / 2, 2, hi * 4 + lo / 4, b1);
    DivMod(hi * 4 + lo / 4, 2, hi * 2 + b3, b2);
    DivMod(hi * 2 + lo / 8, 2, hi, b3);
  }

  /** Every channel of a decoded colour is 17 times its 4-bit value
      (C << 3) | (I << 2) | (c << 1) | i, and the result is a palette colour. */
  lemma DecodeColorChannels(c: byte)
    ensures var px := DecodeColor(c);
            && px.r == 17 * (c / 128 % 2 * 8 + c / 2 % 2 * 4 + c / 64 % 2 * 2 + c % 2)
            && px.g == 17 * (c / 32 % 2 * 8 + c / 2 % 2 * 4 + c / 16 % 2 * 2 + c % 2)
            && px.b == 17 * (c / 8 % 2 * 8 + c / 2 % 2 * 4 + c / 4 % 2 * 2 + c % 2)
            && IsPaletteColor(px)
  {
    ChannelBits(c / 128 % 2, c / 64 % 2, c / 2 % 2, c % 2);
    ChannelBits(c / 32 % 2, c / 16 % 2, c / 2 % 2, c % 2);
    ChannelBits(c / 8 % 2, c / 4 % 2, c / 2 % 2, c % 2);
  }

  /** The decoder loses nothing: different palette bytes give different colours. */
  lemma ColorRoundTrip(c: byte)
    ensures EncodeColor(DecodeColor(c)) == c
  {
    ChannelBits(c / 128 % 2, c / 64 % 2, c / 2 % 2, c % 2);
    ChannelBits(c / 32 % 2, c / 16 % 2, c / 2 % 2, c % 2);
    ChannelBits(c / 8 % 2, c / 4 % 2, c / 2 % 2, c % 2);
    ByteBits(c);
  }

  /** ... and every palette colour is the decoding of its encoding. */
  lemma ColorRoundTripBack(px: Rgba)
    requires IsPaletteColor(px)
    ensures DecodeColor(EncodeColor(px)) == px
  {
    var r4, g4, b4 := px.r / 17, px.g / 17, px.b / 17;
    var I, i := r4 / 4 % 2, r4 % 2;
    var R, r, G, g, B, b := r4 / 8 % 2, r4 / 2 % 2, g4 / 8 % 2, g4 / 2 % 2, b4 / 8 % 2, b4 / 2 % 2;
    assert EncodeColor(px) == R * 128 + r * 64 + G * 32 + g * 16 + B * 8 + b * 4 + I * 2 + i;
    DecodeOfBits(R, r, G, g, B, b, I, i);
    ChannelBack(px.r, I, i);
    ChannelBack(px.g, I, i);
    ChannelBack(px.b, I, i);
  }

  /** Decoding a byte assembled from eight bits hands those bits to `Channel`. */
  lemma DecodeOfBits(R: nat, r: nat, G: nat, g: nat, B: nat, b: nat, I: nat, i: nat)
    requires R < 2 && r < 2 && G < 2 && g < 2 && B < 2 && b < 2 && I < 2 && i < 2
    ensures DecodeColor(R * 128 + r * 64 + G * 32 + g * 16 + B * 8 + b * 4 + I * 2 + i)
            == Rgba(Channel(R, r, I, i), Channel(G, g, I, i), Channel(B, b, I, i), 255)
  {
    ByteOfBits(R, r, G, g, B, b, I, i);
  }

  /** A channel that is 17 times a 4-bit value is rebuilt by `Channel` from that
      value's four bits. */
  lemma ChannelBack(v: byte, I: nat, i: nat)
    requires v % 17 == 0 && v / 17 / 4 % 2 == I && v / 17 % 2 == i
    ensures Channel(v / 17 / 8 % 2, v / 17 / 2 % 2, I, i) == v
  {
    var n := v / 17;
    DivMod(v, 17, n, 0);
    NibbleBits(n);
  }

  /** The palette byte 0b1111_0000 (R, r, G, g set; B, b, I, i clear) decodes to
      (170, 170, 0, 255): without the intensity bits each lit channel is 0b1010. */
  lemma ColorExample()
    ensures DecodeColor(0xF0) == Rgba(0xAA, 0xAA, 0, 255)
  {
    var c: byte := 0xF0;
    assert c / 128 % 2 == 1 && c / 64 % 2 == 1 && c / 32 % 2 == 1 && c / 16 % 2 == 1;
    assert c / 8 % 2 == 0 && c / 4 % 2 == 0 && c / 2 % 2 == 0 && c % 2 == 0;
    assert Channel(1, 1, 0, 0) == 0xAA;
    assert Channel(0, 0, 0, 0) == 0;
  }

  /** With every bit set, every channel is at full intensity. */
  lemma WhiteExample()
    ensures DecodeColor(0xFF) == Rgba(255, 255, 255, 255)
  {
    var w: byte := 0xFF;
    assert w / 128 % 2 == 1 && w / 64 % 2 == 1 && w / 32 % 2 == 1 && w / 16 % 2 == 1;
    assert w / 8 % 2 == 1 && w / 4 % 2 == 1 && w / 2 % 2 == 1 && w % 2 == 1;
    assert Channel(1, 1, 1, 1) == 0xFF;
  }

  /** Steps 2 to 5: the pixel at a point of the 1024x1024 video plane. */
  function VideoPixel(videoX: nat, videoY: nat, textMode: bool, vram: Vram): (px: Rgba)
    requires videoX < 1024 && videoY < 1024 && vram.Valid()
    ensures IsPaletteColor(px)
    ensures exists a :: 0 <= a < BANK_SIZE && px == DecodeColor(vram.palette[a])
  {
    var tile := TileAddr(videoX, videoY, textMode);
    var patternAddr := PatternAddr(videoX, videoY, vram.name[tile]);
    var nibble := PatternNibble(vram.pattern[patternAddr], videoY);
    var paletteAddr := PaletteAddr(nibble, vram.color[tile], videoY, textMode);
    DecodeColorChannels(vram.palette[paletteAddr]);
    DecodeColor(vram.palette[paletteAddr])
  }

  /** The pixel at a screen coordinate: step 1, then the video-plane pixel there. */
  function Pixel(screenX: nat, screenY: nat, regs: Registers, vram: Vram): (px: Rgba)
    requires vram.Valid()
    ensures IsPaletteColor(px)
    ensures exists a :: 0 <= a < BANK_SIZE && px == DecodeColor(vram.palette[a])
  {
    VideoPixel(VideoX(screenX, regs), VideoY(screenY, regs), regs.textMode, vram)
  }

  /** With horizontal zoom, screen columns 2k and 2k+1 show the same pixel. */
  lemma ZoomDoublesColumns(k: nat, screenY: nat, regs: Registers, vram: Vram)
    requires vram.Valid() && regs.zoomX
    ensures VideoX(2 * k, regs) == VideoX(2 * k + 1, regs)
    ensures Pixel(2 * k, screenY, regs, vram) == Pixel(2 * k + 1, screenY, regs, vram)
  {
  }

  /** With vertical zoom, screen rows 2k and 2k+1 show the same pixel. */
  lemma ZoomDoublesRows(screenX: nat, k: nat, regs: Registers, vram: Vram)
    requires vram.Valid() && regs.zoomY
    ensures VideoY(2 * k, regs) == VideoY(2 * k + 1, regs)
    ensures Pixel(screenX, 2 * k, regs, vram) == Pixel(screenX, 2 * k + 1, regs, vram)
  {
  }

  /** Without zoom, increasing scroll X by one (modulo 1024) moves the picture one
      column left, and increasing scroll Y by one moves it one row up. */
  lemma ScrollMovesPicture(screenX: nat, screenY: nat, regs: Registers, vram: Vram)
    requires vram.Valid() && regs.Valid() && !regs.zoomX && !regs.zoomY
    ensures Pixel(screenX, screenY, regs.(scrollX := (regs.scrollX + 1) % 1024), vram)
            == Pixel(screenX + 1, screenY, regs, vram)
    ensures Pixel(screenX, screenY, regs.(scrollY := (regs.scrollY + 1) % 1024), vram)
            == Pixel(screenX, screenY + 1, regs, vram)
  {
    var right := regs.(scrollX := (regs.scrollX + 1) % 1024);
    AddMod(screenX + 3, regs.scrollX + 1, 1024);
    assert VideoX(screenX, right) == VideoX(screenX + 1, regs);
    assert VideoY(screenY, right) == VideoY(screenY, regs);
    var down := regs.(scrollY := (regs.scrollY + 1) % 1024);
    AddMod(screenY + 4, regs.scrollY + 1, 1024);
    assert VideoY(screenY, down) == VideoY(screenY + 1, regs);
    assert VideoX(screenX, down) == VideoX(screenX, regs);
  }

  /** One byte of the RGBA layout: channel 0 red, 1 green, 2 blue, 3 alpha. */
  function ChannelOf(px: Rgba, channel: nat): byte
  {
    if channel == 0 then px.r else if channel == 1 then px.g else if channel == 2 then px.b else px.a
  }

  const WIDTH: nat := 640
  const HEIGHT: nat := 480

  /** The picture as the nested loops visit it: 480 lines of 640 pixels. */
  function Screen(regs: Registers, vram: Vram): (lines: seq<seq<Rgba>>)
    requires vram.Valid()
    ensures |lines| == HEIGHT
    ensures forall y :: 0 <= y < HEIGHT ==> |lines[y]| == WIDTH
  {
    seq(HEIGHT, y requires 0 <= y < HEIGHT => seq(WIDTH, x requires 0 <= x < WIDTH => Pixel(x, y, regs, vram)))
  }

  /** One line in framebuffer order: red, green, blue and alpha of each pixel in turn. */
  function LineBytes(line: seq<Rgba>): (bytes: seq<byte>)
    ensures |bytes| == 4 * |line|
  {
    if line == [] then [] else [line[0].r, line[0].g, line[0].b, line[0].a] + LineBytes(line[1..])
  }

  /** Whole lines one after the other, from the top. */
  function Layout(lines: seq<seq<Rgba>>): (bytes: seq<byte>)
    requires forall y :: 0 <= y < |lines| ==> |lines[y]| == WIDTH
    ensures |bytes| == 4 * WIDTH * |lines|
  {
    if lines == [] then [] else LineBytes(lines[0]) + Layout(lines[1..])
  }

  /** The framebuffer: the 640x480 screen, four bytes per pixel. */
  function Frame(regs: Registers, vram: Vram): (f: seq<byte>)
    requires vram.Valid()
    ensures |f| == FRAME_BYTES
  {
    Layout(Screen(regs, vram))
  }

  /** Byte k of pixel x of a line is its channel k. */
  lemma {:induction false} LineByte(line: seq<Rgba>, x: nat, k: nat)
    requires x < |line| && k < 4
    ensures LineBytes(line)[4 * x + k] == ChannelOf(line[x], k)
  {
    if x > 0 {
      LineByte(line[1..], x - 1, k);
    }
  }

  /** Byte k of pixel x of line y lands at `4 * (y * 640 + x) + k`. */
  lemma {:induction false} LayoutByte(lines: seq<seq<Rgba>>, x: nat, y: nat, k: nat)
    requires forall j :: 0 <= j < |lines| ==> |lines[j]| == WIDTH
    requires x < WIDTH && y < |lines| && k < 4
    ensures 4 * (y * WIDTH + x) + k < |Layout(lines)|
    ensures Layout(lines)[4 * (y * WIDTH + x) + k] == ChannelOf(lines[y][x], k)
  {
    if y == 0 {
      LineByte(lines[0], x, k);
    } else {
      LayoutByte(lines[1..], x, y - 1, k);
      assert 4 * (y * WIDTH + x) + k == 4 * WIDTH + 4 * ((y - 1) * WIDTH + x) + k;
    }
  }

  /** The pixel at (x, y) lands at byte `4 * (y * 640 + x)`: byte k of it is red,
      green, blue for k = 0, 1, 2, and 255 for k = 3. */
  lemma FrameByte(x: nat, y: nat, k: nat, regs: Registers, vram: Vram)
    requires vram.Valid() && x < WIDTH && y < HEIGHT && k < 4
    ensures 4 * (y * WIDTH + x) + k < FRAME_BYTES
    ensures Frame(regs, vram)[4 * (y * WIDTH + x) + k] == ChannelOf(Pixel(x, y, regs, vram), k)
    ensures k == 3 ==> Frame(regs, vram)[4 * (y * WIDTH + x) + k] == 255
  {
    var lines := Screen(regs, vram);
    LayoutByte(lines, x, y, k);
    assert lines[y][x] == Pixel(x, y, regs, vram);
  }

  /** The redraw step of `render_frame`: when the dirty flag is clear the previous
      image stays; when it is set every pixel is recomputed. Either way the flag is
      clear afterwards. Result: (dirty flag, image). */
  function Present(dirty: bool, regs: Registers, vram: Vram, image: seq<byte>): (r: (bool, seq<byte>))
    requires vram.Valid()
    ensures !r.0
    ensures !dirty ==> r.1 == image
    ensures dirty ==> |r.1| == FRAME_BYTES
  {
    if dirty then (false, Frame(regs, vram)) else (false, image)
  }

  /** Presenting twice without an intervening write changes nothing the second time. */
  lemma PresentIdempotent(dirty: bool, regs: Registers, vram: Vram, image: seq<byte>)
    requires vram.Valid()
    ensures var once := Present(dirty, regs, vram, image);
            Present(once.0, regs, vram, once.1) == once
  {
  }
}

=== FILE: script.dfy ===
/** The current browser script (emu21.js): the same memory bus, a write-only video
    port protocol without a dirty flag, and a 16-bit latch. Its `io_read` answers 0
    on every port, its `io_write` switches on the whole port number, and the picture
    is redrawn on every animation frame. */
module Script {
  import opened Bytes
  import opened Bus
  import opened Video
  import Scanout
  import ScriptScanout
  import OldScript

  /** The globals `io_write` and `render` use. */
  datatype Machine = Machine(rom: seq<byte>, ram: seq<byte>, regs: Registers, latch: nat, vram: Vram)
  {
    /** The latch is 16 bits: the ports and the increment all mask to 0xFFFF. */
    predicate Valid()
    {
      ValidMemory(rom, ram) && regs.Valid() && vram.Valid() && latch < 0x1_0000
    }
  }

  /** The page's globals at load time: the ROM is zero, RAM and the four banks hold
      whatever `Math.random() * 256` truncates to, the scroll registers and mode flags
      are cleared and the latch is 0. This script never loads a ROM: `cpu.reset()`
      starts the CPU on the all-zero one. */
  function Boot(ram: seq<byte>, vram: Vram): (m: Machine)
    requires |ram| == RAM_SIZE && vram.Valid()
    ensures m.Valid() && m.latch == 0 && m.regs == PowerOn
    ensures forall a :: 0 <= a < ROM_SIZE ==> m.rom[a] == 0
    ensures m.ram == ram && m.vram == vram
  {
    Machine(seq(ROM_SIZE, _ => 0), ram, PowerOn, 0, vram)
  }

  /** `mem_write`, as in the old script; `mem_read` is the same read as the old
      script's, `Bus.ScriptRead`. */
  function MemWrite(m: Machine, address: u16, value: byte): (m': Machine)
    requires m.Valid()
    ensures m'.Valid() && m' == m.(ram := m'.ram)
    ensures address < ROM_SIZE ==> m' == m
    ensures ScriptRead(m'.rom, m'.ram, address) == if address < ROM_SIZE then m.rom[address] else value
    ensures forall other: u16 :: other != address ==> ScriptRead(m'.rom, m'.ram, other) == ScriptRead(m.rom, m.ram, other)
  {
    m.(ram := ScriptWrite(m.rom, m.ram, address, value))
  }

  /** `io_read`: every port reads 0; nothing can be read back from the video memory.
      The machine and the port only give the function the handler's call shape. */
  function IoRead(m: Machine, port: u16): (r: byte)
    ensures r == 0
  {
    0
  }

  /** A bank port: the typed-array store at the latch (dropped past the end of the
      bank), then for 0xBC-0xBF the 16-bit increment. */
  function BankWrite(m: Machine, bank: BankId, value: byte, increment: bool): (m': Machine)
    requires m.Valid()
    ensures m'.Valid()
    ensures m'.vram.Bank(bank) == Store(m.vram.Bank(bank), m.latch, value)
    ensures forall other :: other != bank ==> m'.vram.Bank(other) == m.vram.Bank(other)
    ensures m.latch >= BANK_SIZE ==> m'.vram == m.vram
    ensures m'.latch == if increment then (m.latch + 1) % 0x1_0000 else m.latch
    ensures m'.rom == m.rom && m'.ram == m.ram && m'.regs == m.regs
  {
    var stored := m.(vram := m.vram.WithBank(bank, Store(m.vram.Bank(bank), m.latch, value)));
    assert m.latch >= BANK_SIZE ==> stored.vram == m.vram by {
      if m.latch >= BANK_SIZE {
        OldScript.VramExtensional(stored.vram, m.vram);
      }
    }
    if increment then stored.(latch := Increment16(stored.latch)) else stored
  }

  /** `io_write`: `switch (port)` compares the whole port number, so a port whose high
      byte is not zero selects nothing. */
  function IoWrite(m: Machine, port: u16, value: byte): (m': Machine)
    requires m.Valid()
    ensures m'.Valid()
    ensures m'.rom == m.rom && m'.ram == m.ram
    ensures port == 0xB0 ==> m' == m.(regs := m.regs.(scrollX := MergeLow(m.regs.scrollX, value)))
    ensures port == 0xB1 ==> m' == m.(regs := m.regs.(scrollY := MergeLow(m.regs.scrollY, value)))
    ensures port == 0xB2 ==> m' == m.(regs := ApplyControl(m.regs, value))
    ensures port == 0xB3 ==> m' == m.(latch := m.latch / 256 * 256 + value)
    ensures port == 0xB4 ==> m' == m.(latch := value * 256 + m.latch % 256)
    ensures 0xB8 <= port < 0xC0 ==> m' == BankWrite(m, BankOfIndex(port % 4), value, port >= 0xBC)
    ensures !(0xB0 <= port < 0xB5 || 0xB8 <= port < 0xC0) ==> m' == m
  {
    if port >= 0x100 then m
    else
      match DecodePort(port)
      case ScrollXLow => m.(regs := m.regs.(scrollX := MergeLow(m.regs.scrollX, value)))
      case ScrollYLow => m.(regs := m.regs.(scrollY := MergeLow(m.regs.scrollY, value)))
      case ControlByte => m.(regs := ApplyControl(m.regs, value))
      case LatchLow => m.(latch := ScriptLatchLow(m.latch, value))
      case LatchHigh => m.(latch := ScriptLatchHigh(m.latch, value))
      case Direct(b) => BankWrite(m, b, value, false)
      case AutoIncrement(b) => BankWrite(m, b, value, true)
      case _ => m
  }

  /** `render`: the whole picture, drawn on every animation frame whatever was
      written since the last one. */
  function Render(m: Machine): (image: seq<byte>)
    requires m.Valid()
    ensures |image| == Scanout.FRAME_BYTES
    ensures forall x: nat, y: nat, k: nat :: x < Scanout.WIDTH && y < Scanout.HEIGHT && k < 4 ==>
      image[4 * (y * Scanout.WIDTH + x) + k] == Scanout.ChannelOf(ScriptScanout.Pixel(x, y, m.regs, m.vram), k)
  {
    ScriptScanout.FrameBytes(m.regs, m.vram);
    ScriptScanout.Frame(m.regs, m.vram)
  }

  /* Properties. */

  /** Past 0x1FFF the 16-bit increment does not wrap to 0 as the other variants do:
      it moves the latch to 0x2000, past the end of every bank, and the writes that
      follow are lost until the latch is programmed again. */
  lemma LatchRunsOffBank(m: Machine, k: nat, v: byte, w: byte)
    requires m.Valid() && m.latch == 0x1FFF && k < 4
    ensures var m1 := IoWrite(m, 0xBC + k, v);
            && m1.latch == 0x2000
            && m1.vram.Bank(BankOfIndex(k))[0x1FFF] == v
            && IoWrite(m1, 0xBC + k, w).vram == m1.vram
  {
    assert (0xBC + k) % 4 == k;
  }

  /** A bank write with the latch past the bank changes no video memory. */
  lemma OutOfBankWriteDropped(m: Machine, port: u16, value: byte)
    requires m.Valid() && m.latch >= BANK_SIZE && 0xB8 <= port < 0xC0
    ensures IoWrite(m, port, value).vram == m.vram
  {
  }

  /** A port number with a non-zero high byte is ignored, where the other variants
      look only at the low byte. */
  lemma HighPortIgnored(m: Machine, port: u16, value: byte)
    requires m.Valid() && port >= 0x100
    ensures IoWrite(m, port, value) == m
  {
  }

  /** On the low ports, while the latch stays inside a bank and short of its last
      cell, the current and the old script program the same registers, latch and video
      memory: they differ only in the old script's dirty flag. */
  lemma AgreesWithOldScript(o: OldScript.Machine, m: Machine, port: u16, value: byte)
    requires o.Valid() && m.Valid()
    requires o.rom == m.rom && o.ram == m.ram && o.regs == m.regs && o.latch == m.latch && o.vram == m.vram
    requires port < 0x100 && m.latch < BANK_SIZE - 1
    ensures var o' := OldScript.IoWrite(o, port, value);
            var m' := IoWrite(m, port, value);
            o'.regs == m'.regs && o'.latch == m'.latch && o'.vram == m'.vram
  {
    assert port % 256 == port;
    if 0xB8 <= port < 0xC0 {
      var b := BankOfIndex(port % 4);
      var o' := OldScript.IoWrite(o, port, value);
      var m' := IoWrite(m, port, value);
      assert o'.vram.Bank(b) == m'.vram.Bank(b);
      OldScript.VramExtensional(o'.vram, m'.vram);
    }
  }
}

=== FILE: script_scanout.dfy ===
/** The pixel function of the current browser script (emu21.js). It shares the pattern
    lookup and the colour decoder with the other variants but differs in three places:
    it ignores both zoom flags; in text mode an operator-precedence slip makes the
    tile row's low bit videoY bit 0 instead of bit 9; and in graphics mode the palette
    page bit is ORed into the pattern address after the fetch, so it never reaches
    the palette address. */
module ScriptScanout {
  import opened Bytes
  import opened Arith
  import opened Video
  import Scanout

  /** `(screenX + scrollX + 3) & 0x3ff`: no zoom. */
  function VideoX(screenX: nat, regs: Registers): (v: nat)
    ensures v < 1024
    ensures !regs.zoomX ==> v == Scanout.VideoX(screenX, regs)
  {
    (screenX + regs.scrollX + 3) % 1024
  }

  /** `(screenY + scrollY + 4) & 0x3ff`: no zoom. */
  function VideoY(screenY: nat, regs: Registers): (v: nat)
    ensures v < 1024
    ensures !regs.zoomY ==> v == Scanout.VideoY(screenY, regs)
  {
    (screenY + regs.scrollY + 4) % 1024
  }

  /** The tile index as written: in text mode the row's low bit is
      `videoY & 0x200 >>> 9`, which parses as `videoY & (0x200 >>> 9)`, that is
      videoY bit 0. */
  function TileAddr(videoX: nat, videoY: nat, textMode: bool): (a: nat)
    requires videoX < 1024 && videoY < 1024
    ensures a < BANK_SIZE
    ensures a % 128 == videoX / 8
    ensures a / 128 / 2 == videoY / 16 % 32
    ensures a / 128 % 2 == if textMode then videoY % 2 else videoY / 8 % 2
  {
    var tileX := videoX / 8 % 128;
    var tileY := videoY / 8 % 64;
    var row := if textMode then tileY / 2 * 2 + videoY % 2 else tileY;
    Scanout.TileRowBits(videoY);
    DivMod(tileX + row * 128, 128, row, tileX);
    DivMod(row, 2, tileY / 2, row % 2);
    tileX + row * 128
  }

  /** The palette index as written: text mode adds videoY bit 3 as bit 12; in graphics
      mode the page bit goes to the already-used pattern address and is lost. */
  function PaletteAddr(nibble: nat, colorByte: byte, videoY: nat, textMode: bool): (a: nat)
    requires nibble < 16 && videoY < 1024
    ensures a < BANK_SIZE
    ensures a % 16 == nibble
    ensures a / 16 % 256 == colorByte
    ensures a / 4096 == if textMode then videoY / 8 % 2 else 0
  {
    var page := if textMode then videoY / 8 % 2 else 0;
    var a := nibble + colorByte * 16 + page * 4096;
    DivMod(a, 16, colorByte + page * 256, nibble);
    DivMod(a / 16, 256, page, colorByte);
    DivDiv(a, 16, 256);
    a
  }

  /** The pixel at a point of the video plane, as the current script computes it. */
  function VideoPixel(videoX: nat, videoY: nat, textMode: bool, vram: Vram): (px: Scanout.Rgba)
    requires videoX < 1024 && videoY < 1024 && vram.Valid()
    ensures Scanout.IsPaletteColor(px)
    ensures exists a :: 0 <= a < BANK_SIZE && px == Scanout.DecodeColor(vram.palette[a])
    ensures !textMode ==> exists a :: 0 <= a < BANK_SIZE / 2 && px == Scanout.DecodeColor(vram.palette[a])
  {
    var tile := TileAddr(videoX, videoY, textMode);
    var patternAddr := Scanout.PatternAddr(videoX, videoY, vram.name[tile]);
    var nibble := Scanout.PatternNibble(vram.pattern[patternAddr], videoY);
    var paletteAddr := PaletteAddr(nibble, vram.color[tile], videoY, textMode);
    Scanout.DecodeColorChannels(vram.palette[paletteAddr]);
    Scanout.DecodeColor(vram.palette[paletteAddr])
  }

  /** The pixel at a screen coordinate, as the current script computes it. */
  function Pixel(screenX: nat, screenY: nat, regs: Registers, vram: Vram): (px: Scanout.Rgba)
    requires vram.Valid()
    ensures Scanout.IsPaletteColor(px)
    ensures exists a :: 0 <= a < BANK_SIZE && px == Scanout.DecodeColor(vram.palette[a])
    ensures !regs.textMode ==> exists a :: 0 <= a < BANK_SIZE / 2 && px == Scanout.DecodeColor(vram.palette[a])
  {
    VideoPixel(VideoX(screenX, regs), VideoY(screenY, regs), regs.textMode, vram)
  }

  /** The picture as the current script's loops visit it. */
  function Screen(regs: Registers, vram: Vram): (lines: seq<seq<Scanout.Rgba>>)
    requires vram.Valid()
    ensures |lines| == Scanout.HEIGHT
    ensures forall y :: 0 <= y < Scanout.HEIGHT ==> |lines[y]| == Scanout.WIDTH
  {
    seq(Scanout.HEIGHT, y requires 0 <= y < Scanout.HEIGHT =>
      seq(Scanout.WIDTH, x requires 0 <= x < Scanout.WIDTH => Pixel(x, y, regs, vram)))
  }

  /** The frame the current script draws on every animation frame, in the same
      byte layout as the other variants. */
  function Frame(regs: Registers, vram: Vram): (f: seq<byte>)
    requires vram.Valid()
    ensures |f| == Scanout.FRAME_BYTES
  {
    Scanout.Layout(Screen(regs, vram))
  }

  /** Byte k of pixel (x, y) is its channel k, at `4 * (y * 640 + x) + k`. */
  lemma FrameByte(x: nat, y: nat, k: nat, regs: Registers, vram: Vram)
    requires vram.Valid() && x < Scanout.WIDTH && y < Scanout.HEIGHT && k < 4
    ensures 4 * (y * Scanout.WIDTH + x) + k < Scanout.FRAME_BYTES
    ensures Frame(regs, vram)[4 * (y * Scanout.WIDTH + x) + k] == Scanout.ChannelOf(Pixel(x, y, regs, vram), k)
  {
    var lines := Screen(regs, vram);
    Scanout.LayoutByte(lines, x, y, k);
    assert lines[y][x] == Pixel(x, y, regs, vram);
  }

  /** Every byte of the frame at once: byte k of pixel (x, y) is its channel k. */
  lemma FrameBytes(regs: Registers, vram: Vram)
    requires vram.Valid()
    ensures forall x: nat, y: nat, k: nat :: x < Scanout.WIDTH && y < Scanout.HEIGHT && k < 4 ==>
      Frame(regs, vram)[4 * (y * Scanout.WIDTH + x) + k] == Scanout.ChannelOf(Pixel(x, y, regs, vram), k)
  {
    forall x: nat, y: nat, k: nat | x < Scanout.WIDTH && y < Scanout.HEIGHT && k < 4
      ensures Frame(regs, vram)[4 * (y * Scanout.WIDTH + x) + k] == Scanout.ChannelOf(Pixel(x, y, regs, vram), k)
    {
      FrameByte(x, y, k, regs, vram);
    }
  }

  /* How the current script's picture relates to the shared scan-out. */

  /** Neither zoom flag has any effect on the picture. */
  lemma IgnoresZoom(screenX: nat, screenY: nat, regs: Registers, vram: Vram)
    requires vram.Valid()
    ensures Pixel(screenX, screenY, regs, vram) == Pixel(screenX, screenY, regs.(zoomX := false, zoomY := false), vram)
  {
    var plain := regs.(zoomX := false, zoomY := false);
    assert VideoX(screenX, plain) == VideoX(screenX, regs);
    assert VideoY(screenY, plain) == VideoY(screenY, regs);
  }

  /** In graphics mode the 1024-row video plane repeats after 512 rows: moving the
      vertical scroll by 512 shows the same picture, because videoY bit 9 reaches
      neither the tile row nor the palette address. */
  lemma GraphicsRepeatsAfter512Rows(screenX: nat, screenY: nat, regs: Registers, vram: Vram)
    requires vram.Valid() && regs.Valid() && !regs.textMode
    ensures Pixel(screenX, screenY, regs.(scrollY := (regs.scrollY + 512) % 1024), vram)
            == Pixel(screenX, screenY, regs, vram)
  {
    var moved := regs.(scrollY := (regs.scrollY + 512) % 1024);
    var y := VideoY(screenY, regs);
    var y' := VideoY(screenY, moved);
    assert y' == (y + 512) % 1024 by {
      AddMod(screenY + 4, regs.scrollY + 512, 1024);
      AddMod(512, screenY + regs.scrollY + 4, 1024);
    }
    GraphicsIgnoresBit9(VideoX(screenX, regs), y, y', vram);
  }

  /** In graphics mode two video rows 512 apart show the same pixels. */
  lemma GraphicsIgnoresBit9(x: nat, y: nat, y': nat, vram: Vram)
    requires x < 1024 && y < 1024 && y' == (y + 512) % 1024 && vram.Valid()
    ensures VideoPixel(x, y', false, vram) == VideoPixel(x, y, false, vram)
  {
    HalfTurn(y, y');
    var tile := TileAddr(x, y, false);
    assert TileAddr(x, y', false) == tile;
    var patternAddr := Scanout.PatternAddr(x, y, vram.name[tile]);
    assert Scanout.PatternAddr(x, y', vram.name[tile]) == patternAddr;
    var nibble := Scanout.PatternNibble(vram.pattern[patternAddr], y);
    assert Scanout.PatternNibble(vram.pattern[patternAddr], y') == nibble;
    assert PaletteAddr(nibble, vram.color[tile], y', false) == PaletteAddr(nibble, vram.color[tile], y, false);
  }

  /** Two rows 512 apart differ only in bit 9: they share the tile row of graphics
      mode and the row within the tile. */
  lemma HalfTurn(y: nat, y': nat)
    requires y < 1024 && y' == (y + 512) % 1024
    ensures y' / 8 % 64 == y / 8 % 64 && y' % 8 == y % 8
  {
    if y < 512 {
      DivMod(y + 512, 1024, 0, y + 512);
      DivMod(y', 8, y / 8 + 64, y % 8);
      DivMod(y / 8, 64, 0, y / 8);
      DivMod(y / 8 + 64, 64, 1, y / 8);
    } else {
      DivMod(y + 512, 1024, 1, y - 512);
      DivMod(y, 8, y' / 8 + 64, y' % 8);
      DivMod(y' / 8, 64, 0, y' / 8);
      DivMod(y' / 8 + 64, 64, 1, y' / 8);
    }
  }

  /** Where the slips cannot show, the current script draws what the shared scan-out
      draws: without zoom, in graphics mode on the upper 512 video rows, and in text
      mode wherever videoY bits 0 and 9 agree. */
  lemma AgreesWithScanout(screenX: nat, screenY: nat, regs: Registers, vram: Vram)
    requires vram.Valid() && !regs.zoomX && !regs.zoomY
    requires var y := VideoY(screenY, regs);
             if regs.textMode then y % 2 == y / 512 else y < 512
    ensures Pixel(screenX, screenY, regs, vram) == Scanout.Pixel(screenX, screenY, regs, vram)
  {
    AgreesOnPlane(VideoX(screenX, regs), VideoY(screenY, regs), regs.textMode, vram);
  }

  /** The video-plane pixels agree where the tile row and the palette page agree. */
  lemma AgreesOnPlane(x: nat, y: nat, textMode: bool, vram: Vram)
    requires x < 1024 && y < 1024 && vram.Valid()
    requires if textMode then y % 2 == y / 512 else y < 512
    ensures VideoPixel(x, y, textMode, vram) == Scanout.VideoPixel(x, y, textMode, vram)
  {
    var tile := TileAddr(x, y, textMode);
    assert tile == Scanout.TileAddr(x, y, textMode);
    var nibble := Scanout.PatternNibble(vram.pattern[Scanout.PatternAddr(x, y, vram.name[tile])], y);
    assert PaletteAddr(nibble, vram.color[tile], y, textMode)
        == Scanout.PaletteAddr(nibble, vram.color[tile], y, textMode);
  }

  /** Video row 1 in text mode: the script reads the tile row 1 entry (index 128) where
      the shared scan-out reads row 0 (index 0). */
  lemma TextRowSlipExample()
    ensures TileAddr(0, 1, true) == 128
    ensures Scanout.TileAddr(0, 1, true) == 0
  {
  }

  /** Video row 512 in graphics mode: the script reads palette entry 0 where the
      shared scan-out reads entry 4096, on the second palette page. */
  lemma LostPageExample()
    ensures PaletteAddr(0, 0, 512, false) == 0
    ensures Scanout.PaletteAddr(0, 0, 512, false) == 4096
  {
  }
}

=== FILE: video.dfy ===
/** The video controller's CPU-facing state: scroll and mode registers, the control
    byte that packs them, the VRAM address latch with each variant's masking, the
    I/O port map, and the four 8 KiB video memories. */
module Video {
  import opened Bytes
  import opened Arith

  const BANK_SIZE: nat := 0x2000

  /** Scroll offsets (10 bits each) and the three mode flags. */
  datatype Registers = Registers(scrollX: nat, scrollY: nat, zoomX: bool, zoomY: bool, textMode: bool)
  {
    predicate Valid()
    {
      scrollX < 1024 && scrollY < 1024
    }
  }

  /** Power-on register contents: no scroll, no zoom, graphics mode. */
  const PowerOn: Registers := Registers(0, 0, false, false, false)

  /** Ports 0xB0 and 0xB1: `scroll = (scroll & 0x300) | value`. The low byte is
      replaced by the written value and bits 8-9 are kept. */
  function MergeLow(scroll: nat, value: byte): (r: nat)
    ensures r < 1024
    ensures r % 256 == value
    ensures r / 256 == scroll / 256 % 4
    ensures scroll < 1024 ==> r / 256 == scroll / 256
  {
    scroll / 256 % 4 * 256 + value
  }

  /** The control byte written to port 0xB2, field by field:
      bits 0-1 scroll X high, bit 2 zoom X, bit 3 unused, bits 4-5 scroll Y high,
      bit 6 zoom Y, bit 7 text mode. */
  datatype Control = Control(scrollXHigh: nat, zoomX: bool, scrollYHigh: nat, zoomY: bool, textMode: bool)
  {
    predicate Valid()
    {
      scrollXHigh < 4 && scrollYHigh < 4
    }
  }

  function DecodeControl(value: byte): (c: Control)
    ensures c.Valid()
  {
    Control(value % 4, value / 4 % 2 == 1, value / 16 % 4, value / 64 % 2 == 1, value / 128 == 1)
  }

  /** Packs the fields back into a control byte, with bit 3 clear. */
  function EncodeControl(c: Control): (value: byte)
    requires c.Valid()
    ensures value / 8 % 2 == 0
  {
    c.scrollXHigh + (if c.zoomX then 4 else 0) + 16 * c.scrollYHigh
      + (if c.zoomY then 64 else 0) + (if c.textMode then 128 else 0)
  }

  /** Every field survives an encode/decode round trip. */
  lemma ControlRoundTrip(c: Control)
    requires c.Valid()
    ensures DecodeControl(EncodeControl(c)) == c
  {
    var sx, sy := c.scrollXHigh, c.scrollYHigh;
    var zx, zy, t := if c.zoomX then 1 else 0, if c.zoomY then 1 else 0, if c.textMode then 1 else 0;
    var v := EncodeControl(c);
    assert v == sx + 4 * zx + 16 * sy + 64 * zy + 128 * t;
    DivMod(v, 4, zx + 4 * sy + 16 * zy + 32 * t, sx);
    DivMod(v / 4, 2, 2 * sy + 8 * zy + 16 * t, zx);
    DivMod(v, 16, sy + 4 * zy + 8 * t, sx + 4 * zx);
    DivMod(v / 16, 4, zy + 2 * t, sy);
    DivMod(v, 64, zy + 2 * t, sx + 4 * zx + 16 * sy);
    DivMod(v / 64, 2, t, zy);
    DivMod(v, 128, t, sx + 4 * zx + 16 * sy + 64 * zy);
  }

  /** Decoding loses exactly bit 3: re-encoding gives back the byte with bit 3 cleared. */
  lemma ControlLosesOnlyBit3(value: byte)
    ensures EncodeControl(DecodeControl(value)) == value - value / 8 % 2 * 8
    ensures DecodeControl(value) == DecodeControl(value - value / 8 % 2 * 8)
  {
    var c := DecodeControl(value);
    assert (if c.zoomX then 4 else 0) == 4 * (value / 4 % 2);
    assert (if c.zoomY then 64 else 0) == 64 * (value / 64 % 2);
    assert (if c.textMode then 128 else 0) == 128 * (value / 128);
    ControlBits(value);
    assert EncodeControl(c) == value - value / 8 % 2 * 8;
    ControlRoundTrip(c);
  }

  /** A byte is the sum of its control-byte fields. */
  lemma ControlBits(value: byte)
    ensures value == value % 4 + 4 * (value / 4 % 2) + 8 * (value / 8 % 2) + 16 * (value / 16 % 4)
                     + 64 * (value / 64 % 2) + 128 * (value / 128)
  {
    assert value == value % 4 + 4 * (value / 4);
    assert value / 4 == value / 4 % 2 + 2 * (value / 8);
    assert value / 8 == value / 8 % 2 + 2 * (value / 16);
    assert value / 16 == value / 16 % 4 + 4 * (value / 64);
    assert value / 64 == value / 64 % 2 + 2 * (value / 128);
  }


  /** Port 0xB2 (`set_video_mode` in the native build): the low bytes of both scroll
      registers stay, their bits 8-9 and the three flags come from the control byte. */
  function ApplyControl(r: Registers, value: byte): (r': Registers)
    ensures r'.Valid()
    ensures r'.scrollX % 256 == r.scrollX % 256 && r'.scrollX / 256 == value % 4
    ensures r'.scrollY % 256 == r.scrollY % 256 && r'.scrollY / 256 == value / 16 % 4
    ensures r'.zoomX <==> value / 4 % 2 == 1
    ensures r'.zoomY <==> value / 64 % 2 == 1
    ensures r'.textMode <==> value >= 128
  {
    var c := DecodeControl(value);
    Registers(r.scrollX % 256 + c.scrollXHigh * 256, r.scrollY % 256 + c.scrollYHigh * 256,
              c.zoomX, c.zoomY, c.textMode)
  }

  /** The control byte `0b1000_0101` followed by a scroll-X low write of 0xFF gives
      text mode, zoom X, no zoom Y, scroll X 0x1FF and an untouched scroll Y low byte. */
  lemma ControlExample(r: Registers)
    requires r.Valid()
    ensures var r1 := ApplyControl(r, 0x85);
            var r2 := r1.(scrollX := MergeLow(r1.scrollX, 0xFF));
            r2.textMode && r2.zoomX && !r2.zoomY && r2.scrollX == 0x1FF
            && r2.scrollY == r.scrollY % 256
  {
  }

  /* The VRAM address latch. Each variant masks it differently. */

  /** Port 0xB3 in the scripts: `latch = (latch & 0xff00) | value`. */
  function ScriptLatchLow(latch: nat, value: byte): (r: nat)
    ensures r % 256 == value
    ensures r / 256 == latch / 256 % 256
    ensures r < 0x1_0000
  {
    latch / 256 % 256 * 256 + value
  }

  /** Port 0xB4 in the scripts: `latch = (latch & 0x00ff) | (value << 8)`, unmasked. */
  function ScriptLatchHigh(latch: nat, value: byte): (r: nat)
    ensures r % 256 == latch % 256
    ensures r / 256 == value
    ensures r < 0x1_0000
  {
    latch % 256 + value * 256
  }

  /** Port 0xB3 in the native build: `latch = (latch & 0x1f00) | value`. */
  function NativeLatchLow(latch: nat, value: byte): (r: nat)
    ensures r < BANK_SIZE
    ensures r % 256 == value
    ensures r / 256 == latch / 256 % 32
  {
    latch / 256 % 32 * 256 + value
  }

  /** Port 0xB4 in the native build: `latch = (latch & 0x00ff) | ((value & 0x1F) << 8)`. */
  function NativeLatchHigh(latch: nat, value: byte): (r: nat)
    ensures r < BANK_SIZE
    ensures r % 256 == latch % 256
    ensures r / 256 == value % 32
  {
    latch % 256 + value % 32 * 256
  }

  /** Auto-increment of the old script and the native build: `(latch + 1) & 0x1fff`. */
  function Increment13(latch: nat): (r: nat)
    ensures r < BANK_SIZE
    ensures latch < BANK_SIZE - 1 ==> r == latch + 1
    ensures latch == BANK_SIZE - 1 ==> r == 0
  {
    (latch + 1) % 0x2000
  }

  /** Auto-increment of the current script: `(latch + 1) & 0xFFFF`. */
  function Increment16(latch: nat): (r: nat)
    ensures r < 0x1_0000
    ensures latch < 0xFFFF ==> r == latch + 1
    ensures latch == 0xFFFF ==> r == 0
  {
    (latch + 1) % 0x1_0000
  }

  /** Writing 0x34 then 0x12 to the latch ports gives 0x1234 in every variant; the next
      auto-increment gives 0x1235. From 0x1FFF the 13-bit increment wraps to 0 while
      the 16-bit one moves on to 0x2000. */
  lemma LatchExample(latch: nat)
    ensures ScriptLatchHigh(ScriptLatchLow(latch, 0x34), 0x12) == 0x1234
    ensures NativeLatchHigh(NativeLatchLow(latch, 0x34), 0x12) == 0x1234
    ensures Increment13(0x1234) == 0x1235 && Increment16(0x1234) == 0x1235
    ensures Increment13(0x1FFF) == 0 && Increment16(0x1FFF) == 0x2000
  {
  }

  /** Programming the latch takes two writes in either order, and the previous latch
      value never leaks into the result. */
  lemma LatchProgramming(latch: nat, lo: byte, hi: byte)
    ensures ScriptLatchHigh(ScriptLatchLow(latch, lo), hi) == hi * 256 + lo
    ensures ScriptLatchLow(ScriptLatchHigh(latch, hi), lo) == hi * 256 + lo
    ensures NativeLatchHigh(NativeLatchLow(latch, lo), hi) == hi % 32 * 256 + lo
    ensures NativeLatchLow(NativeLatchHigh(latch, hi), lo) == hi % 32 * 256 + lo
  {
  }

  /* Video memory. */

  datatype BankId = Name | Color | Pattern | Palette

  /** The four 8 KiB video memories: tile names, tile colours (attributes),
      pattern nibbles and palette entries. */
  datatype Vram = Vram(name: seq<byte>, color: seq<byte>, pattern: seq<byte>, palette: seq<byte>)
  {
    predicate Valid()
    {
      |name| == BANK_SIZE && |color| == BANK_SIZE && |pattern| == BANK_SIZE && |palette| == BANK_SIZE
    }

    function Bank(id: BankId): seq<byte>
    {
      match id
      case Name => name
      case Color => color
      case Pattern => pattern
      case Palette => palette
    }

    /** Replaces one bank; the other three are untouched. */
    function WithBank(id: BankId, s: seq<byte>): (v: Vram)
      ensures v.Bank(id) == s
      ensures forall other :: other != id ==> v.Bank(other) == Bank(other)
    {
      match id
      case Name => this.(name := s)
      case Color => this.(color := s)
      case Pattern => this.(pattern := s)
      case Palette => this.(palette := s)
    }
  }

  /* The I/O port map. */

  /** The role of each port number. 0xB5-0xB7 and everything past 0xC3 are unmapped. */
  datatype Port =
    | ScrollXLow      // 0xB0
    | ScrollYLow      // 0xB1
    | ControlByte     // 0xB2
    | LatchLow        // 0xB3
    | LatchHigh       // 0xB4
    | Direct(bank: BankId)          // 0xB8-0xBB: access at the latch
    | AutoIncrement(bank: BankId)   // 0xBC-0xBF: access at the latch, then increment it
    | SerialData      // 0xC0: receive queue head
    | SerialStatus    // 0xC1: receive queue non-empty
    | SerialOut       // 0xC2: console output
    | SerialTxStatus  // 0xC3: transmitter status
    | Unmapped

  function BankOfIndex(i: nat): BankId
    requires i < 4
  {
    if i == 0 then Name else if i == 1 then Color else if i == 2 then Pattern else Palette
  }

  function BankIndex(id: BankId): (i: nat)
    ensures i < 4 && BankOfIndex(i) == id
  {
    match id
    case Name => 0
    case Color => 1
    case Pattern => 2
    case Palette => 3
  }

  function DecodePort(p: byte): (port: Port)
    ensures 0xB8 <= p < 0xBC <==> port.Direct?
    ensures 0xBC <= p < 0xC0 <==> port.AutoIncrement?
    ensures port.Direct? || port.AutoIncrement? ==> BankIndex(port.bank) == p % 4
  {
    if p == 0xB0 then ScrollXLow
    else if p == 0xB1 then ScrollYLow
    else if p == 0xB2 then ControlByte
    else if p == 0xB3 then LatchLow
    else if p == 0xB4 then LatchHigh
    else if 0xB8 <= p < 0xBC then Direct(BankOfIndex(p - 0xB8))
    else if 0xBC <= p < 0xC0 then AutoIncrement(BankOfIndex(p - 0xBC))
    else if p == 0xC0 then SerialData
    else if p == 0xC1 then SerialStatus
    else if p == 0xC2 then SerialOut
    else if p == 0xC3 then SerialTxStatus
    else Unmapped
  }

  /** The port number of each mapped role. */
  function PortNumber(port: Port): (p: byte)
    requires !port.Unmapped?
  {
    match port
    case ScrollXLow => 0xB0
    case ScrollYLow => 0xB1
    case ControlByte => 0xB2
    case LatchLow => 0xB3
    case LatchHigh => 0xB4
    case Direct(b) => 0xB8 + BankIndex(b)
    case AutoIncrement(b) => 0xBC + BankIndex(b)
    case SerialData => 0xC0
    case SerialStatus => 0xC1
    case SerialOut => 0xC2
    case SerialTxStatus => 0xC3
  }

  /** The port map is a bijection between the mapped port numbers and the roles. */
  lemma PortMapRoundTrip(port: Port, p: byte)
    ensures !port.Unmapped? ==> DecodePort(PortNumber(port)) == port
    ensures !DecodePort(p).Unmapped? ==> PortNumber(DecodePort(p)) == p
    ensures DecodePort(p).Unmapped? <==> p < 0xB0 || 0xB5 <= p < 0xB8 || p > 0xC3
  {
  }
}
